=== FILE: README.md ===
# goc2p core, modelled in Dafny

This project models the sequential logic of the Go repository goc2p and proves properties of it. Each Go source file of the core has one Dafny module, and each module has one file:

- **Web crawler, base types** (`webcrawler/base`). `Data` covers requests, responses, items and their `Valid` tests. `CrawlerErrors` covers the crawler error and its full message. `Arguments` covers the channel and pool parameters, with `Check` and a cached `String`.
- **Web crawler, middleware.**
  - `StopSigns`: the stop sign and its per-code deal counters.
  - `ChannelManagers`: the three-state lifecycle over four bounded channels.
  - `Pools`: the entity pool, with its FIFO container and id map.
  - `IdGenerators`: the cyclic id generators.
- **Web crawler, scheduler.**
  - `RequestCaches`: the request cache.
  - `SchedulerHelpers`: component codes and the primary domain of a host.
  - `Schedulers`: the scheduler value, `Stop` and the filter ladder in front of the cache.
  - `SchedulerStart`: `Start`, its checks in order and the state it leaves.
  - `SchedulerSteps`: offering a page's requests in turn, error classification and one burst of `schedule`.
  - `SchedSummaries`: the scheduler summary and `Same`.
- **Web crawler, analyzer and item pipeline.** `Analyzers` gathers the parsers' output and re-depths the requests it finds. `ItemPipelines` covers the processor chain and its counters.
- **Collections.**
  - `SortedKeys` and `OrderedMaps` (`basic/map1`).
  - `SetAlgebra` (`basic/set`).
  - `SimpleSets` (`basic/set2.go`).
  - `Sequences` (`basic/seq.go`).
  - `Sorting`: the comparator-based insertion sort that the sortable collections share.
- **pkgtool.** `PkgUtil` covers `appendIfAbsent`.
- **Load generator.**
  - `LoadgenLib`: result codes and their names.
  - `CalcServer`: the test server's `op` and `genFormula`.
  - `CalcComm`: `BuildReq` and the `CheckResp` ladder.
  - `LoadgenParams`: the parameter checks of `NewGenerator`.
  - `LoadgenConcurrency`: the concurrency formula of `init`.
  - `LoadGenerator`: construction, the result hand-off and the status guards.
- **`TypeCategories`.** `TypeCategoryOf` of the type-switch demo.

`Common` holds what all the modules share:

- `Option` stands for a Go value that may be nil.
- `Result` stands for a Go `(value, error)` pair. Where a call can also panic, results nest: the outer `Err` is the panic and the inner one the returned error.
- Fixed-width integer types have explicit wrap-around: `Wrap32`, `Wrap64`, and `GoQuot` for division truncated toward zero.
- Decimal rendering matches Go's `%d`.

Every operation is a pure function from one immutable state to the next. Operations with loops in the source are also written as methods, whose loop invariants connect them to the functions.

The model follows the code, including these behaviours of it:

- `Start` does not put the seed request into the URL map.
- After `MaxUint32`, `GetUint32` returns 0 twice, because the branch that starts over does not advance the counter. As a result, `GetUint64` returns `MaxUint32` three times around the first wrap.
- `IsSuperset` is a proper-superset test.
- A `Sequence` swap can leave the `sorted` flag set on an unsorted slice (`Sequences.SwapCanStaleFlag`).
- `HeadMap` and `TailMap` call `SubMap` as written, so a bound that is not a stored key is ignored (see Findings).
- `NewGenerator` sizes its ticket pool with the concurrency formula as written, which overflows to 0 in one corner (see Findings).
- `DealCount` and `DealTotal` release their read lock with the write unlock, which is fatal (see Findings).
- The stop sign's summary prints its counts in ascending code order, as `%v` sorts map keys.

## Model

| member | source | states |
|---|---|---|
| Data.NewRequest | src/webcrawler/base/data.go:19-31 | the accessors of a new request give back exactly the HTTP request and depth it was built with |
| Data.NewResponse | src/webcrawler/base/data.go:45-57 | the accessors of a new response give back exactly the HTTP response and depth it was built with |
| CrawlerErrors.NewCrawlerError | src/webcrawler/base/error.go:32-39 | `Type` of a new error is the type it was created with, and its message is kept |
| CrawlerErrors.FullErrMsg | src/webcrawler/base/error.go:50-59 | the full message starts with "Crawler Error: ", carries "type: " only for a non-empty type, then the message, and ends in a newline |
| CrawlerErrors.Error | src/webcrawler/base/error.go:42-47 | `Error` returns the full message built from type and message, and fills the cache with it |
| CrawlerErrors.ErrorStable | src/webcrawler/base/error.go:42-47 | a second `Error` call returns the same string and changes nothing more |
| CrawlerErrors.FullErrMsgInjective | src/webcrawler/base/error.go:50-59 | for one error type, two equal full messages come from equal messages |
| Arguments.NewChannelArgs | src/webcrawler/base/argument.go:31-42 | the four accessors return the four capacities given to the constructor |
| Arguments.CheckChannelArgs | src/webcrawler/base/argument.go:44-58 | the check passes exactly when all four capacities are non-zero; otherwise it names the first zero one, in the order request, response, item, error |
| Arguments.ChannelArgsString | src/webcrawler/base/argument.go:60-70 | `String` fills the template with the four capacities and caches the text |
| Arguments.ChannelArgsStringStable | src/webcrawler/base/argument.go:60-70 | a second `String` call returns the same text |
| Arguments.DescribeChannelArgsInjective | src/webcrawler/base/argument.go:18-19 | the rendered text determines all four capacities |
| Arguments.NewPoolBaseArgs | src/webcrawler/base/argument.go:104-111 | both accessors return the pool sizes given to the constructor |
| Arguments.CheckPoolBaseArgs | src/webcrawler/base/argument.go:113-121 | the check passes exactly when both sizes are non-zero; the downloader pool size is reported first |
| Arguments.PoolBaseArgsString | src/webcrawler/base/argument.go:123-131 | `String` fills the template with both sizes and caches the text |
| Arguments.PoolBaseArgsStringStable | src/webcrawler/base/argument.go:123-131 | a second `String` call returns the same text |
| Arguments.DescribePoolBaseArgsInjective | src/webcrawler/base/argument.go:93-94 | the rendered text determines both pool sizes |
| IdGenerators.NewIdGenerator | src/webcrawler/middleware/id.go:14-16 | a new generator starts at 0 and has not wrapped |
| IdGenerators.GetUint32 | src/webcrawler/middleware/id.go:25-40 | after a wrap the call returns 0 and clears the flag; otherwise it returns the current id and advances, and the flag is set exactly when MaxUint32 was returned |
| IdGenerators.AfterAdd | src/webcrawler/middleware/id.go:25-40 | running a+b calls is running a calls and then b |
| IdGenerators.AfterFresh | src/webcrawler/middleware/id.go:33-39 | within the first cycle the state after k calls is k, and MaxUint32 with the wrap flag set after MaxUint32+1 calls |
| IdGenerators.PeriodRestores | src/webcrawler/middleware/id.go:25-40 | after MaxUint32+2 calls a fresh generator is fresh again |
| IdGenerators.AfterMod | src/webcrawler/middleware/id.go:25-40 | the state after k calls depends only on k modulo that period |
| IdGenerators.IdSequence | src/webcrawler/middleware/id.go:25-40 | call k of a fresh generator returns k modulo the period, except the last call of each period, which returns 0 |
| IdGenerators.FirstCycleCounts | src/webcrawler/middleware/id.go:33-39 | call k returns k for every k up to MaxUint32 |
| IdGenerators.WrapRepeatsZero | src/webcrawler/middleware/id.go:28-38 | MaxUint32 is followed by 0 twice and then 1: the reset branch does not advance the counter |
| IdGenerators.NewIdGenerator2 | src/webcrawler/middleware/id.go:48-50 | a new 64-bit generator holds a fresh 32-bit one and a zero cycle count |
| IdGenerators.GetUint64 | src/webcrawler/middleware/id.go:58-69 | the id is the base id, lifted by MaxUint32 when the cycle count is odd; the count rises when the base returns MaxUint32 |
| IdGenerators.After2Add | src/webcrawler/middleware/id.go:58-69 | running a+b calls is running a calls and then b |
| IdGenerators.After2Fresh | src/webcrawler/middleware/id.go:58-69 | the 64-bit generator drives its base exactly like a 32-bit generator, and its cycle count turns 1 after MaxUint32+1 calls |
| IdGenerators.MaxUint32ThreeTimes | src/webcrawler/middleware/id.go:60-67 | calls MaxUint32, MaxUint32+1 and MaxUint32+2 of a fresh generator all return MaxUint32 |
| ChannelManagers.StatusCode | src/webcrawler/middleware/chanman.go:13-17 | the three statuses carry the codes 0, 1 and 2 |
| ChannelManagers.StatusName | src/webcrawler/middleware/chanman.go:20-24 | every status has a non-empty name: uninitialized, initialized, closed |
| ChannelManagers.ZeroChannelManager | src/webcrawler/middleware/chanman.go:50 | the zero manager is uninitialized and has nil channels |
| ChannelManagers.Init | src/webcrawler/middleware/chanman.go:66-82 | arguments that fail their check panic with the check's message; an initialized manager without reset is left as it is and reports false; otherwise four empty channels of the given capacities are made and the status becomes initialized |
| ChannelManagers.NewChannelManager | src/webcrawler/middleware/chanman.go:49-53 | a new manager is initialized with empty channels sized by the arguments, or panics when the arguments fail their check |
| ChannelManagers.Close | src/webcrawler/middleware/chanman.go:84-96 | only an initialized manager closes, and it then reports closed; any other state is left unchanged and reports false |
| ChannelManagers.CheckStatus | src/webcrawler/middleware/chanman.go:136-148 | no error exactly when initialized; otherwise the error names the status |
| ChannelManagers.ReqChan | src/webcrawler/middleware/chanman.go:98-105 | the request channel is handed out exactly when the manager is initialized |
| ChannelManagers.RespChan | src/webcrawler/middleware/chanman.go:107-114 | the response channel is handed out exactly when the manager is initialized |
| ChannelManagers.ItemChan | src/webcrawler/middleware/chanman.go:116-123 | the item channel is handed out exactly when the manager is initialized |
| ChannelManagers.ErrorChan | src/webcrawler/middleware/chanman.go:125-132 | the error channel is handed out exactly when the manager is initialized |
| ChannelManagers.Summary | src/webcrawler/middleware/chanman.go:154-168 | the summary starts with the status name and the request channel's length and capacity |
| ChannelManagers.SummaryInjective | src/webcrawler/middleware/chanman.go:154-168 | two managers with the same summary have the same status and the same length and capacity of the request, response, item and error channels |
| ChannelManagers.SummaryStatusChar | src/webcrawler/middleware/chanman.go:154-168 | the character right after "status: " is the first letter of the status name |
| ChannelManagers.SummaryDistinguishesStatus | src/webcrawler/middleware/chanman.go:154-168 | two managers with the same summary are in the same state |
| ChannelManagers.NeverUninitializedAgain | src/webcrawler/middleware/chanman.go:66-96 | once initialized, no sequence of Init and Close calls makes a manager uninitialized again |
| ChannelManagers.CloseThenInit | src/webcrawler/middleware/chanman.go:72-94 | an initialized manager closes once, a second Close fails, and Init without reset then succeeds on the closed manager |
| StopSigns.NewStopSign | src/webcrawler/middleware/stopsign.go:29-34 | a new stop sign is down and has no acknowledgements |
| StopSigns.Sign | src/webcrawler/middleware/stopsign.go:43-51 | the flag is raised, and the call reports true exactly when it was down before; the counts are untouched |
| StopSigns.Reset | src/webcrawler/middleware/stopsign.go:57-62 | the flag is lowered and every count, and so the total, reads 0 |
| StopSigns.Bump | src/webcrawler/middleware/stopsign.go:70-74 | the code's count rises by one in uint32 arithmetic, a new code enters with 1, and every other code keeps its count |
| StopSigns.Deal | src/webcrawler/middleware/stopsign.go:64-75 | while down nothing changes; while raised the code's count rises by one (mod 2^32) and every other count is kept |
| StopSigns.DealCount | src/webcrawler/middleware/stopsign.go:77-81 | the count stored for the code, and 0 for a code that has no entry |
| StopSigns.DealTotal | src/webcrawler/middleware/stopsign.go:83-91 | the exact sum of all counts reduced modulo 2^32 |
| StopSigns.RLock | src/webcrawler/middleware/stopsign.go:78 | a read lock blocks while a writer holds the mutex and otherwise adds one reader |
| StopSigns.Unlock | src/webcrawler/middleware/stopsign.go:79 | `Unlock` without a writer hold ends the process with "sync: Unlock of unlocked RWMutex" |
| StopSigns.ReadLockedAsWritten | src/webcrawler/middleware/stopsign.go:78-79 | a read between `RLock` and a deferred `Unlock` blocks behind a writer and otherwise always ends in the fatal error |
| StopSigns.ReadLocked | src/webcrawler/middleware/stopsign.go:78-79 | with `RUnlock` instead the read returns its value whenever no writer holds the mutex |
| StopSigns.DealCountAsWritten | src/webcrawler/middleware/stopsign.go:77-81 | `DealCount` as written dies with the fatal error whenever it gets the read lock |
| StopSigns.DealTotalAsWritten | src/webcrawler/middleware/stopsign.go:83-91 | `DealTotal` as written dies with the fatal error whenever it gets the read lock |
| StopSigns.DealCountLocked | src/webcrawler/middleware/stopsign.go:77-81 | with the read unlock, `DealCount` returns the stored count |
| StopSigns.DealTotalLocked | src/webcrawler/middleware/stopsign.go:83-91 | with the read unlock, `DealTotal` returns the wrapped total |
| StopSigns.DealQueriesCrashAsWritten | src/webcrawler/middleware/stopsign.go:77-91 | on an idle mutex and a fresh stop sign the written queries die, while the corrected ones answer 0 |
| StopSigns.TotalIsSumMod | src/webcrawler/middleware/stopsign.go:83-91 | the total accumulated in uint32 is the exact sum of the counts modulo 2^32 |
| StopSigns.SumBump | src/webcrawler/middleware/stopsign.go:70-74 | one acknowledgement raises the exact sum by one, less 2^32 when the count wraps |
| StopSigns.DealPreservesValid | src/webcrawler/middleware/stopsign.go:64-75 | each code keeps a single count entry |
| StopSigns.DealTotalAfterDeal | src/webcrawler/middleware/stopsign.go:64-91 | while raised one Deal raises the total by exactly one (mod 2^32); while down it leaves the total alone |
| StopSigns.SortedCodes | src/webcrawler/middleware/stopsign.go:95 | `%v` visits the codes of the count map in ascending order, each code once per entry |
| StopSigns.Summary | src/webcrawler/middleware/stopsign.go:93-99 | "signed: false" while down; while raised the text starts with "signed: true, dealCount: " |
| StopSigns.SummaryOrderIndependent | src/webcrawler/middleware/stopsign.go:93-99 | two stop signs in the same state holding the same codes with the same counts print the same summary, whatever order the codes were first dealt in |
| StopSigns.SummaryExample | src/webcrawler/middleware/stopsign.go:64-99 | after Sign, Deal("scheduler") and Deal("analyzer-1") the summary is "signed: true, dealCount: map[analyzer-1:1 scheduler:1]" |
| StopSigns.SignedIffSignSinceReset | src/webcrawler/middleware/stopsign.go:43-62 | from a fresh sign, after any run of calls the flag is raised exactly when some Sign happened after the last Reset |
| StopSigns.SignSucceedsOncePerCycle | src/webcrawler/middleware/stopsign.go:43-51 | Sign returns true exactly when no Sign has happened since the last Reset |
| Pools.Ids | src/webcrawler/middleware/pool.go:12 | the ids of the container's entities, in order |
| Pools.Used | src/webcrawler/middleware/pool.go:123-125 | for a consistent pool, the capacity less the entities waiting in the container |
| Pools.DistinctSetCard | src/webcrawler/middleware/pool.go:35-45 | a list of distinct ids has as many distinct members as entries |
| Pools.MarkAll | src/webcrawler/middleware/pool.go:36-45 | the id map of a new pool knows exactly the generated ids, all marked as in the pool |
| Pools.MarkAllAllIn | src/webcrawler/middleware/pool.go:44 | every id of a new pool is marked as in the pool |
| Pools.FreshPoolValid | src/webcrawler/middleware/pool.go:24-54 | filling the container with distinct entities of the pool's type gives a consistent pool |
| Pools.Generate | src/webcrawler/middleware/pool.go:36-45 | the loop succeeds exactly when every generated entity has the pool's type, and then the container holds them in order |
| Pools.NewPool | src/webcrawler/middleware/pool.go:24-54 | capacity 0 is an error; otherwise success exactly when every generated entity has the type, with the type-error message otherwise; distinct generated ids give a consistent pool |
| Pools.Take | src/webcrawler/middleware/pool.go:66-75 | the oldest entity leaves the container and its id is marked taken |
| Pools.CompareAndSet | src/webcrawler/middleware/pool.go:99-117 | -1 exactly for an unknown id, 0 exactly when the value differs from the expected one, 1 otherwise; the map changes only on 1, and then only at that id |
| Pools.Return | src/webcrawler/middleware/pool.go:77-97 | accepted exactly for a non-nil entity of the pool's type whose id is known and marked taken; it then joins the back of the container; each refusal gives its own message and leaves the pool unchanged |
| Pools.KeysSplit | src/webcrawler/middleware/pool.go:62 | every known id is either in the pool or taken, never both |
| Pools.UsedCountsTakenIds | src/webcrawler/middleware/pool.go:119-125 | in a consistent pool the ids marked taken number exactly `Used()` |
| Pools.TrueIdsUpdate | src/webcrawler/middleware/pool.go:73 | marking an id adds it to or removes it from the set of ids in the pool |
| Pools.AppendFresh | src/webcrawler/middleware/pool.go:88 | appending an entity whose id is not yet waiting keeps the waiting ids distinct |
| Pools.TakePreservesValid | src/webcrawler/middleware/pool.go:66-75 | `Take` keeps the pool consistent and raises `Used` by one |
| Pools.ReturnPreservesValid | src/webcrawler/middleware/pool.go:77-97 | `Return` keeps the pool consistent; an accepted return lowers `Used` by one and never overfills the container |
| Pools.TakeThenReturn | src/webcrawler/middleware/pool.go:66-97 | returning the entity just taken succeeds and moves it to the back of the queue, with its id marked in again |
| RequestCaches.NewRequestCache | src/webcrawler/scheduler/cache.go:32-37 | a new cache is empty and running |
| RequestCaches.Put | src/webcrawler/scheduler/cache.go:46-57 | accepted exactly for a non-nil request while running; the request is appended at the back; a refusal changes nothing |
| RequestCaches.Get | src/webcrawler/scheduler/cache.go:59-71 | nil exactly when the cache is empty or closed; otherwise the oldest request, which leaves the cache |
| RequestCaches.Close | src/webcrawler/scheduler/cache.go:81-86 | the cache is closed and keeps its requests; closing a closed cache changes nothing |
| RequestCaches.CloseIdempotent | src/webcrawler/scheduler/cache.go:81-86 | closing twice is closing once |
| RequestCaches.Summary | src/webcrawler/scheduler/cache.go:88-97 | the text starts with the status name of the cache and its length |
| RequestCaches.PutAllOpen | src/webcrawler/scheduler/cache.go:46-57 | putting a list into a running cache appends the whole list in order |
| RequestCaches.DrainOpen | src/webcrawler/scheduler/cache.go:59-71 | getting from a running cache until nil yields its contents in order |
| RequestCaches.Fifo | src/webcrawler/scheduler/cache.go:15-71 | a running cache hands back what it held and then everything put, first in first out; a closed cache accepts nothing and yields nothing |
| RequestCaches.ClosedPutAll | src/webcrawler/scheduler/cache.go:50-52 | a closed cache refuses every put |
| SchedulerHelpers.GenerateCode | src/webcrawler/scheduler/helper.go:51-54 | the code is the prefix, a dash, and a string of decimal digits that reads back as the id |
| SchedulerHelpers.ParseCode | src/webcrawler/scheduler/helper.go:56-71 | always two parts; without a dash, or with a dash in front, the whole code and an empty id; otherwise the text before and after the first dash |
| SchedulerHelpers.IndexOfAt | src/webcrawler/scheduler/helper.go:61 | `strings.Index` finds the first occurrence |
| SchedulerHelpers.ParseGenerateCode | src/webcrawler/scheduler/helper.go:51-71 | a non-empty prefix without a dash comes back from `parseCode` with the decimal id |
| SchedulerHelpers.GenerateParseCode | src/webcrawler/scheduler/helper.go:51-71 | a code whose id part is a canonical decimal below 2^32 is rebuilt from its parts |
| SchedulerHelpers.TrimRight | src/webcrawler/scheduler/helper.go:97 | the longest prefix that does not end in white space, the cut part being all white space |
| SchedulerHelpers.TrimLeft | src/webcrawler/scheduler/helper.go:97 | the longest suffix that does not start with white space, the cut part being all white space |
| SchedulerHelpers.TrimSpace | src/webcrawler/scheduler/helper.go:97 | an infix of the host with no white space at either end, empty exactly when the host is all white space |
| SchedulerHelpers.TrimSpaceTrimmed | src/webcrawler/scheduler/helper.go:97 | a string without surrounding white space is left alone |
| SchedulerHelpers.SplitDots | src/webcrawler/scheduler/helper.go:73 | the pieces between the dots, none of which holds a dot |
| SchedulerHelpers.MatchStart | src/webcrawler/scheduler/helper.go:106 | a match of a suffix pattern starts at a dot of the host |
| SchedulerHelpers.FirstMatch | src/webcrawler/scheduler/helper.go:104-111 | a start found is the position of a dot in the host |
| SchedulerHelpers.FirstMatchNone | src/webcrawler/scheduler/helper.go:104-111 | no start exactly when no pattern of the list matches |
| SchedulerHelpers.FirstMatchIsFirst | src/webcrawler/scheduler/helper.go:104-111 | the start reported is that of a pattern of the list, the first one that matches |
| SchedulerHelpers.SuffixIndex | src/webcrawler/scheduler/helper.go:104-111 | a positive suffix index points at a dot of the host |
| SchedulerHelpers.PdIndex | src/webcrawler/scheduler/helper.go:112-120 | the primary domain starts just after the last dot before the suffix, or at the start, with no dot between it and the suffix |
| SchedulerHelpers.HostDomain | src/webcrawler/scheduler/helper.go:98-124 | for a trimmed host: the empty host is the one error "The host is empty!"; a host containing an address is returned whole; otherwise success exactly when some suffix pattern matches past the start, and the result is a non-empty suffix of the host |
| SchedulerHelpers.GetPrimaryDomain | src/webcrawler/scheduler/helper.go:96-125 | an all-white-space host is exactly the empty-host error; any other error is "Unrecognized host!"; a result is never empty |
| SchedulerHelpers.PrimaryDomainShape | src/webcrawler/scheduler/helper.go:112-121 | for a host name the primary domain is the recognised suffix preceded by the whole label in front of it |
| SchedulerHelpers.ShortExcludesLong | src/webcrawler/scheduler/helper.go:77-93 | a host ending in a generic suffix of three or more letters does not end in a dot and two word characters |
| SchedulerHelpers.SuffixOfDrop | src/webcrawler/scheduler/helper.go:114-121 | cutting the front of a host keeps its short suffixes |
| SchedulerHelpers.LongMatchDrop | src/webcrawler/scheduler/helper.go:77-80 | the two-part suffix patterns look only at the end of the host |
| SchedulerHelpers.GenericShift | src/webcrawler/scheduler/helper.go:77-80 | a generic pattern matches a tail of the host at the same place as the host |
| SchedulerHelpers.FixedShift | src/webcrawler/scheduler/helper.go:82-92 | a fixed-suffix pattern matches a tail of the host at the same place as the host |
| SchedulerHelpers.TwoWordCharsShift | src/webcrawler/scheduler/helper.go:93 | the two-character pattern matches a tail of the host at the same place as the host |
| SchedulerHelpers.MatchStartShift | src/webcrawler/scheduler/helper.go:75-94 | every domain pattern is anchored at the end, so a tail of the host matches at the same place |
| SchedulerHelpers.FirstMatchShift | src/webcrawler/scheduler/helper.go:104-111 | the first pattern to match a host matches a tail holding the match at the same place |
| SchedulerHelpers.ContainsIpInfix | src/webcrawler/scheduler/helper.go:73 | an address found in a substring is found in the host |
| SchedulerHelpers.DomainPatternsWellFormed | src/webcrawler/scheduler/helper.go:75-94 | every pattern of the list is end-anchored |
| SchedulerHelpers.SuffixIndexDrop | src/webcrawler/scheduler/helper.go:104-121 | dropping labels in front of the suffix moves the suffix index by as much |
| SchedulerHelpers.HostDomainIdempotent | src/webcrawler/scheduler/helper.go:112-121 | the primary domain of a trimmed host is its own primary domain, unless it starts with a dot |
| SchedulerHelpers.PrimaryDomainIdempotent | src/webcrawler/scheduler/helper.go:96-125 | the same for `getPrimaryDomain`, when the result starts with neither a dot nor white space |
| SchedulerHelpers.TrimmedDomainIdempotent | src/webcrawler/scheduler/helper.go:96-125 | for a host without surrounding white space, `getPrimaryDomain` of its primary domain gives that domain back |
| SchedulerHelpers.DottedQuadStartsWithDigit | src/webcrawler/scheduler/helper.go:73 | an address begins with a digit |
| SchedulerHelpers.NoDigitNoIp | src/webcrawler/scheduler/helper.go:101 | a host without digits is never taken for an address |
| SchedulerHelpers.LastIndexOfAt | src/webcrawler/scheduler/helper.go:115 | `strings.LastIndex` finds the last occurrence |
| SchedulerHelpers.TrimSpaceExample | src/webcrawler/scheduler/helper.go:97 | surrounding blanks and a newline are trimmed |
| SchedulerHelpers.TrimLeftExample | src/webcrawler/scheduler/helper.go:97 | a leading blank is trimmed |
| SchedulerHelpers.ExampleWww | src/webcrawler/scheduler/helper.go:96-125 | " www.example.com\n" has primary domain "example.com" |
| SchedulerHelpers.ExampleWwwTrimmed | src/webcrawler/scheduler/helper.go:104-121 | "www.example.com" has primary domain "example.com" |
| SchedulerHelpers.ExampleCountrySuffix | src/webcrawler/scheduler/helper.go:77-121 | "news.example.com.cn" has primary domain "example.com.cn" |
| SchedulerHelpers.CountrySuffixIndex | src/webcrawler/scheduler/helper.go:77-111 | the suffix of "news.example.com.cn" starts at index 12 |
| SchedulerHelpers.ExampleErrors | src/webcrawler/scheduler/helper.go:98-124 | "localhost" is unrecognised and a blank host is empty |
| ItemPipelines.FirstNil | src/webcrawler/itempipeline/pipeline.go:35-38 | the position of the first nil processor, every processor before it being present |
| ItemPipelines.NewItemPipeline | src/webcrawler/itempipeline/pipeline.go:30-42 | a nil list panics with "Invalid item processor list!"; otherwise the pipeline is built exactly when no processor is nil, the panic naming the first nil one, and it keeps every processor |
| ItemPipelines.Process | src/webcrawler/itempipeline/pipeline.go:64-76 | at most one error per processor, and at most one under fail-fast |
| ItemPipelines.FailFastIsFirstError | src/webcrawler/itempipeline/pipeline.go:65-72 | fail-fast reports exactly the first error of the full run, and none when the full run has none |
| ItemPipelines.Send | src/webcrawler/itempipeline/pipeline.go:54-79 | `sent` counts every call in uint64 arithmetic and the in-flight count is restored; a nil item gives the one error "The item is invalid!" and counts nothing else; any other item is accepted, processed and counted as both |
| ItemPipelines.SetFailFast | src/webcrawler/itempipeline/pipeline.go:81-87 | `FailFast` reports the flag just set, and nothing else changes |
| ItemPipelines.Count | src/webcrawler/itempipeline/pipeline.go:89-95 | three values: sent, accepted and processed |
| ItemPipelines.SendKeepsCountersOrdered | src/webcrawler/itempipeline/pipeline.go:54-79 | between calls, processed equals accepted, neither exceeds sent, and nothing is in flight; each send raises `sent` by one |
| ItemPipelines.CountAccepted | src/webcrawler/itempipeline/pipeline.go:59-63 | the number of non-nil items, at most the number sent |
| ItemPipelines.SendAllCounts | src/webcrawler/itempipeline/pipeline.go:54-95 | after a run of sends `Count` reports the items sent and, twice, the non-nil ones, with nothing in flight |
| ItemPipelines.Summary | src/webcrawler/itempipeline/pipeline.go:101-110 | the text starts with the fail-fast flag and the number of processors |
| ItemPipelines.SummaryInjective | src/webcrawler/itempipeline/pipeline.go:101-110 | two pipelines with the same summary have the same fail-fast flag, processor count, `Count` (sent, accepted, processed) and in-flight number |
| Schedulers.NewScheduler | src/webcrawler/scheduler/scheduler.go:63-66 | a new scheduler has never run and has no components |
| SchedulerStart.Start | src/webcrawler/scheduler/scheduler.go:84-173 | a running scheduler refuses and is unchanged; any other `Start` leaves it running, succeeding exactly when both argument sets check, the client generator and both pools are present, the processor list and its entries are non-nil, and the first request's host has a primary domain |
| SchedulerStart.StartChecksArgumentsFirst | src/webcrawler/scheduler/scheduler.go:99-111 | a bad channel argument is reported before a bad pool argument, and neither builds a component |
| SchedulerStart.StartSuccessState | src/webcrawler/scheduler/scheduler.go:107-172 | after a successful start every component is fresh, the primary domain is the first host's, the URL set is empty, and the first request at depth 0 is the only one cached |
| Schedulers.Stop | src/webcrawler/scheduler/scheduler.go:175-184 | refused unless running; otherwise it panics exactly when the stop sign, channel manager or cache is nil, and else raises the stop sign, closes the channel manager and cache (keeping the cached requests), and marks the scheduler stopped |
| SchedulerStart.FailedStartStillRunning | src/webcrawler/scheduler/scheduler.go:99-106 | a `Start` that fails on its arguments still leaves the scheduler marked running |
| SchedulerStart.StopAfterFailedFirstStartPanics | src/webcrawler/scheduler/scheduler.go:99-106 | on a new scheduler, after a `Start` that failed on its first check, `Stop` panics on the nil stop sign |
| SchedulerStart.StopThenRestart | src/webcrawler/scheduler/scheduler.go:99-102 | after a successful `Stop` a second one is refused and any later `Start` marks the scheduler running again |
| Schedulers.Idle | src/webcrawler/scheduler/scheduler.go:197-205 | idle exactly when neither pool has an entity out and no item is in the pipeline; a nil component panics |
| Schedulers.ErrorChan | src/webcrawler/scheduler/scheduler.go:190-195 | the error channel exactly when the channel manager is initialized, otherwise nil; a nil manager panics |
| Schedulers.ToLowerAscii | src/webcrawler/scheduler/scheduler.go:350 | each ASCII capital is lowered and every other character kept |
| Schedulers.DomainOrEmpty | src/webcrawler/scheduler/scheduler.go:358 | the host's primary domain, or the empty string when there is none |
| Schedulers.SaveReqToCache | src/webcrawler/scheduler/scheduler.go:338-375 | accepted exactly when the request has an http URL not seen before, in the session's primary domain, within the depth limit, and the stop sign is down; then it is cached and its URL recorded; with the stop sign up the code is acknowledged; a refusal keeps cache and URL set |
| Schedulers.SaveReqNeedsValidRequest | src/webcrawler/scheduler/scheduler.go:340-349 | only a valid request (an HTTP request with a URL) can enter the cache; an invalid one leaves the scheduler unchanged |
| SchedulerSteps.SaveAll | src/webcrawler/scheduler/scheduler.go:291-305 | offering a run of requests keeps the stop sign and cache present |
| SchedulerSteps.SaveAllNoRepeat | src/webcrawler/scheduler/scheduler.go:354-373 | the accepted URLs are distinct and new, and are exactly what the URL set gains |
| SchedulerSteps.SaveOneUrl | src/webcrawler/scheduler/scheduler.go:354-373 | one offer either leaves the URL set alone or adds the request's URL, which was not in it |
| SchedulerSteps.ComponentErrorType | src/webcrawler/scheduler/scheduler.go:403-411 | downloader, analyzer and item pipeline codes give their error types; any other component gets the empty type |
| SchedulerSteps.GeneratedCodeErrorType | src/webcrawler/scheduler/scheduler.go:402-411 | a code from `generateCode` is classified by the component that made it, whatever the id |
| SchedulerSteps.ComponentCodesHaveNoDash | src/webcrawler/scheduler/scheduler.go:19-24 | no component code holds a dash |
| SchedulerSteps.SendError | src/webcrawler/scheduler/scheduler.go:397-421 | a nil error is dropped; with the stop sign up the code is acknowledged and nothing is sent; otherwise a crawler error of the code's type with the error's text is sent |
| SchedulerSteps.ScheduleBurst | src/webcrawler/scheduler/scheduler.go:424-447 | with the stop sign up the scheduler's code is acknowledged and the pass ends; otherwise requests move from the front of the cache to the request channel, in order, until the channel is full or the cache yields nothing |
| SchedSummaries.UrlLines | src/webcrawler/scheduler/summary.go:26-31 | empty exactly when there are no URLs |
| SchedSummaries.UrlLinesInjective | src/webcrawler/scheduler/summary.go:21-35 | with newline-free prefix and URLs, equal URL lines come from the same URLs in the same order |
| SchedSummaries.UrlLinesAppend | src/webcrawler/scheduler/summary.go:26-31 | the lines of two URL lists are those of the first followed by those of the second |
| SchedSummaries.LineSplit | src/webcrawler/scheduler/summary.go:26-31 | helper: two newline-free lines followed by the same text split the same way |
| SchedSummaries.UrlDetail | src/webcrawler/scheduler/summary.go:21-35 | always starts with a newline, and is a lone newline exactly when there are no URLs |
| SchedSummaries.CountChar | src/webcrawler/scheduler/summary.go:25-30 | a character count never exceeds the length |
| SchedSummaries.CountCharAppend | src/webcrawler/scheduler/summary.go:25-30 | helper: counting a character in a concatenation adds the counts of the parts |
| SchedSummaries.UrlLinesCount | src/webcrawler/scheduler/summary.go:26-31 | with newline-free prefix and URLs there is one line per URL |
| SchedSummaries.NoCharCount | src/webcrawler/scheduler/summary.go:25-30 | helper: a character that does not occur counts zero |
| SchedSummaries.UrlDetailCount | src/webcrawler/scheduler/summary.go:21-35 | with newline-free prefix and URLs the detail holds one newline per URL plus the leading one |
| SchedSummaries.NewSchedSummary | src/webcrawler/scheduler/summary.go:17-53 | a nil scheduler has a nil summary; otherwise it panics exactly when a component is nil, and else copies the flag, arguments, depth and URL count, the pools' used and total counts, the stop sign's summary, the URL detail, and the channels manager's, request cache's and item pipeline's summaries |
| SchedSummaries.GetSummary | src/webcrawler/scheduler/summary.go:83-117 | the text starts with the prefix and the running line and ends with the URL line (count, then the URL detail or "<concealed>") followed by the stop-sign line |
| SchedSummaries.String | src/webcrawler/scheduler/summary.go:74-76 | the text ends with the URL count, "<concealed>" and the stop-sign line |
| SchedSummaries.Detail | src/webcrawler/scheduler/summary.go:78-81 | the text ends with the URL count, the URL detail and the stop-sign line |
| SchedSummaries.StringIgnoresUrlDetail | src/webcrawler/scheduler/summary.go:74-76 | `String` does not depend on the URL detail |
| SchedSummaries.DetailConcealed | src/webcrawler/scheduler/summary.go:74-117 | `Detail` with the detail set to "<concealed>" prints exactly what `String` prints |
| SchedSummaries.Same | src/webcrawler/scheduler/summary.go:119-144 | a nil summary is never the same |
| SchedSummaries.SameReflexive | src/webcrawler/scheduler/summary.go:119-144 | a summary is the same as itself |
| SchedSummaries.SameSymmetric | src/webcrawler/scheduler/summary.go:119-144 | sameness does not depend on the order of the two summaries |
| SchedSummaries.SameIgnoresPrefixAndDetail | src/webcrawler/scheduler/summary.go:127-139 | summaries differing only in prefix and URL detail are the same |
| SchedSummaries.SameComparesNumbers | src/webcrawler/scheduler/summary.go:127-139 | same summaries agree on every compared number and every compared summary text |
| SchedSummaries.SameComparesArguments | src/webcrawler/scheduler/summary.go:136-137 | for consistent argument containers, equal renderings mean equal channel lengths and pool sizes |
| SchedSummaries.SameStringsAgree | src/webcrawler/scheduler/summary.go:74-144 | same summaries with one prefix print the same `String` |
| Analyzers.Redepth | src/webcrawler/analyzer/analyzer.go:90-98 | a request is rebuilt one level deeper than the response (uint32 arithmetic) with the same HTTP request; any other datum is kept as it is |
| Analyzers.RedepthKeepsValidity | src/webcrawler/analyzer/analyzer.go:90-98 | moving a datum one level deeper never changes whether it is valid; a request keeps its HTTP request and URL |
| Analyzers.AppendData | src/webcrawler/analyzer/analyzer.go:86-99 | a nil datum adds nothing; any other adds its re-depthed form at the end |
| Analyzers.AppendError | src/webcrawler/analyzer/analyzer.go:102-107 | a nil error adds nothing; any other is appended |
| Analyzers.Compact | src/webcrawler/analyzer/analyzer.go:72-80 | the non-nil entries, never more than the list holds |
| Analyzers.KeptDataIsRedepthedCompact | src/webcrawler/analyzer/analyzer.go:71-75 | one parser contributes exactly its non-nil data, in order, each re-depthed |
| Analyzers.KeptErrorsIsCompact | src/webcrawler/analyzer/analyzer.go:76-80 | one parser contributes exactly its non-nil errors, in order |
| Analyzers.AllDataRedepthed | src/webcrawler/analyzer/analyzer.go:64-98 | every request the analyzer returns sits one level below the response |
| Analyzers.NilParserError | src/webcrawler/analyzer/analyzer.go:65-69 | a nil parser adds exactly one error naming its position, and no data |
| Analyzers.AppendDataList | src/webcrawler/analyzer/analyzer.go:71-75 | the loop over one parser's data appends exactly its kept data |
| Analyzers.AppendErrorList | src/webcrawler/analyzer/analyzer.go:76-80 | the loop over one parser's errors appends exactly its kept errors |
| Analyzers.RunParsers | src/webcrawler/analyzer/analyzer.go:62-82 | the parsers' loop yields every parser's kept data and errors in parser order |
| Analyzers.Analyze | src/webcrawler/analyzer/analyzer.go:45-83 | a nil parser list or nil HTTP response gives nil data and its one error; a response without a request panics; otherwise the gathered data and errors of all parsers |
| SortedKeys.Compare | src/basic/map1/keys.go:24-27 | -1, 0 or 1 exactly as the first key is below, equal to or above the second |
| SortedKeys.NewKeys | src/basic/map1/keys.go:146-155 | a new container is empty and keeps the element type |
| SortedKeys.Less | src/basic/map1/keys.go:38-40 | true exactly when the first key is below the second, which in a sorted container means it comes first |
| SortedKeys.LowerBound | src/basic/map1/keys.go:109-111 | the first position whose key is not below the one sought: everything before it is below |
| SortedKeys.LowerBoundSplits | src/basic/map1/keys.go:109-111 | in a sorted container everything from the lower bound on is at least the key sought |
| SortedKeys.LowerBoundUnique | src/basic/map1/keys.go:109-111 | a position with the lower-bound property is the lower bound |
| SortedKeys.Find | src/basic/map1/keys.go:104-116 | an unacceptable key gives (0, false); otherwise the lower bound, with `contains` true exactly when the key is stored |
| SortedKeys.Search | src/basic/map1/keys.go:104-116 | the binary search finds the same position and flag as the reference |
| SortedKeys.Insert | src/basic/map1/keys.go:61-62 | inserting keeps the container sorted and adds exactly that key |
| SortedKeys.Add | src/basic/map1/keys.go:56-64 | accepted exactly for a non-nil key of the element type; the container then holds one more key, exactly that one, and stays sorted; a refusal changes nothing |
| SortedKeys.Remove | src/basic/map1/keys.go:66-73 | succeeds exactly for an acceptable stored key, removing one occurrence and nothing else |
| SortedKeys.Clear | src/basic/map1/keys.go:75-77 | the container is emptied and keeps its element type |
| SortedKeys.Get | src/basic/map1/keys.go:79-84 | nil exactly past the end, otherwise the key at that position |
| SortedKeys.GetAll | src/basic/map1/keys.go:86-102 | a snapshot as long as the container, answering what `Get` answers at each position |
| SortedKeys.AddLargest | src/basic/map1/keys.go:56-64 | adding a key above every stored one appends it |
| SortedKeys.AddThenSearch | src/basic/map1/keys.go:56-116 | after an `Add`, `Search` reports the key and `Get` returns it at the position found |
| SortedKeys.AddThenRemove | src/basic/map1/keys.go:56-73 | removing a key just added restores the container |
| SortedKeys.RemoveDropsOne | src/basic/map1/keys.go:66-73 | a removal drops exactly one position holding the key, keeping the rest in order |
| OrderedMaps.NewOrderedMap | src/basic/map1/omap.go:206-211 | a new map is empty, keeps the key container and element type given, and is consistent exactly when that container is empty |
| OrderedMaps.Get | src/basic/map1/omap.go:30-32 | nil exactly for a missing key, otherwise the stored element |
| OrderedMaps.Put | src/basic/map1/omap.go:44-54 | accepted exactly for a non-nil element of the element type; then the old element (or nil) is returned, the key maps to the new element, and the container gains the key only when it was missing; a refusal changes nothing |
| OrderedMaps.Remove | src/basic/map1/omap.go:56-63 | returns the old element (or nil); the key is gone from the map, and from the container when it was present; a missing key changes nothing |
| OrderedMaps.Clear | src/basic/map1/omap.go:65-68 | the map and its container are emptied |
| OrderedMaps.StrictCard | src/basic/map1/omap.go:70-73 | a strictly ascending container names as many map keys as it has entries |
| OrderedMaps.ConsistentLen | src/basic/map1/omap.go:70-73 | in a consistent map the map's size is the container's length |
| OrderedMaps.FirstKey | src/basic/map1/omap.go:80-85 | nil for an empty map; in a consistent map, a stored key no greater than any other |
| OrderedMaps.LastKey | src/basic/map1/omap.go:87-93 | nil for an empty map; in a consistent map, a stored key no smaller than any other |
| OrderedMaps.KeysOf | src/basic/map1/omap.go:129-145 | as long as the container; in a consistent map ascending and holding exactly the map's keys |
| OrderedMaps.Elems | src/basic/map1/omap.go:147-164 | the element of each container key in order, none missing in a consistent map |
| OrderedMaps.PutKeepsConsistent | src/basic/map1/omap.go:44-54 | `Put` with a key of the key type keeps the map consistent |
| OrderedMaps.UntypedKeyDiverges | src/basic/map1/omap.go:44-54 | a key of the wrong type enters the map but not the container |
| OrderedMaps.DropOne | src/basic/map1/omap.go:56-63 | dropping one position of a strictly ascending container drops exactly that key |
| OrderedMaps.RemoveKeepsConsistent | src/basic/map1/omap.go:56-63 | `Remove` keeps the map consistent |
| OrderedMaps.CopyRange | src/basic/map1/omap.go:112-117 | the copy loop keeps the key and element types of the target |
| OrderedMaps.RestrictInsert | src/basic/map1/omap.go:115-116 | storing one more key of the map widens the restriction by that key |
| OrderedMaps.PutLargest | src/basic/map1/omap.go:44-54 | putting a new key above all stored keys extends the container at the end |
| OrderedMaps.CopyStep | src/basic/map1/omap.go:113-117 | one step of the copy loop extends the copied slice by one key and its element |
| OrderedMaps.CopyRangeSlice | src/basic/map1/omap.go:112-117 | the copy of a range of positions holds exactly that slice of keys and their elements |
| OrderedMaps.SubMapBounds | src/basic/map1/omap.go:104-111 | the start is the lower key's position when it is stored, else 0; the end is the upper key's position when stored, else the length |
| OrderedMaps.SubMap | src/basic/map1/omap.go:95-119 | the copy keeps the types, and an empty map gives an empty copy |
| OrderedMaps.CopyBetweenSlice | src/basic/map1/omap.go:112-117 | copying positions [b, e) of a consistent map yields that slice, and nothing when b >= e |
| OrderedMaps.SubMapAsWritten | src/basic/map1/omap.go:95-119 | as written, the copy holds the keys and elements at the positions `SubMapBounds` gives |
| OrderedMaps.SubMapAbsentFromCopiesAll | src/basic/map1/omap.go:104-107 | a lower key of the key type that is not stored, with no upper key, copies every key, including those below it |
| OrderedMaps.ExampleMap | src/basic/map1/omap.go:206-211 | a consistent map with the keys 1, 3 and 7 |
| OrderedMaps.SubMapExample | src/basic/map1/omap.go:16-21 | on the keys {1, 3, 7}, `SubMap(5, nil)` keeps the key 1, which lies outside the documented range |
| OrderedMaps.SubMapIntended | src/basic/map1/omap.go:18-19 | the corrected copy keeps the key and element types |
| OrderedMaps.SliceByBounds | src/basic/map1/omap.go:104-111 | between the lower bounds of two keys lie exactly the keys in the range they bound |
| OrderedMaps.SliceMember | src/basic/map1/omap.go:112-117 | a key of a repeat-free container is in a slice exactly when its position is |
| OrderedMaps.SubMapIntendedRange | src/basic/map1/omap.go:16-21 | the corrected `SubMap` holds exactly the stored keys at least the lower key and below the upper key, with their elements; a nil or wrongly typed bound leaves that side open |
| OrderedMaps.SubMapIsIntendedOnFound | src/basic/map1/omap.go:104-111 | as written, `SubMap` equals the corrected one with each bound that `Search` does not find replaced by nil |
| OrderedMaps.HeadMap | src/basic/map1/omap.go:121-123 | `SubMap(nil, toKey)`: in a consistent map, the stored keys below `toKey` when `toKey` is itself stored, and every key otherwise, with their elements |
| OrderedMaps.TailMap | src/basic/map1/omap.go:125-127 | `SubMap(fromKey, nil)`: in a consistent map, the stored keys at least `fromKey` when `fromKey` is itself stored, and every key otherwise, with their elements |
| OrderedMaps.HeadMapIntended | src/basic/map1/omap.go:16-17 | the documented head map: exactly the stored keys below `toKey`, with their elements |
| OrderedMaps.TailMapIntended | src/basic/map1/omap.go:20-21 | the documented tail map: exactly the stored keys at least `fromKey`, with their elements |
| OrderedMaps.HeadTailAgreeOnFound | src/basic/map1/omap.go:121-127 | for a stored bound, `HeadMap` and `TailMap` as written equal the documented forms |
| OrderedMaps.HeadTailExample | src/basic/map1/omap.go:121-127 | on the keys {1, 3, 7} with the unstored bound 5, `HeadMap` keeps 7 and `TailMap` keeps 1, which the documented forms drop |
| SetAlgebra.DistinctCard | src/basic/set/set.go:8-10 | a list without repeats has as many elements as its set |
| SetAlgebra.Add | src/basic/set/set.go:4 | the set gains exactly the element, and a present element leaves it unchanged |
| SetAlgebra.AddWhere | src/basic/set/set.go:63-73 | adding the wanted elements of a list gains exactly those elements |
| SetAlgebra.IsSuperset | src/basic/set/set.go:14-33 | true exactly when both sets are non-nil and the second is a proper subset of the first; equal sets, an empty first set and nil give false |
| SetAlgebra.ProperBySize | src/basic/set/set.go:19-23 | for a subset, being proper is being smaller |
| SetAlgebra.NotProperOfSmaller | src/basic/set/set.go:19-23 | a set is never a proper subset of one no larger than itself |
| SetAlgebra.Union | src/basic/set/set.go:35-51 | nil exactly when an argument is nil; otherwise the elements of either set |
| SetAlgebra.Intersect | src/basic/set/set.go:53-76 | nil exactly when an argument is nil; otherwise the elements of both, whichever set is walked |
| SetAlgebra.Difference | src/basic/set/set.go:78-96 | nil exactly when an argument is nil; otherwise the elements of the first set missing from the second |
| SetAlgebra.SymmetricDifference | src/basic/set/set.go:98-109 | nil exactly when an argument is nil; otherwise the elements in exactly one of the two sets |
| SetAlgebra.IsSet | src/basic/set/set.go:115-120 | true exactly for a non-nil value implementing the set interface |
| SimpleSets.NewSimpleSet | src/basic/set2.go:48-66 | a new set holds nothing |
| SimpleSets.GenerateKey | src/basic/set2.go:68-76 | every key starts with "K{" and ends with "}" |
| SimpleSets.GenerateKeyIdentifies | src/basic/set2.go:68-76 | two elements share a key exactly when the generator, or the `%v` text when there is none, gives them the same text |
| SimpleSets.Contain | src/basic/set2.go:124-133 | true exactly when the element's key is stored |
| SimpleSets.Add | src/basic/set2.go:78-91 | accepted exactly for a non-nil element whose key is not stored; it is then stored under that key and the size grows by one; nothing stored is lost; a refusal changes nothing |
| SimpleSets.Without | src/basic/set2.go:108-112 | the keys list without the removed key, the rest kept, one shorter when the key was there |
| SimpleSets.ConsKeepsDistinct | src/basic/set2.go:87 | a new key in front of repeat-free keys keeps them repeat-free |
| SimpleSets.Remove | src/basic/set2.go:93-117 | succeeds exactly when the element's key is stored; that key and only that key is gone and the size drops by one; otherwise nothing changes |
| SimpleSets.Clear | src/basic/set2.go:119-122 | always true, and nothing is stored afterwards |
| SimpleSets.AddThenRemove | src/basic/set2.go:78-117 | removing an element just added restores the set, and removing it again fails |
| SimpleSets.WithoutLast | src/basic/set2.go:108-112 | removing the key appended last gives back the earlier keys |
| SimpleSets.Elements | src/basic/set2.go:158-160 | one stored element per key |
| SimpleSets.Slice | src/basic/set2.go:151-169 | with a comparator, every stored element once, in ascending comparator order |
| SimpleSets.NewIterator | src/basic/set2.go:135-149 | the iterator starts at position 0 of a `Slice` snapshot |
| SimpleSets.Next | src/basic/set2.go:140-147 | the next snapshot element and true while any remain, then nil and false with nothing changed |
| SimpleSets.YieldsRest | src/basic/set2.go:140-147 | calling the iterator until it reports false yields the rest of the snapshot |
| SimpleSets.IteratorYieldsSlice | src/basic/set2.go:135-169 | a fresh iterator yields exactly `Slice`, in ascending order |
| SimpleSets.SliceAscending | src/basic/set2.go:151-160 | with a transitive comparator every earlier element of `Slice` is not above any later one |
| Sorting.InsertBy | src/basic/set2.go:156-157 | inserting into a list sorted by the comparator keeps it sorted and adds exactly that element |
| Sorting.SortBy | src/basic/set2.go:156-157 | the result is sorted by the comparator and a permutation of the input |
| Sorting.SortedByPairwise | src/basic/set2.go:25-42 | under a transitive comparator, ascending neighbours make the whole list ascending |
| Sorting.StrCompare | src/basic/seq.go:31-33 | -1, 0 or 1, and 0 exactly for equal strings |
| Sorting.StrCompareFlips | src/basic/seq.go:31-33 | swapping the strings flips the sign |
| Sorting.StrCompareTransitive | src/basic/seq.go:31-33 | string order is transitive |
| Sorting.StrCompareIsComparator | src/basic/seq.go:31-41 | string comparison is a sign-consistent, transitive comparator |
| Sequences.Len | src/basic/seq.go:27-29 | the number of strings held |
| Sequences.Less | src/basic/seq.go:31-33 | defined exactly for two indices in range, and then true exactly when the first string is below the second, so never for equal strings |
| Sequences.Swap | src/basic/seq.go:35-37 | defined exactly for two indices in range; the two entries trade places and every other entry stays |
| Sequences.Sort | src/basic/seq.go:39-41 | the same strings in ascending order |
| Sequences.HeadIsLeast | src/basic/seq.go:39-41 | the head of an ascending list is not above any of its entries |
| Sequences.SameHead | src/basic/seq.go:39-41 | two ascending lists of the same strings start with the same one |
| Sequences.SameTail | src/basic/seq.go:39-41 | lists of the same strings with the same head have the same strings after it |
| Sequences.SortedUnique | src/basic/seq.go:39-41 | two ascending lists of the same strings are the same list |
| Sequences.SortIsTheSortedPermutation | src/basic/seq.go:39-41 | any ascending rearrangement of the strings is what `Sort` gives, and sorting twice is sorting once |
| Sequences.Append | src/basic/seq.go:43-50 | accepted exactly for a string, which goes at the end; anything else changes nothing |
| Sequences.Set | src/basic/seq.go:52-62 | a negative index with a string panics; an index at or past the end, or a non-string, gives false and changes nothing; otherwise that entry alone is replaced |
| Sequences.Delete | src/basic/seq.go:64-77 | a negative index panics; an index past the end gives nil and false; otherwise the entry is returned and removed, the entries after it shifting down |
| Sequences.ElemValue | src/basic/seq.go:79-84 | a negative index panics; nil exactly past the end; otherwise the entry there |
| Sequences.AppendThenDelete | src/basic/seq.go:43-77 | deleting the entry just appended returns it and gives back the sequence |
| Sequences.SetThenElemValue | src/basic/seq.go:52-84 | after a successful `Set` the new string is read at that index and every other index reads as before |
| Sequences.DeleteKeepsSorted | src/basic/seq.go:64-77 | removing an entry from an ascending list leaves it ascending |
| Sequences.SequenceSort | src/basic/seq.go:100-103 | a nil embedded sequence panics; otherwise the strings are sorted and the flag is set, truthfully |
| Sequences.SequenceAppend | src/basic/seq.go:105-111 | a nil embedded sequence panics; a successful append clears the flag; a refused one changes nothing |
| Sequences.SequenceSet | src/basic/seq.go:113-119 | panics as `Set` does or on a nil embedded sequence; a successful set clears the flag; a refused one changes nothing |
| Sequences.SequenceDelete | src/basic/seq.go:64-98 | `Delete` reached through the wrapper: same outcome, flag and cached type untouched |
| Sequences.SequenceSwap | src/basic/seq.go:35-98 | `Swap` reached through the wrapper: same outcome, flag untouched |
| Sequences.OperationsKeepFlagSound | src/basic/seq.go:100-119 | sorting, appending, setting and deleting never leave the flag set on strings that are not ascending |
| Sequences.SwapCanStaleFlag | src/basic/seq.go:94-103 | a `Swap` through the wrapper can leave the flag set on strings no longer ascending |
| Sequences.SequenceElemType | src/basic/seq.go:121-126 | a cached type is returned as is; otherwise the embedded sequence's element type is read and cached; with neither, nil |
| Sequences.Init | src/basic/seq.go:128-134 | succeeds exactly when a sequence is embedded, and then caches its element type; otherwise changes nothing |
| Sequences.InitThenElemType | src/basic/seq.go:121-134 | after `Init` the element type is answered from the cache |
| PkgUtil.AppendIfAbsent | src/pkgtool/util.go:3-17 | the input is a prefix of the result, which holds exactly the strings of either list and grows by at most the strings offered |
| PkgUtil.AppendsFirstNew | src/pkgtool/util.go:3-17 | what is appended is exactly the first occurrence of each offered string not already present |
| PkgUtil.FirstNewIsNewAndDistinct | src/pkgtool/util.go:4-14 | nothing appended was already present, nothing is appended twice, and every new offered string is appended |
| PkgUtil.KeepsDistinct | src/pkgtool/util.go:3-17 | a list without repeats stays without repeats |
| PkgUtil.AllPresent | src/pkgtool/util.go:4-14 | strings already present are never appended |
| PkgUtil.Idempotent | src/pkgtool/util.go:3-17 | offering the same strings again changes nothing |
| PkgUtil.AppendIfAbsentLoop | src/pkgtool/util.go:3-17 | the nested loops compute the reference result |
| PkgUtil.Scan | src/pkgtool/util.go:5-11 | the inner scan finds the string exactly when the slice holds it |
| CalcServer.Apply | src/loadgen/testhelper/server.go:35-59 | one step combines the running result with the operand by 64-bit wrapping +, - or *, or by division truncated toward zero, panicking exactly on a zero divisor |
| CalcServer.Fold | src/loadgen/testhelper/server.go:29-62 | no operands give 0, and a panic needs "/" and a zero operand |
| CalcServer.Op | src/loadgen/testhelper/server.go:27-64 | an unknown operator or no operands give 0; only "/" with a zero operand can panic |
| CalcServer.OpLoop | src/loadgen/testhelper/server.go:27-64 | the single loop of the source computes the same result as the fold |
| CalcServer.ErrSticks | src/loadgen/testhelper/server.go:54-61 | a panic part way through the operands is the outcome of the whole call |
| CalcServer.OpSingle | src/loadgen/testhelper/server.go:31-61 | a single operand is the result, whatever the operator |
| CalcServer.OpTwo | src/loadgen/testhelper/server.go:27-64 | two operands, the first non-zero, are combined as the operator says; "/" by zero panics |
| CalcServer.ZeroRestarts | src/loadgen/testhelper/server.go:32-33 | once the running result is zero, the operands before are forgotten |
| CalcServer.Wrap64Add | src/loadgen/testhelper/server.go:35 | helper: wrapping part way through a sum does not change the wrapped total |
| CalcServer.OpPlusIsSum | src/loadgen/testhelper/server.go:30-37 | for "+" the result is the operands' sum wrapped to 64 bits |
| CalcServer.NonZeroNeverPanics | src/loadgen/testhelper/server.go:54-61 | operands that are never zero never make the call panic |
| CalcServer.Texts | src/loadgen/testhelper/server.go:76 | the decimal text of each operand, in order |
| CalcServer.GenFormula | src/loadgen/testhelper/server.go:66-85 | the buffer holds the operands joined by " op ", then " = " or " != ", then the result |
| CalcServer.TextsStep | src/loadgen/testhelper/server.go:69-77 | one more operand adds one more text |
| CalcServer.FormulaSingle | src/loadgen/testhelper/server.go:66-85 | one operand gives no operator text |
| CalcServer.FormulaTwo | src/loadgen/testhelper/server.go:66-85 | two operands give "a op b = r" |
| CalcServer.Answer | src/loadgen/testhelper/server.go:99-102 | the response carries the request id, `op`'s result and the formula marked equal; it fails exactly when `op` panics |
| LoadgenLib.Plain | src/loadgen/lib/base.go:33-52 | every code has a non-empty name; each defined code has its own, and exactly the other codes are "Unknown result code" |
| LoadgenLib.PlainIdentifies | src/loadgen/lib/base.go:23-52 | when either code is defined, equal names mean equal codes |
| LoadgenLib.ReservedUnknown | src/loadgen/lib/base.go:23-31 | the codes 1 to 1000 reserved for the system under load have no name of their own |
| CalcComm.BuildReq | src/loadgen/testhelper/comm.go:26-44 | two operands between 1 and 1000 and an operator from the four, under the clock reading as id in both request and raw request |
| CalcComm.BuiltReqComputes | src/loadgen/testhelper/comm.go:26-44 | a built request never makes `op` panic |
| CalcComm.CheckResp | src/loadgen/testhelper/comm.go:58-103 | always carries the response id and both raw values; a bad request is fatal; a bad response, an id mismatch or a wrong result is a response error; a server error is a callee error; success exactly when ids match, no server error and the result is `op`'s, with the server's formula in the message; panics exactly when `op` does |
| CalcComm.CheckRespDefined | src/loadgen/testhelper/comm.go:58-103 | every classification is a defined result code |
| CalcComm.BuildAnswerCheck | src/loadgen/testhelper/comm.go:26-103 | a built request answered as the server answers it is classified as a success carrying the server's formula |
| LoadgenParams.Validate | src/loadgen/gen.go:36-54 | no message exactly when every parameter is valid; otherwise the message of the last failing check (result channel, duration, lps, timeout, caller) |
| LoadgenConcurrency.Interval | src/loadgen/gen.go:77 | the send interval in nanoseconds is at least 1 up to a billion loads per second and 0 above |
| LoadgenConcurrency.ConcurrencyAsWritten | src/loadgen/gen.go:74-81 | the formula as written panics exactly when the interval is 0 |
| LoadgenConcurrency.Concurrency | src/loadgen/gen.go:76-81 | the corrected formula panics exactly when the interval is 0; for a positive timeout it is min(timeout / interval + 1, MaxInt32), at least 1 |
| LoadgenConcurrency.ConcurrencyAgrees | src/loadgen/gen.go:77-81 | both formulas agree except for the largest timeout at more than half a billion loads per second |
| LoadgenConcurrency.QuotientBounds | src/loadgen/gen.go:77 | helper: the truncated quotient of an int64 by a positive divisor is an int64 |
| LoadgenConcurrency.HalfQuotient | src/loadgen/gen.go:77 | helper: dividing by two or more leaves room to add one without overflow |
| LoadgenConcurrency.DivTimes | src/loadgen/gen.go:77 | helper: the quotient times the divisor does not exceed the dividend |
| LoadgenConcurrency.DoubleAtMost | src/loadgen/gen.go:77 | helper: twice a number is at most that number times a divisor of two or more |
| LoadgenConcurrency.ConcurrencyOverflow | src/loadgen/gen.go:77-81 | as written, the largest timeout at more than half a billion loads per second gives concurrency 0; the corrected formula gives MaxInt32 |
| LoadGenerator.NewGenerator | src/loadgen/gen.go:29-89 | an invalid parameter gives its message; a valid set panics exactly above a billion loads per second; the ticket pool's error is returned exactly when it refuses the as-written total; a generator is original, uncancelled, holds the parameters and the concurrency as `init` writes it |
| LoadGenerator.Construct | src/loadgen/gen.go:55-89 | after the checks: the formula's panic, the ticket pool's error for the total, or the original generator holding the parameters and exactly that total |
| LoadGenerator.NewGeneratorIntended | src/loadgen/gen.go:76-81 | the same construction with the corrected formula: a positive timeout always gives at least one ticket |
| LoadGenerator.NewGeneratorAgrees | src/loadgen/gen.go:67-81 | outside the largest timeout at more than half a billion loads per second, the construction as written and the corrected one give the same result |
| LoadGenerator.NewGeneratorZeroTickets | src/loadgen/gen.go:67-84 | in that corner, as written, the ticket pool is asked for 0 tickets and a returned generator has concurrency 0, where the corrected one has MaxInt32 |
| LoadGenerator.Interact | src/loadgen/gen.go:91-113 | a nil request gives id -1 and "Invalid raw request."; otherwise the request's id and elapsed time, with an error exactly when the call failed and the response otherwise |
| LoadGenerator.SendResult | src/loadgen/gen.go:172-182 | delivered exactly while started and not cancelled, at the end of the channel; otherwise nothing is delivered |
| LoadGenerator.HandleStopSign | src/loadgen/gen.go:184-190 | the generator is cancelled and nothing else changes |
| LoadGenerator.NothingAfterCancel | src/loadgen/gen.go:172-190 | after the stop sign is handled no result is delivered |
| LoadGenerator.Stop | src/loadgen/gen.go:254-265 | succeeds exactly with a stop channel while started, marking the generator stopped with the cancel sign set by the load loop's stop handling (gen.go:184-190, 262-263) and returning the call count; otherwise (0, false) and nothing changes |
| LoadGenerator.StopTwice | src/loadgen/gen.go:254-265 | a second `Stop` always fails |
| LoadGenerator.NewGeneratorCannotStop | src/loadgen/gen.go:55-64 | a new generator is not started, so stopping it fails |
| TypeCategories.TypeCategoryOf | src/testing/ct/ct_demo.go:3-18 | "boolean", "integer", "float", "complex" and "string" each exactly for their types, and "unknown" exactly for every other value, nil included |

## Left out

- Goroutines, locks, atomics and blocking channel operations. Every operation is one atomic step. Taking from an empty pool and sending to a full channel are preconditions or `Option` results. This covers the download, analyze and item loops of the scheduler, the inner stop check and sleep of `schedule`, and the asynchronous error send.
- The panic-recovering wrapper around `Start`. A panic is the outer `Err` of the result.
- Go's regular-expression engine. The IPv4 pattern and the domain-suffix table of `getPrimaryDomain` are written out as explicit recognisers.
- Map iteration order. The order in which `NewSchedSummary` walks the URL map is a parameter. `Slice` of a `SimpleSet` without a comparator is not modelled.
- `%v` formatting is the function parameter `show` that `SimpleSets.NewSimpleSet` stores and `SimpleSets.GenerateKey` uses. The `String` methods of `myKeys` and `myOrderedMap`, which are `%v` renderings, are not modelled.
- JSON encoding is a function parameter of `BuildReq`. JSON decoding in `CheckResp` is given as `Option` inputs. With Go's real encoding the callee-error branch of `CheckResp` (comm.go:86-92) cannot fire: the server stores an `errors.New` value in `Err` (server.go:104-107), `json.Marshal` writes it as `{}`, and decoding `{}` into the `error` field fails, so a server error is classified as a malformed response. The model keeps the branch as written, reached by a decoded response that carries an error.
- The clock and the random draws of `BuildReq` and `interact` are parameters.
- `cap()` of the cache's backing slice is a parameter of `RequestCaches.Summary` and `NewSchedSummary`, because it is a runtime quantity.
- Network I/O: `TcpServer`, `reqHandler`'s read and write, and `Call`. `CalcServer.Answer` models only what the handler computes for a decoded request.
- The load generator's timers and goroutines (`genLoad`, `asyncCall`, `Start`, and the `endSign` handshake inside `Stop`). `Stop` takes the call count that the handshake hands back as a parameter.
- The ticket pool that `NewGenerator` builds. The file defining it is not part of this model, so its constructor is a parameter that returns its error, if any.
- `reflect.TypeOf` is reduced to a type-name string. `Sequences.SequenceElemType` gives the constant "string".
- Keys and elements of the ordered map are a type name plus an integer, compared by the three-way integer comparison the tests install. The order among equal keys under a comparator is not modelled beyond what `SortBy` produces.
- Go compares strings byte by byte. `Sorting.StrCompare` compares characters, which agrees for the ASCII text the tests use.
- Go `int` is taken to be 64 bits wide.
- SimpleSets.Remove: the re-sort of the internal key list is not modelled. That list's order is not observable through the modelled operations.
- SimpleSets.Slice: requires a comparator that is sign-consistent, part of what `sort.Sort` itself assumes of `Less` (it also needs a transitive strict weak order).
- SchedSummaries.GetSummary: the prefix is taken as literal text. `getSummary` splices it into the `Sprintf` format, so a prefix holding '%' would be read as a verb and shift the arguments; the only caller (src/webcrawler/tool/monitor.go:158) passes four spaces. Its contract states the first line (running), and the last two lines: the URL line, carrying the URL detail or "<concealed>", followed by the stop-sign line. The seven lines in between (channel args, pool base args, crawl depth, channels manager, request cache, the two pools and item pipeline) are not stated by any contract.
- SortedKeys.Get: takes a `nat` index, so the panic on a negative index is not modelled.
- SortedKeys.Less: requires both indexes in range, so the index-out-of-range panic of `Less` is not modelled.
- `Swap` of `myKeys` (src/basic/map1/keys.go:42-44) is not modelled as an operation: the `Keys` type holds only sorted containers, and `Swap` exists for the `sort.Sort` call inside `Add`, whose sorted result the model gives by `SortBy`.
- StopSigns.Summary: its contract states the flag and the prefix. The rendering of the counts is stated by `StopSigns.SortedCodes`, `StopSigns.SummaryOrderIndependent` and `StopSigns.SummaryExample`. Codes that contain spaces or colons make `%v`'s text ambiguous, so the counts cannot be read back from it.
- ChannelManagers.Summary: its contract states the prefix; the rest of the text is stated by `ChannelManagers.SummaryInjective`.
- ItemPipelines.Summary: its contract states the prefix; the counters in the rest of the text are stated by `ItemPipelines.SummaryInjective`.
- StopSigns.DealCount and StopSigns.DealTotal: their values are what the queries would return with a read unlock. The locking is modelled separately (see Findings).
- ItemPipelines.Process: its own contract bounds only the number of errors. Its order and fail-fast behaviour are stated by `ItemPipelines.FailFastIsFirstError` and by `ItemPipelines.Send`.
- The `Len`, `Less`, `ElemValue` and `Value` methods of `Sequence` only delegate to the embedded sequence and have no separate rows.
- `Request.Valid`, `Response.Valid` and `Item.Valid` are the predicates `Data.RequestValid`, `Data.ResponseValid` and `Data.ItemValid`. They, and the accessors `StopSigns.Signed` (src/webcrawler/middleware/stopsign.go:53-55), `StopSigns.Total` (the sum helper of stopsign.go:83-91), `Pools.Total` (src/webcrawler/middleware/pool.go:119-121), `RequestCaches.Length` (src/webcrawler/scheduler/cache.go:77-79), `ItemPipelines.FailFast` (src/webcrawler/itempipeline/pipeline.go:81-83), `OrderedMaps.Len` and `OrderedMaps.Contains` (src/basic/map1/omap.go:71-78), `SimpleSets.Len` (src/basic/set2.go:21-23), `SortedKeys.Len` (src/basic/map1/keys.go:34) and `Schedulers.Running` (src/webcrawler/scheduler/scheduler.go:186-188), are definitions with no contract of their own: each reads one field or length; `Schedulers.SaveReqNeedsValidRequest` and `Analyzers.RedepthKeepsValidity` state what depends on request validity.

## Findings

| source | as written | input that shows it | evidently intended | confidence | as-written member | corrected member |
|---|---|---|---|---|---|---|
| src/basic/map1/omap.go:104-111 | a `fromKey` that is not in the map falls back to position 0, and a `toKey` that is not in the map falls back to the length, so a bound that is not itself a key is ignored; `HeadMap` and `TailMap` (omap.go:121-127) inherit this | keys {1, 3, 7}: `SubMap(5, nil)` keeps 1, 3 and 7 | the keys `k` with `fromKey <= k < toKey`, as the interface comment at omap.go:16-21 describes | not executed | OrderedMaps.SubMapExample | OrderedMaps.SubMapIntendedRange |
| src/loadgen/gen.go:77-81 | `timeoutNs/interval + 1` is formed in int64 and wraps before the cap at MaxInt32 | `timeoutNs` = MaxInt64 with more than 5e8 loads per second (an interval of 1 ns) gives concurrency 0 | min(timeout / interval + 1, MaxInt32), which is at least 1 for a positive timeout | not executed | LoadgenConcurrency.ConcurrencyOverflow | LoadgenConcurrency.Concurrency |
| src/webcrawler/middleware/stopsign.go:77-91 | `DealCount` and `DealTotal` take the read lock with `RLock` and release it with a deferred `Unlock`, which is the write unlock | any call while no writer holds the mutex, e.g. `DealCount("scheduler")` on a fresh stop sign, ends in the fatal error "sync: Unlock of unlocked RWMutex" | a deferred `RUnlock`, so the queries return the count and the wrapped total | not executed | StopSigns.DealCountAsWritten | StopSigns.DealCountLocked |

=== FILE: analyzer.dfy ===
/** The analyzer (webcrawler/analyzer/analyzer.go): runs each response
    parser over a response and gathers what they produce. Nil data and nil
    errors are dropped, and every request found is placed one level deeper
    than the response it came from. Parsers are abstract functions. */
module Analyzers {
  import opened Common
  import opened Data

  /** A response parser: the data (each possibly nil) and errors (each
      possibly nil) it finds, either list possibly nil. */
  type Parser = (HttpResp, UInt32) -> (Option<seq<Option<Datum>>>, Option<seq<Option<string>>>)

  const ParserListMessage: string := "The response parser list is invalid!"
  const HttpRespMessage: string := "The http response is invalid!"

  function NilParserMessage(i: nat): string {
    "The document parser [" + NatToString(i) + "] is invalid!"
  }

  /** What `appendDataList` adds for one non-nil datum: a request is rebuilt
      at depth `respDepth + 1` (in uint32 arithmetic); anything else as is. */
  function Redepth(d: Datum, respDepth: UInt32): (r: Datum)
    ensures r.RequestDatum? <==> d.RequestDatum?
    ensures r.RequestDatum? ==> r.req.depth == Wrap32(respDepth + 1) && r.req.httpReq == d.req.httpReq
    ensures !d.RequestDatum? ==> r == d
  {
    match d
    case RequestDatum(req) =>
      var newDepth := Wrap32(respDepth as int + 1);
      if req.depth != newDepth then RequestDatum(NewRequest(req.httpReq, newDepth)) else d
    case _ => d
  }

  /** Moving a datum one level deeper keeps it valid or invalid: a
      request keeps its HTTP request, and so its URL. */
  lemma RedepthKeepsValidity(d: Datum, respDepth: UInt32)
    ensures DatumValid(Redepth(d, respDepth)) <==> DatumValid(d)
    ensures d.RequestDatum? ==> (RequestValid(Redepth(d, respDepth).req) <==> RequestValid(d.req))
  {
  }

  /** `appendDataList`. */
  function AppendData(list: seq<Datum>, d: Option<Datum>, respDepth: UInt32): (r: seq<Datum>)
    ensures d.None? ==> r == list
    ensures d.Some? ==> r == list + [Redepth(d.value, respDepth)]
  {
    match d
    case None => list
    case Some(x) => list + [Redepth(x, respDepth)]
  }

  /** `appendErrorList`. */
  function AppendError(list: seq<string>, e: Option<string>): (r: seq<string>)
    ensures e.None? ==> r == list
    ensures e.Some? ==> r == list + [e.value]
  {
    match e
    case None => list
    case Some(x) => list + [x]
  }

  /** The non-nil entries of a list, in order. */
  function Compact<T>(xs: seq<Option<T>>): (r: seq<T>)
    ensures |r| <= |xs|
  {
    if |xs| == 0 then [] else Compact(xs[..|xs| - 1]) + (if xs[|xs| - 1].Some? then [xs[|xs| - 1].value] else [])
  }

  /** What one parser's data list adds, appended datum by datum. */
  function KeptData(ds: seq<Option<Datum>>, respDepth: UInt32): seq<Datum> {
    if |ds| == 0 then [] else AppendData(KeptData(ds[..|ds| - 1], respDepth), ds[|ds| - 1], respDepth)
  }

  /** What one parser's error list adds, appended error by error. */
  function KeptErrors(es: seq<Option<string>>): seq<string> {
    if |es| == 0 then [] else AppendError(KeptErrors(es[..|es| - 1]), es[|es| - 1])
  }

  /** The data a parser's list contributes are its non-nil data, in order,
      each passed through `Redepth`. */
  lemma {:induction false} KeptDataIsRedepthedCompact(ds: seq<Option<Datum>>, respDepth: UInt32)
    ensures |KeptData(ds, respDepth)| == |Compact(ds)|
    ensures forall i :: 0 <= i < |Compact(ds)| ==> KeptData(ds, respDepth)[i] == Redepth(Compact(ds)[i], respDepth)
  {
    if |ds| > 0 {
      KeptDataIsRedepthedCompact(ds[..|ds| - 1], respDepth);
    }
  }

  /** The errors a parser's list contributes are its non-nil errors, in order. */
  lemma {:induction false} KeptErrorsIsCompact(es: seq<Option<string>>)
    ensures KeptErrors(es) == Compact(es)
  {
    if |es| > 0 {
      KeptErrorsIsCompact(es[..|es| - 1]);
    }
  }

  /** The data and errors of the parsers `ps`, in parser order. */
  function AllData(ps: seq<Option<Parser>>, resp: HttpResp, respDepth: UInt32): seq<Datum> {
    if |ps| == 0 then []
    else
      var before := AllData(ps[..|ps| - 1], resp, respDepth);
      match ps[|ps| - 1]
      case None => before
      case Some(p) =>
        var out := p(resp, respDepth).0;
        before + (if out.Some? then KeptData(out.value, respDepth) else [])
  }

  function AllErrors(ps: seq<Option<Parser>>, resp: HttpResp, respDepth: UInt32): seq<string> {
    if |ps| == 0 then []
    else
      var before := AllErrors(ps[..|ps| - 1], resp, respDepth);
      match ps[|ps| - 1]
      case None => before + [NilParserMessage(|ps| - 1)]
      case Some(p) =>
        var errs := p(resp, respDepth).1;
        before + (if errs.Some? then KeptErrors(errs.value) else [])
  }

  /** Every request the analyzer returns sits at depth `respDepth + 1`. */
  lemma {:induction false} AllDataRedepthed(ps: seq<Option<Parser>>, resp: HttpResp, respDepth: UInt32)
    ensures forall d :: d in AllData(ps, resp, respDepth) && d.RequestDatum? ==> d.req.depth == Wrap32(respDepth + 1)
  {
    if |ps| > 0 {
      AllDataRedepthed(ps[..|ps| - 1], resp, respDepth);
      if ps[|ps| - 1].Some? {
        var out := ps[|ps| - 1].value(resp, respDepth).0;
        if out.Some? {
          KeptDataIsRedepthedCompact(out.value, respDepth);
          forall d | d in KeptData(out.value, respDepth) && d.RequestDatum?
            ensures d.req.depth == Wrap32(respDepth + 1)
          {
            var i :| 0 <= i < |KeptData(out.value, respDepth)| && KeptData(out.value, respDepth)[i] == d;
            assert d == Redepth(Compact(out.value)[i], respDepth);
          }
        }
      }
    }
  }

  /** Each nil parser contributes exactly one error, naming its position. */
  lemma NilParserError(ps: seq<Option<Parser>>, resp: HttpResp, respDepth: UInt32)
    requires |ps| > 0 && ps[|ps| - 1].None?
    ensures AllErrors(ps, resp, respDepth) == AllErrors(ps[..|ps| - 1], resp, respDepth) + [NilParserMessage(|ps| - 1)]
    ensures AllData(ps, resp, respDepth) == AllData(ps[..|ps| - 1], resp, respDepth)
  {
  }

  /** Appends the data of one parser datum by datum. */
  method AppendDataList(list: seq<Datum>, ds: seq<Option<Datum>>, respDepth: UInt32) returns (r: seq<Datum>)
    ensures r == list + KeptData(ds, respDepth)
  {
    r := list;
    var i := 0;
    while i < |ds|
      invariant 0 <= i <= |ds|
      invariant r == list + KeptData(ds[..i], respDepth)
    {
      assert ds[..i + 1][..i] == ds[..i];
      r := AppendData(r, ds[i], respDepth);
      i := i + 1;
    }
    assert ds[..|ds|] == ds;
  }

  /** Appends the errors of one parser error by error. */
  method AppendErrorList(list: seq<string>, es: seq<Option<string>>) returns (r: seq<string>)
    ensures r == list + KeptErrors(es)
  {
    r := list;
    var i := 0;
    while i < |es|
      invariant 0 <= i <= |es|
      invariant r == list + KeptErrors(es[..i])
    {
      assert es[..i + 1][..i] == es[..i];
      r := AppendError(r, es[i]);
      i := i + 1;
    }
    assert es[..|es|] == es;
  }

  /** The parsers' loop of `Analyze`, run in order over one response. */
  method RunParsers(ps: seq<Option<Parser>>, httpResp: HttpResp, respDepth: UInt32)
    returns (dataList: seq<Datum>, errorList: seq<string>)
    ensures dataList == AllData(ps, httpResp, respDepth)
    ensures errorList == AllErrors(ps, httpResp, respDepth)
  {
    dataList := [];
    errorList := [];
    var i := 0;
    while i < |ps|
      invariant 0 <= i <= |ps|
      invariant dataList == AllData(ps[..i], httpResp, respDepth)
      invariant errorList == AllErrors(ps[..i], httpResp, respDepth)
    {
      assert ps[..i + 1][..i] == ps[..i];
      match ps[i] {
        case None =>
          errorList := errorList + [NilParserMessage(i)];
        case Some(p) =>
          var (pData, pErrors) := p(httpResp, respDepth);
          if pData.Some? {
            dataList := AppendDataList(dataList, pData.value, respDepth);
          }
          if pErrors.Some? {
            errorList := AppendErrorList(errorList, pErrors.value);
          }
      }
      i := i + 1;
    }
    assert ps[..|ps|] == ps;
  }

  /** `Analyze`. A nil parser list or a nil HTTP response gives nil data and
      one error; `Err` is the panic raised when the response has no request.
      Otherwise the parsers run in order and their results are gathered. */
  method Analyze(parsers: Option<seq<Option<Parser>>>, resp: Response)
    returns (r: Result<(Option<seq<Datum>>, seq<string>)>)
    ensures parsers.None? ==> r == Ok((None, [ParserListMessage]))
    ensures parsers.Some? && resp.httpResp.None? ==> r == Ok((None, [HttpRespMessage]))
    ensures parsers.Some? && resp.httpResp.Some? ==> (r.Err? <==> resp.httpResp.value.request.None?)
    ensures parsers.Some? && resp.httpResp.Some? && r.Ok? ==>
              r.value.0 == Some(AllData(parsers.value, resp.httpResp.value, resp.depth))
              && r.value.1 == AllErrors(parsers.value, resp.httpResp.value, resp.depth)
  {
    if parsers.None? {
      return Ok((None, [ParserListMessage]));
    }
    if resp.httpResp.None? {
      return Ok((None, [HttpRespMessage]));
    }
    var httpResp := resp.httpResp.value;
    if httpResp.request.None? {
      return Err(NilPointerPanic);
    }
    var dataList, errorList := RunParsers(parsers.value, httpResp, resp.depth);
    r := Ok((Some(dataList), errorList));
  }
}

=== FILE: argument.dfy ===
/** Parameter containers of the crawler (webcrawler/base/argument.go): the
    four channel capacities and the two pool sizes, each with a `Check`
    that names the first zero parameter and a `String` that renders a fixed
    template once and caches it in `description`. */
module Arguments {
  import opened Common

  /** Go `uint` is 64 bits wide on the platforms the crawler targets. */
  datatype ChannelArgs = ChannelArgs(
    reqChanLen: UInt64,
    respChanLen: UInt64,
    itemChanLen: UInt64,
    errorChanLen: UInt64,
    description: string)

  function NewChannelArgs(reqChanLen: UInt64, respChanLen: UInt64, itemChanLen: UInt64, errorChanLen: UInt64): (r: ChannelArgs)
    ensures r.reqChanLen == reqChanLen && r.respChanLen == respChanLen
    ensures r.itemChanLen == itemChanLen && r.errorChanLen == errorChanLen
    ensures Consistent(r)
  {
    ChannelArgs(reqChanLen, respChanLen, itemChanLen, errorChanLen, "")
  }

  /** The four capacities in the order `Check` inspects them. */
  function ChannelLens(args: ChannelArgs): seq<UInt64> {
    [args.reqChanLen, args.respChanLen, args.itemChanLen, args.errorChanLen]
  }

  const ChannelCheckMessages: seq<string> := [
    "The request channel max length (capacity) can not be 0!\n",
    "The response channel max length (capacity) can not be 0!\n",
    "The item channel max length (capacity) can not be 0!\n",
    "The error channel max length (capacity) can not be 0!\n"]

  /** `i` is the position of the first zero in `lens`. */
  predicate FirstZeroAt(lens: seq<int>, i: int) {
    0 <= i < |lens| && lens[i] == 0 && forall j :: 0 <= j < i ==> lens[j] != 0
  }

  /** `None` is Go's nil error. */
  function CheckChannelArgs(args: ChannelArgs): (r: Option<string>)
    ensures r.None? <==> forall i :: 0 <= i < 4 ==> ChannelLens(args)[i] != 0
    ensures r.Some? ==> exists i :: FirstZeroAt(ChannelLens(args), i) && r.value == ChannelCheckMessages[i]
  {
    if args.reqChanLen == 0 then
      assert FirstZeroAt(ChannelLens(args), 0);
      Some(ChannelCheckMessages[0])
    else if args.respChanLen == 0 then
      assert FirstZeroAt(ChannelLens(args), 1);
      Some(ChannelCheckMessages[1])
    else if args.itemChanLen == 0 then
      assert FirstZeroAt(ChannelLens(args), 2);
      Some(ChannelCheckMessages[2])
    else if args.errorChanLen == 0 then
      assert FirstZeroAt(ChannelLens(args), 3);
      Some(ChannelCheckMessages[3])
    else None
  }

  /** The filled-in template `{ reqChanLen: %d, respChanLen: %d, itemChanLen: %d, errorChanLen: %d }`. */
  function DescribeChannelArgs(a: UInt64, b: UInt64, c: UInt64, d: UInt64): (r: string)
    ensures r != ""
  {
    "{ reqChanLen: " + NatToString(a) + (", respChanLen: " + NatToString(b) +
      (", itemChanLen: " + NatToString(c) + (", errorChanLen: " + NatToString(d) + " }")))
  }

  /** The cached description is empty or agrees with the fields. */
  ghost predicate Consistent(args: ChannelArgs) {
    args.description == "" ||
    args.description == DescribeChannelArgs(args.reqChanLen, args.respChanLen, args.itemChanLen, args.errorChanLen)
  }

  /** `String` returns the rendering and the container with the cache filled. */
  function ChannelArgsString(args: ChannelArgs): (r: (ChannelArgs, string))
    ensures Consistent(args) ==> r.1 == DescribeChannelArgs(args.reqChanLen, args.respChanLen, args.itemChanLen, args.errorChanLen)
    ensures r.0 == args.(description := r.1)
    ensures r.1 != ""
  {
    if args.description == "" then
      var d := DescribeChannelArgs(args.reqChanLen, args.respChanLen, args.itemChanLen, args.errorChanLen);
      (args.(description := d), d)
    else (args, args.description)
  }

  /** Calling `String` a second time returns the same text and leaves the
      container as the first call left it. */
  lemma ChannelArgsStringStable(args: ChannelArgs)
    ensures ChannelArgsString(ChannelArgsString(args).0) == ChannelArgsString(args)
  {
  }

  /** The rendering determines all four capacities. */
  lemma DescribeChannelArgsInjective(a1: UInt64, b1: UInt64, c1: UInt64, d1: UInt64, a2: UInt64, b2: UInt64, c2: UInt64, d2: UInt64)
    requires DescribeChannelArgs(a1, b1, c1, d1) == DescribeChannelArgs(a2, b2, c2, d2)
    ensures a1 == a2 && b1 == b2 && c1 == c2 && d1 == d2
  {
    var t1 := ", errorChanLen: " + NatToString(d1) + " }";
    var t2 := ", errorChanLen: " + NatToString(d2) + " }";
    var u1 := ", itemChanLen: " + NatToString(c1) + t1;
    var u2 := ", itemChanLen: " + NatToString(c2) + t2;
    var v1 := ", respChanLen: " + NatToString(b1) + u1;
    var v2 := ", respChanLen: " + NatToString(b2) + u2;
    NumberFieldSplit("{ reqChanLen: ", a1, v1, a2, v2);
    NumberFieldSplit(", respChanLen: ", b1, u1, b2, u2);
    NumberFieldSplit(", itemChanLen: ", c1, t1, c2, t2);
    NumberFieldSplit(", errorChanLen: ", d1, " }", d2, " }");
  }

  datatype PoolBaseArgs = PoolBaseArgs(
    pageDownloaderPoolSize: UInt32,
    analyzerPoolSize: UInt32,
    description: string)

  function NewPoolBaseArgs(pageDownloaderPoolSize: UInt32, analyzerPoolSize: UInt32): (r: PoolBaseArgs)
    ensures r.pageDownloaderPoolSize == pageDownloaderPoolSize
    ensures r.analyzerPoolSize == analyzerPoolSize
    ensures PoolConsistent(r)
  {
    PoolBaseArgs(pageDownloaderPoolSize, analyzerPoolSize, "")
  }

  const DownloaderPoolSizeMessage: string := "The page downloader pool size can not be 0!\n"
  const AnalyzerPoolSizeMessage: string := "The analyzer pool size can not be 0!\n"

  function CheckPoolBaseArgs(args: PoolBaseArgs): (r: Option<string>)
    ensures r.None? <==> args.pageDownloaderPoolSize != 0 && args.analyzerPoolSize != 0
    ensures r == Some(DownloaderPoolSizeMessage) <==> args.pageDownloaderPoolSize == 0
    ensures r == Some(AnalyzerPoolSizeMessage) <==> args.pageDownloaderPoolSize != 0 && args.analyzerPoolSize == 0
  {
    if args.pageDownloaderPoolSize == 0 then Some(DownloaderPoolSizeMessage)
    else if args.analyzerPoolSize == 0 then Some(AnalyzerPoolSizeMessage)
    else None
  }

  /** The filled-in template `{ pageDownloaderPoolSize: %d, analyzerPoolSize: %d }`. */
  function DescribePoolBaseArgs(a: UInt32, b: UInt32): (r: string)
    ensures r != ""
  {
    "{ pageDownloaderPoolSize: " + NatToString(a) + (", analyzerPoolSize: " + NatToString(b) + " }")
  }

  ghost predicate PoolConsistent(args: PoolBaseArgs) {
    args.description == "" ||
    args.description == DescribePoolBaseArgs(args.pageDownloaderPoolSize, args.analyzerPoolSize)
  }

  function PoolBaseArgsString(args: PoolBaseArgs): (r: (PoolBaseArgs, string))
    ensures PoolConsistent(args) ==> r.1 == DescribePoolBaseArgs(args.pageDownloaderPoolSize, args.analyzerPoolSize)
    ensures r.0 == args.(description := r.1)
    ensures r.1 != ""
  {
    if args.description == "" then
      var d := DescribePoolBaseArgs(args.pageDownloaderPoolSize, args.analyzerPoolSize);
      (args.(description := d), d)
    else (args, args.description)
  }

  lemma PoolBaseArgsStringStable(args: PoolBaseArgs)
    ensures PoolBaseArgsString(PoolBaseArgsString(args).0) == PoolBaseArgsString(args)
  {
  }

  /** The rendering determines both pool sizes. */
  lemma DescribePoolBaseArgsInjective(a1: UInt32, b1: UInt32, a2: UInt32, b2: UInt32)
    requires DescribePoolBaseArgs(a1, b1) == DescribePoolBaseArgs(a2, b2)
    ensures a1 == a2 && b1 == b2
  {
    var t1 := ", analyzerPoolSize: " + NatToString(b1) + " }";
    var t2 := ", analyzerPoolSize: " + NatToString(b2) + " }";
    NumberFieldSplit("{ pageDownloaderPoolSize: ", a1, t1, a2, t2);
    NumberFieldSplit(", analyzerPoolSize: ", b1, " }", b2, " }");
  }
}

=== FILE: cache.dfy ===
/** The scheduler's request cache (webcrawler/scheduler/cache.go): a FIFO of
    requests with a running/closed status. */
module RequestCaches {
  import opened Common
  import opened Data

  datatype RequestCache = RequestCache(cache: seq<Request>, closed: bool)

  function NewRequestCache(): (c: RequestCache)
    ensures Length(c) == 0 && !c.closed
  {
    RequestCache([], false)
  }

  function Length(c: RequestCache): nat {
    |c.cache|
  }

  /** `put`: a nil request (`None`) or a closed cache refuses. */
  function Put(c: RequestCache, req: Option<Request>): (r: (RequestCache, bool))
    ensures r.1 <==> req.Some? && !c.closed
    ensures !r.1 ==> r.0 == c
    ensures r.1 ==> r.0.cache == c.cache + [req.value] && !r.0.closed && Length(r.0) == Length(c) + 1
  {
    match req
    case None => (c, false)
    case Some(q) => if c.closed then (c, false) else (c.(cache := c.cache + [q]), true)
  }

  /** `get`: nil (`None`) from an empty or closed cache, otherwise the
      oldest request, which leaves the cache. */
  function Get(c: RequestCache): (r: (RequestCache, Option<Request>))
    ensures r.1.None? <==> Length(c) == 0 || c.closed
    ensures r.1.None? ==> r.0 == c
    ensures r.1.Some? ==> r.1.value == c.cache[0] && r.0.cache == c.cache[1..] && r.0.closed == c.closed
  {
    if Length(c) == 0 then (c, None)
    else if c.closed then (c, None)
    else (c.(cache := c.cache[1..]), Some(c.cache[0]))
  }

  /** `close`: idempotent and keeps the stored requests. */
  function Close(c: RequestCache): (r: RequestCache)
    ensures r.closed && r.cache == c.cache
    ensures c.closed ==> r == c
  {
    if c.closed then c else c.(closed := true)
  }

  lemma CloseIdempotent(c: RequestCache)
    ensures Close(Close(c)) == Close(c)
  {
  }

  function StatusName(c: RequestCache): string {
    if c.closed then "closed" else "running"
  }

  /** `summary`; `capacity` is the `cap()` of the backing slice, a runtime
      quantity this model takes as given. */
  function Summary(c: RequestCache, capacity: nat): (r: string)
    ensures !c.closed ==> IsPrefix("status: running, length: " + (NatToString(Length(c)) + ", "), r)
    ensures c.closed ==> IsPrefix("status: closed, length: " + (NatToString(Length(c)) + ", "), r)
  {
    var lead := "status: " + StatusName(c) + ", length: ";
    assert lead == if c.closed then "status: closed, length: " else "status: running, length: ";
    var head := lead + (NatToString(Length(c)) + ", ");
    PrefixOfAppend(head, "capacity: " + NatToString(capacity));
    head + ("capacity: " + NatToString(capacity))
  }

  /** Puts every request of `reqs` in order. */
  function PutAll(c: RequestCache, reqs: seq<Request>): RequestCache
    decreases |reqs|
  {
    if |reqs| == 0 then c else PutAll(Put(c, Some(reqs[0])).0, reqs[1..])
  }

  /** Gets until the cache answers nil; the requests in the order received. */
  function Drain(c: RequestCache): seq<Request>
    decreases Length(c)
  {
    match Get(c)
    case (_, None) => []
    case (c', Some(q)) => [q] + Drain(c')
  }

  lemma {:induction false} PutAllOpen(c: RequestCache, reqs: seq<Request>)
    requires !c.closed
    ensures PutAll(c, reqs) == RequestCache(c.cache + reqs, false)
    decreases |reqs|
  {
    if |reqs| > 0 {
      PutAllOpen(Put(c, Some(reqs[0])).0, reqs[1..]);
      assert c.cache + [reqs[0]] + reqs[1..] == c.cache + reqs;
    }
  }

  lemma {:induction false} DrainOpen(c: RequestCache)
    requires !c.closed
    ensures Drain(c) == c.cache
    decreases Length(c)
  {
    if Length(c) > 0 {
      DrainOpen(Get(c).0);
      assert [c.cache[0]] + c.cache[1..] == c.cache;
    }
  }

  /** FIFO: whatever the cache held, then everything put, comes out in
      exactly that order; a closed cache yields nothing and accepts nothing. */
  lemma Fifo(c: RequestCache, reqs: seq<Request>)
    ensures !c.closed ==> Drain(PutAll(c, reqs)) == c.cache + reqs
    ensures c.closed ==> PutAll(c, reqs) == c && Drain(c) == []
  {
    if !c.closed {
      PutAllOpen(c, reqs);
      DrainOpen(PutAll(c, reqs));
    } else {
      ClosedPutAll(c, reqs);
    }
  }

  lemma {:induction false} ClosedPutAll(c: RequestCache, reqs: seq<Request>)
    requires c.closed
    ensures PutAll(c, reqs) == c
    decreases |reqs|
  {
    if |reqs| > 0 {
      ClosedPutAll(c, reqs[1..]);
    }
  }
}

=== FILE: chanman.dfy ===
/** The channel manager (webcrawler/middleware/chanman.go): a three-state
    lifecycle guarding the four buffered channels that connect the crawler's
    components. A buffered channel is a capacity plus the values it holds. */
module ChannelManagers {
  import opened Common
  import opened Data
  import opened Arguments

  /** A buffered Go channel; a nil channel has capacity 0 and holds nothing. */
  datatype Queue<T> = Queue(capacity: nat, items: seq<T>)

  ghost predicate QueueValid<T>(q: Queue<T>) {
    |q.items| <= q.capacity
  }

  function EmptyQueue<T>(capacity: nat): (q: Queue<T>)
    ensures QueueValid(q) && q.capacity == capacity && |q.items| == 0
  {
    Queue(capacity, [])
  }

  /** A send that does not block: the channel has room. */
  function Push<T>(q: Queue<T>, x: T): (r: Queue<T>)
    requires |q.items| < q.capacity
    ensures QueueValid(r) && r.capacity == q.capacity && r.items == q.items + [x]
  {
    q.(items := q.items + [x])
  }

  datatype Status = Uninitialized | Initialized | Closed

  /** The status code the Go constants give each status. */
  function StatusCode(s: Status): (r: nat)
    ensures r <= 2
  {
    match s
    case Uninitialized => 0
    case Initialized => 1
    case Closed => 2
  }

  function StatusName(s: Status): (r: string)
    ensures |r| > 0
  {
    match s
    case Uninitialized => "uninitialized"
    case Initialized => "initialized"
    case Closed => "closed"
  }

  datatype ChannelManager = ChannelManager(
    channelArgs: ChannelArgs,
    reqCh: Queue<Request>,
    respCh: Queue<Response>,
    itemCh: Queue<Item>,
    errorCh: Queue<string>,
    status: Status)

  ghost predicate Valid(cm: ChannelManager) {
    QueueValid(cm.reqCh) && QueueValid(cm.respCh) && QueueValid(cm.itemCh) && QueueValid(cm.errorCh)
  }

  /** The zero value `&myChannelManager{}`. */
  function ZeroChannelManager(): (cm: ChannelManager)
    ensures Valid(cm) && cm.status == Uninitialized
  {
    ChannelManager(NewChannelArgs(0, 0, 0, 0), EmptyQueue(0), EmptyQueue(0), EmptyQueue(0), EmptyQueue(0), Uninitialized)
  }

  /** The four channels are empty and sized by `args`. */
  ghost predicate FreshChannels(cm: ChannelManager, args: ChannelArgs) {
    cm.channelArgs == args
    && cm.reqCh == EmptyQueue(args.reqChanLen) && cm.respCh == EmptyQueue(args.respChanLen)
    && cm.itemCh == EmptyQueue(args.itemChanLen) && cm.errorCh == EmptyQueue(args.errorChanLen)
  }

  /** `Init`: `Err` is the panic raised when the arguments fail their check;
      otherwise the manager and the boolean result. */
  function Init(cm: ChannelManager, args: ChannelArgs, reset: bool): (r: Result<(ChannelManager, bool)>)
    ensures r.Err? <==> CheckChannelArgs(args).Some?
    ensures r.Err? ==> r.error == CheckChannelArgs(args).value
    ensures r.Ok? && cm.status == Initialized && !reset ==> r.value == (cm, false)
    ensures r.Ok? && (cm.status != Initialized || reset) ==>
              r.value.1 && r.value.0.status == Initialized && Valid(r.value.0) && FreshChannels(r.value.0, args)
  {
    match CheckChannelArgs(args)
    case Some(e) => Err(e)
    case None =>
      if cm.status == Initialized && !reset then Ok((cm, false))
      else
        Ok((ChannelManager(args, EmptyQueue(args.reqChanLen), EmptyQueue(args.respChanLen),
                           EmptyQueue(args.itemChanLen), EmptyQueue(args.errorChanLen), Initialized), true))
  }

  /** `NewChannelManager`: `Init(args, true)` on the zero manager. */
  function NewChannelManager(args: ChannelArgs): (r: Result<ChannelManager>)
    ensures r.Err? <==> CheckChannelArgs(args).Some?
    ensures r.Ok? ==> r.value.status == Initialized && Valid(r.value) && FreshChannels(r.value, args)
  {
    match Init(ZeroChannelManager(), args, true)
    case Err(e) => Err(e)
    case Ok(p) => Ok(p.0)
  }

  /** `Close`: only an initialized manager closes. Closed channels keep the
      values buffered in them. */
  function Close(cm: ChannelManager): (r: (ChannelManager, bool))
    ensures r.1 <==> cm.status == Initialized
    ensures !r.1 ==> r.0 == cm
    ensures r.1 ==> r.0 == cm.(status := Closed)
  {
    if cm.status != Initialized then (cm, false) else (cm.(status := Closed), true)
  }

  function UndesirableStatusMessage(s: Status): string {
    "The undesirable status of channel manager: " + StatusName(s) + "!\n"
  }

  /** `checkStatus`: nil when initialized, otherwise an error naming the status. */
  function CheckStatus(cm: ChannelManager): (r: Option<string>)
    ensures r.None? <==> cm.status == Initialized
    ensures r.Some? ==> IsPrefix("The undesirable status of channel manager: ", r.value)
  {
    if cm.status == Initialized then None else Some(UndesirableStatusMessage(cm.status))
  }

  function ReqChan(cm: ChannelManager): (r: Result<Queue<Request>>)
    ensures r.Err? <==> cm.status != Initialized
    ensures r.Ok? ==> r.value == cm.reqCh
  {
    match CheckStatus(cm)
    case Some(e) => Err(e)
    case None => Ok(cm.reqCh)
  }

  function RespChan(cm: ChannelManager): (r: Result<Queue<Response>>)
    ensures r.Err? <==> cm.status != Initialized
    ensures r.Ok? ==> r.value == cm.respCh
  {
    match CheckStatus(cm)
    case Some(e) => Err(e)
    case None => Ok(cm.respCh)
  }

  function ItemChan(cm: ChannelManager): (r: Result<Queue<Item>>)
    ensures r.Err? <==> cm.status != Initialized
    ensures r.Ok? ==> r.value == cm.itemCh
  {
    match CheckStatus(cm)
    case Some(e) => Err(e)
    case None => Ok(cm.itemCh)
  }

  function ErrorChan(cm: ChannelManager): (r: Result<Queue<string>>)
    ensures r.Err? <==> cm.status != Initialized
    ensures r.Ok? ==> r.value == cm.errorCh
  {
    match CheckStatus(cm)
    case Some(e) => Err(e)
    case None => Ok(cm.errorCh)
  }

  function LenCap<T>(q: Queue<T>): string {
    NatToString(|q.items|) + "/" + NatToString(q.capacity)
  }

  const SummaryStatusLabel: string := "status: "

  /** The filled-in summary template: the status name, then `len/cap` of
      the request, response, item and error channels. */
  function Summary(cm: ChannelManager): (r: string)
    ensures IsPrefix(SummaryStatusLabel + StatusName(cm.status) + ", requestChannel: " + LenCap(cm.reqCh), r)
  {
    var head := SummaryStatusLabel + StatusName(cm.status) + ", requestChannel: ";
    PrefixOfAppend(head + LenCap(cm.reqCh), SummaryTail(cm));
    head + LenCap(cm.reqCh) + SummaryTail(cm)
  }

  /** The part of the summary after the request channel's `len/cap`. */
  function SummaryTail(cm: ChannelManager): string {
    ", responseChannel: " + LenCap(cm.respCh)
    + (", itemChannel: " + LenCap(cm.itemCh)
       + (", errorChannel: " + LenCap(cm.errorCh)))
  }

  /** Equal summaries mean equal managers as far as the template shows:
      the same status and the same length and capacity of every channel. */
  lemma SummaryInjective(a: ChannelManager, b: ChannelManager)
    requires Summary(a) == Summary(b)
    ensures a.status == b.status
    ensures |a.reqCh.items| == |b.reqCh.items| && a.reqCh.capacity == b.reqCh.capacity
    ensures |a.respCh.items| == |b.respCh.items| && a.respCh.capacity == b.respCh.capacity
    ensures |a.itemCh.items| == |b.itemCh.items| && a.itemCh.capacity == b.itemCh.capacity
    ensures |a.errorCh.items| == |b.errorCh.items| && a.errorCh.capacity == b.errorCh.capacity
  {
    SummaryDistinguishesStatus(a, b);
    var head := SummaryStatusLabel + StatusName(a.status) + ", requestChannel: ";
    LenCapSplit(head, |a.reqCh.items|, a.reqCh.capacity, SummaryTail(a),
                |b.reqCh.items|, b.reqCh.capacity, SummaryTail(b));
    var ia := ", itemChannel: " + LenCap(a.itemCh) + (", errorChannel: " + LenCap(a.errorCh));
    var ib := ", itemChannel: " + LenCap(b.itemCh) + (", errorChannel: " + LenCap(b.errorCh));
    LenCapSplit(", responseChannel: ", |a.respCh.items|, a.respCh.capacity, ia,
                |b.respCh.items|, b.respCh.capacity, ib);
    var ea := ", errorChannel: " + LenCap(a.errorCh);
    var eb := ", errorChannel: " + LenCap(b.errorCh);
    LenCapSplit(", itemChannel: ", |a.itemCh.items|, a.itemCh.capacity, ea,
                |b.itemCh.items|, b.itemCh.capacity, eb);
    LenCapLast(", errorChannel: ", |a.errorCh.items|, a.errorCh.capacity,
               |b.errorCh.items|, b.errorCh.capacity);
  }

  /** A `len/cap` field followed by a non-digit is read back unambiguously. */
  lemma LenCapSplit(p: string, l1: nat, c1: nat, s1: string, l2: nat, c2: nat, s2: string)
    requires |s1| > 0 && !IsDigit(s1[0])
    requires |s2| > 0 && !IsDigit(s2[0])
    requires p + (NatToString(l1) + "/" + NatToString(c1)) + s1
             == p + (NatToString(l2) + "/" + NatToString(c2)) + s2
    ensures l1 == l2 && c1 == c2 && s1 == s2
  {
    var t1 := "/" + NatToString(c1) + s1;
    var t2 := "/" + NatToString(c2) + s2;
    Regroup(p, NatToString(l1), "/", NatToString(c1), s1);
    Regroup(p, NatToString(l2), "/", NatToString(c2), s2);
    NumberFieldSplit(p, l1, t1, l2, t2);
    NumberFieldSplit("/", c1, s1, c2, s2);
  }

  /** Moves the brackets of a `len/cap` field from around the field to
      around its separator and everything after it. */
  lemma Regroup<T>(p: seq<T>, n: seq<T>, sep: seq<T>, m: seq<T>, s: seq<T>)
    ensures p + (n + sep + m) + s == p + n + (sep + m + s)
  {
  }

  /** The same for the last field of the summary, which nothing follows. */
  lemma LenCapLast(p: string, l1: nat, c1: nat, l2: nat, c2: nat)
    requires p + (NatToString(l1) + "/" + NatToString(c1))
             == p + (NatToString(l2) + "/" + NatToString(c2))
    ensures l1 == l2 && c1 == c2
  {
    LenCapSplit(p, l1, c1, ",", l2, c2, ",");
  }

  /** Two managers in different states never print the same summary. */
  lemma SummaryDistinguishesStatus(a: ChannelManager, b: ChannelManager)
    requires Summary(a) == Summary(b)
    ensures a.status == b.status
  {
    SummaryStatusChar(a);
    SummaryStatusChar(b);
  }

  /** The character right after the label is the first of the status name. */
  lemma SummaryStatusChar(cm: ChannelManager)
    ensures |Summary(cm)| > |SummaryStatusLabel| && Summary(cm)[|SummaryStatusLabel|] == StatusName(cm.status)[0]
  {
    var head := SummaryStatusLabel + StatusName(cm.status) + ", requestChannel: " + LenCap(cm.reqCh);
    var r := Summary(cm);
    assert r[..|head|] == head;
    assert head[|SummaryStatusLabel|] == StatusName(cm.status)[0];
  }

  /** The lifecycle steps a caller can take. */
  datatype Op = InitOp(args: ChannelArgs, reset: bool) | CloseOp

  /** Runs `ops` in order; a panicking `Init` ends the run with `None`. */
  function Run(cm: ChannelManager, ops: seq<Op>): Option<ChannelManager>
    decreases |ops|
  {
    if |ops| == 0 then Some(cm)
    else
      match Run(cm, ops[..|ops| - 1])
      case None => None
      case Some(c) =>
        match ops[|ops| - 1]
        case CloseOp => Some(Close(c).0)
        case InitOp(args, reset) =>
          match Init(c, args, reset)
          case Err(_) => None
          case Ok(p) => Some(p.0)
  }

  /** Once initialized, a manager is never uninitialized again: `Init`
      ends in `Initialized` and `Close` in `Closed` or unchanged. */
  lemma {:induction false} NeverUninitializedAgain(cm: ChannelManager, ops: seq<Op>)
    requires cm.status != Uninitialized
    ensures Run(cm, ops).Some? ==> Run(cm, ops).value.status != Uninitialized
  {
    if |ops| > 0 {
      NeverUninitializedAgain(cm, ops[..|ops| - 1]);
    }
  }

  /** `Close` then `Init` without reset succeeds: a closed manager can be
      re-initialized, and closing twice is refused the second time. */
  lemma CloseThenInit(cm: ChannelManager, args: ChannelArgs)
    requires cm.status == Initialized && CheckChannelArgs(args).None?
    ensures Close(cm).1 && !Close(Close(cm).0).1
    ensures Init(Close(cm).0, args, false).Ok? && Init(Close(cm).0, args, false).value.1
  {
  }
}

=== FILE: comm.dfy ===
/** The caller side of the load generator's test protocol
    (loadgen/testhelper/comm.go): building a random calculation request and
    classifying the server's answer. JSON encoding is a parameter, and a
    JSON decoding that fails is `None`; random draws are parameters. */
module CalcComm {
  import opened Common
  import opened LoadgenLib
  import opened CalcServer

  const Operators: seq<string> := ["+", "-", "*", "/"]

  /** `BuildReq`: the id is the clock reading; the operands are
      `rand.Int31n(1000) + 1` twice and the operator is entry
      `rand.Int31n(100) % 4` of the list. */
  function BuildReq(now: Int64, draw1: nat, draw2: nat, draw3: nat, marshal: ServerReq -> string): (r: (RawReq, ServerReq))
    requires draw1 < 1000 && draw2 < 1000 && draw3 < 100
    ensures |r.1.operands| == 2
    ensures forall i :: 0 <= i < 2 ==> 1 <= r.1.operands[i] <= 1000
    ensures r.1.operator in Operators && IsOperator(r.1.operator)
    ensures r.0 == RawReq(now, marshal(r.1)) && r.1.id == now
  {
    var sreq := ServerReq(now, [draw1 + 1, draw2 + 1], Operators[draw3 % 4]);
    (RawReq(now, marshal(sreq)), sreq)
  }

  /** A request built by `BuildReq` never makes `op` panic. */
  lemma BuiltReqComputes(now: Int64, draw1: nat, draw2: nat, draw3: nat, marshal: ServerReq -> string)
    requires draw1 < 1000 && draw2 < 1000 && draw3 < 100
    ensures Op(BuildReq(now, draw1, draw2, draw3, marshal).1.operands, BuildReq(now, draw1, draw2, draw3, marshal).1.operator).Ok?
  {
    var sreq := BuildReq(now, draw1, draw2, draw3, marshal).1;
    assert 0 !in sreq.operands;
  }

  /** `CheckResp`. `decodedReq` and `decodedResp` are what JSON decoding of
      the two payloads gives. The result always carries the response id and
      both raw values; `Err` is the panic of `op` on a zero divisor. */
  function CheckResp(rawReq: RawReq, rawResp: RawResp, decodedReq: Option<ServerReq>, decodedResp: Option<ServerResp>): (r: Result<CallResult>)
    ensures r.Ok? ==> r.value.id == rawResp.id && r.value.req == rawReq && r.value.resp == rawResp
    ensures r.Err? <==> (decodedReq.Some? && decodedResp.Some? && decodedResp.value.id == decodedReq.value.id
                         && decodedResp.value.err.None? && Op(decodedReq.value.operands, decodedReq.value.operator).Err?)
    ensures r.Ok? ==> (r.value.code == FatalCall <==> decodedReq.None?)
    ensures r.Ok? ==> (r.value.code == ErrorCalee <==>
              decodedReq.Some? && decodedResp.Some? && decodedResp.value.id == decodedReq.value.id
              && decodedResp.value.err.Some?)
    ensures r.Ok? ==> (r.value.code == ErrorResponse <==>
              decodedReq.Some? && (decodedResp.None? || decodedResp.value.id != decodedReq.value.id
              || (decodedResp.value.err.None? && Op(decodedReq.value.operands, decodedReq.value.operator) != Ok(decodedResp.value.result))))
    ensures r.Ok? ==> (r.value.code == Success <==>
              decodedReq.Some? && decodedResp.Some? && decodedResp.value.id == decodedReq.value.id
              && decodedResp.value.err.None? && Op(decodedReq.value.operands, decodedReq.value.operator) == Ok(decodedResp.value.result))
    ensures r.Ok? && r.value.code == Success ==> r.value.msg == "Success. (" + decodedResp.value.formula + ")"
  {
    var base := CallResult(rawResp.id, rawReq, rawResp, 0, "", 0);
    match decodedReq
    case None => Ok(base.(code := FatalCall, msg := "Incorrectly formatted Req: " + rawReq.req + "!\n"))
    case Some(sreq) =>
      match decodedResp
      case None => Ok(base.(code := ErrorResponse, msg := "Incorrectly formatted Resp: " + rawResp.resp + "!\n"))
      case Some(sresp) =>
        if sresp.id != sreq.id then
          Ok(base.(code := ErrorResponse,
                   msg := "Inconsistent raw id! (" + IntToString(rawReq.id) + " != " + IntToString(rawResp.id) + ")\n"))
        else if sresp.err.Some? then
          Ok(base.(code := ErrorCalee, msg := "Abnormal server: " + sresp.err.value + "!\n"))
        else
          match Op(sreq.operands, sreq.operator)
          case Err(m) => Err(m)
          case Ok(expected) =>
            if sresp.result != expected then
              Ok(base.(code := ErrorResponse,
                       msg := "Incorrect result: " + Formula(sreq.operands, sreq.operator, sresp.result, false) + "!\n"))
            else Ok(base.(code := Success, msg := "Success. (" + sresp.formula + ")"))
  }

  /** Every classification is one of the defined result codes. */
  lemma CheckRespDefined(rawReq: RawReq, rawResp: RawResp, decodedReq: Option<ServerReq>, decodedResp: Option<ServerResp>)
    ensures CheckResp(rawReq, rawResp, decodedReq, decodedResp).Ok? ==>
              Defined(CheckResp(rawReq, rawResp, decodedReq, decodedResp).value.code)
  {
  }

  /** The round trip: a request from `BuildReq`, answered as the server's
      handler answers it and decoded faithfully, is classified as a success
      whose message carries the server's formula. */
  lemma BuildAnswerCheck(now: Int64, draw1: nat, draw2: nat, draw3: nat, marshal: ServerReq -> string, elapse: Int64, respText: string)
    requires draw1 < 1000 && draw2 < 1000 && draw3 < 100
    ensures var (rawReq, sreq) := BuildReq(now, draw1, draw2, draw3, marshal);
            Answer(sreq).Ok? &&
            var sresp := Answer(sreq).value;
            var rawResp := RawResp(sresp.id, respText, None, elapse);
            CheckResp(rawReq, rawResp, Some(sreq), Some(sresp)).Ok?
            && CheckResp(rawReq, rawResp, Some(sreq), Some(sresp)).value.code == Success
            && CheckResp(rawReq, rawResp, Some(sreq), Some(sresp)).value.msg
               == "Success. (" + Formula(sreq.operands, sreq.operator, sresp.result, true) + ")"
  {
    BuiltReqComputes(now, draw1, draw2, draw3, marshal);
  }
}

=== FILE: common.dfy ===
/** Shared vocabulary of the model: optional values and Go-style error
    results, fixed-width integer arithmetic, and the decimal rendering that
    Go's `%d` verb and `strconv.Itoa` produce. */
module Common {

  /** A Go value that may be nil. */
  datatype Option<+T> = None | Some(value: T)

  /** A Go `(value, error)` pair: exactly one side is meaningful. */
  datatype Result<+T> = Ok(value: T) | Err(error: string)

  const Two32: int := 0x1_0000_0000
  const Two64: int := 0x1_0000_0000_0000_0000
  const MaxUint32: int := 0xFFFF_FFFF
  const MaxUint64: int := 0xFFFF_FFFF_FFFF_FFFF
  const MaxInt32: int := 0x7FFF_FFFF
  const MinInt64: int := -0x8000_0000_0000_0000
  const MaxInt64: int := 0x7FFF_FFFF_FFFF_FFFF

  type UInt32 = x: int | 0 <= x < 0x1_0000_0000
  type UInt64 = x: int | 0 <= x < 0x1_0000_0000_0000_0000
  type Int64 = x: int | -0x8000_0000_0000_0000 <= x < 0x8000_0000_0000_0000

  /** The message of Go's runtime panic on an integer division by zero. */
  const DividePanic: string := "integer divide by zero"

  /** The message of Go's runtime panic on a method call or field access
      through a nil pointer. */
  const NilPointerPanic: string := "invalid memory address or nil pointer dereference"

  /** Go's unsigned 32-bit wrap-around. */
  function Wrap32(x: int): (r: UInt32)
    ensures 0 <= x < Two32 ==> r == x
  {
    x % Two32
  }

  /** Go's unsigned 64-bit wrap-around. */
  function Wrap64U(x: int): (r: UInt64)
    ensures 0 <= x < Two64 ==> r == x
  {
    x % Two64
  }

  /** Go's two's-complement 64-bit wrap-around for `int`/`int64`. */
  function Wrap64(x: int): (r: Int64)
    ensures MinInt64 <= x <= MaxInt64 ==> r == x
  {
    (x - MinInt64) % Two64 + MinInt64
  }

  /** Go's `/` on integers: the quotient is truncated toward zero. */
  function GoQuot(a: int, b: int): (q: int)
    requires b != 0
    ensures 0 <= a && 0 < b ==> q == a / b
  {
    if (a >= 0) == (b > 0) then Abs(a) / Abs(b) else -(Abs(a) / Abs(b))
  }

  function Abs(x: int): (r: nat)
    ensures r == x || r == -x
  {
    if x < 0 then -x else x
  }

  predicate IsDigit(c: char) {
    '0' <= c <= '9'
  }

  predicate AllDigits(s: string) {
    forall i :: 0 <= i < |s| ==> IsDigit(s[i])
  }

  function DigitChar(d: nat): (c: char)
    requires d < 10
    ensures IsDigit(c)
    ensures c as int - '0' as int == d
  {
    (d + '0' as int) as char
  }

  /** Decimal rendering of a natural number, as `%d` prints it. */
  function NatToString(n: nat): (r: string)
    ensures |r| > 0 && AllDigits(r)
  {
    if n < 10 then [DigitChar(n)] else NatToString(n / 10) + [DigitChar(n % 10)]
  }

  /** A boolean as `%v` prints it. */
  function BoolString(b: bool): (r: string)
    ensures r == "true" <==> b
    ensures r == "false" <==> !b
  {
    if b then "true" else "false"
  }

  /** Decimal rendering of an integer, as `strconv.Itoa` prints it. */
  function IntToString(i: int): (r: string)
    ensures |r| > 0
    ensures i >= 0 ==> AllDigits(r)
    ensures i < 0 ==> r[0] == '-' && AllDigits(r[1..])
  {
    if i < 0 then "-" + NatToString(-i) else NatToString(i)
  }

  /** Reads a digit string back as a number; the inverse of `NatToString`. */
  function ParseDecimal(s: string): nat
    requires AllDigits(s)
  {
    if |s| == 0 then 0
    else ParseDecimal(s[..|s| - 1]) * 10 + (s[|s| - 1] as int - '0' as int)
  }

  lemma {:induction false} ParseNatToString(n: nat)
    ensures ParseDecimal(NatToString(n)) == n
  {
    var r := NatToString(n);
    if n >= 10 {
      ParseNatToString(n / 10);
      assert r[..|r| - 1] == NatToString(n / 10);
    }
  }

  /** Distinct numbers print differently. */
  lemma NatToStringInjective(a: nat, b: nat)
    ensures NatToString(a) == NatToString(b) ==> a == b
  {
    ParseNatToString(a);
    ParseNatToString(b);
  }

  /** Two concatenations `d1 + s1` and `d2 + s2` of a digit run followed by a
      text that does not begin with a digit split at the same place. */
  lemma DigitRunSplit(d1: string, s1: string, d2: string, s2: string)
    requires AllDigits(d1) && AllDigits(d2)
    requires |s1| > 0 && !IsDigit(s1[0])
    requires |s2| > 0 && !IsDigit(s2[0])
    requires d1 + s1 == d2 + s2
    ensures d1 == d2 && s1 == s2
  {
    var k := if |d1| < |d2| then |d1| else |d2|;
    assert IsDigit((d1 + s1)[k]) <==> k < |d1|;
    assert IsDigit((d2 + s2)[k]) <==> k < |d2|;
    assert |d1| == |d2|;
    assert d1 == (d1 + s1)[..|d1|];
    assert d2 == (d2 + s2)[..|d2|];
    assert s1 == (d1 + s1)[|d1|..];
    assert s2 == (d2 + s2)[|d2|..];
  }

  /** `p + NatToString(a) + s1 == p + NatToString(b) + s2`, where both tails
      start with a non-digit, pins down the number and the tail. */
  lemma NumberFieldSplit(p: string, a: nat, s1: string, b: nat, s2: string)
    requires |s1| > 0 && !IsDigit(s1[0])
    requires |s2| > 0 && !IsDigit(s2[0])
    requires p + NatToString(a) + s1 == p + NatToString(b) + s2
    ensures a == b && s1 == s2
  {
    var x := p + NatToString(a) + s1;
    var y := p + NatToString(b) + s2;
    assert x[|p|..] == NatToString(a) + s1;
    assert y[|p|..] == NatToString(b) + s2;
    DigitRunSplit(NatToString(a), s1, NatToString(b), s2);
    NatToStringInjective(a, b);
  }

  /** A number that ends the text is read back from the text. */
  lemma NumberFieldLast(p: string, a: nat, b: nat)
    requires p + NatToString(a) == p + NatToString(b)
    ensures a == b
  {
    assert (p + NatToString(a))[|p|..] == NatToString(a);
    assert (p + NatToString(b))[|p|..] == NatToString(b);
    NatToStringInjective(a, b);
  }

  /** Index of the first occurrence of `c` in `s`, or -1 (Go's
      `strings.Index` / `strings.IndexByte` for a single character). */
  function IndexOf(s: string, c: char): (r: int)
    ensures -1 <= r < |s|
    ensures r == -1 <==> c !in s
    ensures r >= 0 ==> s[r] == c && c !in s[..r]
  {
    if |s| == 0 then -1
    else if s[0] == c then 0
    else
      var k := IndexOf(s[1..], c);
      if k < 0 then -1 else k + 1
  }

  /** Index of the last occurrence of `c` in `s`, or -1 (`strings.LastIndex`). */
  function LastIndexOf(s: string, c: char): (r: int)
    ensures -1 <= r < |s|
    ensures r == -1 <==> c !in s
    ensures r >= 0 ==> s[r] == c && c !in s[r + 1..]
  {
    if |s| == 0 then -1
    else if s[|s| - 1] == c then |s| - 1
    else
      assert s[..|s| - 1] + [s[|s| - 1]] == s;
      LastIndexOf(s[..|s| - 1], c)
  }

  /** Joins the strings of `parts` with `sep` between neighbours. */
  function Join(parts: seq<string>, sep: string): string {
    if |parts| == 0 then ""
    else if |parts| == 1 then parts[0]
    else Join(parts[..|parts| - 1], sep) + sep + parts[|parts| - 1]
  }

  /** Duplicate-free sequence. */
  predicate Distinct<T(==)>(s: seq<T>) {
    forall i, j :: 0 <= i < j < |s| ==> s[i] != s[j]
  }

  /** A new element in front of a list without repeats keeps it so. */
  lemma DistinctCons<T>(x: T, s: seq<T>)
    requires Distinct(s) && x !in s
    ensures Distinct([x] + s)
  {
    var t := [x] + s;
    forall i, j | 0 <= i < j < |t|
      ensures t[i] != t[j]
    {
      assert t[j] == s[j - 1];
      if i > 0 {
        assert t[i] == s[i - 1];
      }
    }
  }

  /** `s` is a prefix of `t` or equal to it. */
  predicate IsPrefix<T(==)>(s: seq<T>, t: seq<T>) {
    |s| <= |t| && t[..|s|] == s
  }

  /** A text is a prefix of itself followed by anything. */
  lemma PrefixOfAppend<T>(s: seq<T>, t: seq<T>)
    ensures IsPrefix(s, s + t)
  {
    assert (s + t)[..|s|] == s;
  }

  /** `s` is a suffix of `t` or equal to it. */
  predicate IsSuffix<T(==)>(s: seq<T>, t: seq<T>) {
    |s| <= |t| && t[|t| - |s|..] == s
  }

  /** A text is a suffix of anything followed by it. */
  lemma SuffixOfAppend<T>(s: seq<T>, t: seq<T>, u: seq<T>)
    ensures IsSuffix(u, s + (t + u))
  {
    assert (s + (t + u))[|s| + |t|..] == u;
  }

  lemma SuffixTransitive<T>(s: seq<T>, t: seq<T>, u: seq<T>)
    requires IsSuffix(s, t) && IsSuffix(t, u)
    ensures IsSuffix(s, u)
  {
    assert u[|u| - |s|..] == u[|u| - |t|..][|t| - |s|..];
  }
}

=== FILE: concurrency.dfy ===
/** The concurrency formula of `init` in loadgen/gen.go: the number of
    tickets is the timeout divided by the send interval, plus one, capped at
    MaxInt32. Go's `int64` and `uint32` arithmetic is written out. */
module LoadgenConcurrency {
  import opened Common

  /** `1e9 / lps` in uint32 arithmetic: the send interval in nanoseconds. */
  function Interval(lps: UInt32): (r: UInt32)
    requires lps != 0
    ensures lps <= 1_000_000_000 ==> r >= 1
    ensures lps > 1_000_000_000 ==> r == 0
  {
    1_000_000_000 / lps
  }

  /** `init`'s formula as written: the quotient plus one is formed in int64,
      capped at MaxInt32, and converted to uint32. A zero interval panics. */
  function ConcurrencyAsWritten(timeoutNs: Int64, lps: UInt32): (r: Result<UInt32>)
    requires lps != 0
    ensures r.Err? <==> lps > 1_000_000_000
  {
    var interval := Interval(lps);
    if interval == 0 then Err(DividePanic)
    else
      var total64 := Wrap64(GoQuot(timeoutNs, interval) + 1);
      var capped := if total64 > MaxInt32 then MaxInt32 else total64;
      Ok(Wrap32(capped))
  }

  /** The formula as the comment above it means it: timeout over interval,
      plus one, at most MaxInt32, without the int64 overflow. */
  function Concurrency(timeoutNs: Int64, lps: UInt32): (r: Result<UInt32>)
    requires lps != 0
    ensures r.Err? <==> lps > 1_000_000_000
    ensures r.Ok? && timeoutNs > 0 ==> 1 <= r.value <= MaxInt32
    ensures r.Ok? && timeoutNs > 0 ==>
              r.value == (if timeoutNs / Interval(lps) + 1 > MaxInt32 then MaxInt32 else timeoutNs / Interval(lps) + 1)
  {
    var interval := Interval(lps);
    if interval == 0 then Err(DividePanic)
    else
      var total := GoQuot(timeoutNs, interval) + 1;
      var capped := if total > MaxInt32 then MaxInt32 else total;
      Ok(Wrap32(capped))
  }

  /** The two agree except at the one quotient whose successor overflows
      int64: a timeout of MaxInt64 with an interval of one nanosecond. */
  lemma ConcurrencyAgrees(timeoutNs: Int64, lps: UInt32)
    requires lps != 0
    requires !(timeoutNs == MaxInt64 && lps > 500_000_000)
    ensures ConcurrencyAsWritten(timeoutNs, lps) == Concurrency(timeoutNs, lps)
  {
    if lps <= 1_000_000_000 {
      var interval := Interval(lps);
      var q := GoQuot(timeoutNs, interval);
      QuotientBounds(timeoutNs, interval);
      if interval == 1 {
        assert q == timeoutNs;
      } else {
        assert interval >= 2;
        HalfQuotient(timeoutNs, interval);
      }
      assert MinInt64 <= q + 1 <= MaxInt64;
    }
  }

  lemma QuotientBounds(a: Int64, b: int)
    requires b >= 1
    ensures MinInt64 <= GoQuot(a, b) <= MaxInt64
    ensures b == 1 ==> GoQuot(a, b) == a
  {
    var n := Abs(a);
    DivTimes(n, b);
    AtMostTimes(n / b, b);
    if a >= 0 {
      assert GoQuot(a, b) == n / b;
    } else {
      assert GoQuot(a, b) == -(n / b);
    }
  }

  lemma HalfQuotient(a: Int64, b: int)
    requires b >= 2
    ensures GoQuot(a, b) < MaxInt64
  {
    if a >= 0 {
      var q := a / b;
      DivTimes(a, b);
      DoubleAtMost(q, b);
      assert GoQuot(a, b) == q;
    }
  }

  lemma DivTimes(a: nat, b: int)
    requires b >= 1
    ensures a / b >= 0 && (a / b) * b <= a
  {
  }

  lemma AtMostTimes(q: nat, b: int)
    requires b >= 1
    ensures q <= q * b
  {
    var c: nat := b - 1;
    assert q * b == q + q * c;
  }

  lemma DoubleAtMost(q: nat, b: int)
    requires b >= 2
    ensures q * 2 <= q * b
  {
    var c: nat := b - 2;
    assert q * b == q * 2 + q * c;
  }

  /** The overflow as written: the largest timeout at more than half a
      billion loads per second (an interval of one nanosecond) gives a
      concurrency of zero; the corrected formula gives MaxInt32. */
  lemma ConcurrencyOverflow(lps: UInt32)
    requires 500_000_000 < lps <= 1_000_000_000
    ensures ConcurrencyAsWritten(MaxInt64, lps) == Ok(0)
    ensures Concurrency(MaxInt64, lps) == Ok(MaxInt32)
  {
    assert Interval(lps) == 1 by {
      assert 1 * lps <= 1_000_000_000 < 2 * lps;
    }
    assert GoQuot(MaxInt64, 1) == MaxInt64;
    assert Wrap64(MaxInt64 + 1) == MinInt64;
    assert Wrap32(MinInt64) == 0;
  }
}

=== FILE: ct.dfy ===
/** `TypeCategoryOf` of testing/ct/ct_demo.go: the category name of a
    value's dynamic type. Values are represented by their type; nil and
    every type the switch does not list are `OtherType`. */
module TypeCategories {
  datatype GoType =
    | BoolType
    | IntType | UintType | Int8Type | Uint8Type | Int16Type | Uint16Type
    | Int32Type | Uint32Type | Int64Type | Uint64Type
    | Float32Type | Float64Type
    | Complex64Type | Complex128Type
    | StringType
    | OtherType

  /** The ten integer types of the second case. */
  const IntegerTypes: set<GoType> := {IntType, UintType, Int8Type, Uint8Type, Int16Type, Uint16Type,
                                      Int32Type, Uint32Type, Int64Type, Uint64Type}

  function TypeCategoryOf(t: GoType): (r: string)
    ensures r == "boolean" <==> t == BoolType
    ensures r == "integer" <==> t in IntegerTypes
    ensures r == "float" <==> t == Float32Type || t == Float64Type
    ensures r == "complex" <==> t == Complex64Type || t == Complex128Type
    ensures r == "string" <==> t == StringType
    ensures r == "unknown" <==> t == OtherType
  {
    match t
    case BoolType => "boolean"
    case IntType | UintType | Int8Type | Uint8Type | Int16Type | Uint16Type
       | Int32Type | Uint32Type | Int64Type | Uint64Type => "integer"
    case Float32Type | Float64Type => "float"
    case Complex64Type | Complex128Type => "complex"
    case StringType => "string"
    case OtherType => "unknown"
  }
}

=== FILE: data.dfy ===
/** The data passed between crawler components (webcrawler/base/data.go):
    requests, responses and items, each with its validity test. The parts of
    `net/http` the crawler looks at are reduced to what it reads. */
module Data {
  import opened Common

  /** A parsed URL: its scheme and its `URL.String()` rendering. */
  datatype Url = Url(scheme: string, text: string)

  /** An `*http.Request`: its `Host` field and its nil-able `URL`. */
  datatype HttpReq = HttpReq(host: string, url: Option<Url>)

  /** An `*http.Response`: the request it answers (nil-able) and whether it
      has a body. */
  datatype HttpResp = HttpResp(request: Option<HttpReq>, hasBody: bool)

  datatype Request = Request(httpReq: Option<HttpReq>, depth: UInt32)

  datatype Response = Response(httpResp: Option<HttpResp>, depth: UInt32)

  /** `Item` is a Go map, nil-able; values are kept abstract as strings. */
  datatype Item = Item(entries: Option<map<string, string>>)

  /** The `Data` interface: anything the analyzer may produce. */
  datatype Datum = RequestDatum(req: Request) | ItemDatum(item: Item) | ResponseDatum(resp: Response)

  function NewRequest(httpReq: Option<HttpReq>, depth: UInt32): (r: Request)
    ensures r.httpReq == httpReq && r.depth == depth
  {
    Request(httpReq, depth)
  }

  function NewResponse(httpResp: Option<HttpResp>, depth: UInt32): (r: Response)
    ensures r.httpResp == httpResp && r.depth == depth
  {
    Response(httpResp, depth)
  }

  predicate RequestValid(req: Request) {
    req.httpReq.Some? && req.httpReq.value.url.Some?
  }

  predicate ResponseValid(resp: Response) {
    resp.httpResp.Some? && resp.httpResp.value.hasBody
  }

  predicate ItemValid(item: Item) {
    item.entries.Some?
  }

  /** `Valid` of the `Data` interface, dispatched on the dynamic type. */
  predicate DatumValid(d: Datum) {
    match d
    case RequestDatum(req) => RequestValid(req)
    case ItemDatum(item) => ItemValid(item)
    case ResponseDatum(resp) => ResponseValid(resp)
  }
}

=== FILE: error.dfy ===
/** The crawler's error value (webcrawler/base/error.go): a type, a message
    and a lazily built full message. */
module CrawlerErrors {
  import opened Common

  const DownloaderError: string := "Downloader Error"
  const AnalyzerError: string := "Analyzer Error"
  const ItemProcessorError: string := "Item Processor Error"

  const ErrorPrefix: string := "Crawler Error: "

  /** `fullErrMsg` is the cache `Error` fills on first use. */
  datatype CrawlerError = CrawlerError(errType: string, errMsg: string, fullErrMsg: string)

  function NewCrawlerError(errType: string, errMsg: string): (r: CrawlerError)
    ensures ErrorType(r) == errType && r.errMsg == errMsg
    ensures Consistent(r)
  {
    CrawlerError(errType, errMsg, "")
  }

  function ErrorType(ce: CrawlerError): string {
    ce.errType
  }

  /** `genFullErrMsg`: "Crawler Error: ", then the type and ": " when the
      type is non-empty, then the message and a newline. */
  function FullErrMsg(errType: string, errMsg: string): (r: string)
    ensures IsPrefix(ErrorPrefix, r) && r[|r| - 1] == '\n'
    ensures errType == "" ==> r == ErrorPrefix + errMsg + "\n"
    ensures errType != "" ==> r == ErrorPrefix + errType + ": " + errMsg + "\n"
  {
    var body := if errType != "" then ErrorPrefix + errType + ": " + errMsg else ErrorPrefix + errMsg;
    body + "\n"
  }

  ghost predicate Consistent(ce: CrawlerError) {
    ce.fullErrMsg == "" || ce.fullErrMsg == FullErrMsg(ce.errType, ce.errMsg)
  }

  /** `Error` returns the full message and the error with its cache filled. */
  function Error(ce: CrawlerError): (r: (CrawlerError, string))
    ensures Consistent(ce) ==> r.1 == FullErrMsg(ce.errType, ce.errMsg)
    ensures r.0 == ce.(fullErrMsg := r.1) && Consistent(r.0) == Consistent(ce)
  {
    if ce.fullErrMsg == "" then
      var m := FullErrMsg(ce.errType, ce.errMsg);
      (ce.(fullErrMsg := m), m)
    else (ce, ce.fullErrMsg)
  }

  /** Repeated `Error` calls return the same string. */
  lemma ErrorStable(ce: CrawlerError)
    ensures Error(Error(ce).0) == Error(ce)
  {
  }

  /** For one error type the full message determines the message. */
  lemma FullErrMsgInjective(errType: string, m1: string, m2: string)
    requires FullErrMsg(errType, m1) == FullErrMsg(errType, m2)
    ensures m1 == m2
  {
    var p := if errType != "" then ErrorPrefix + errType + ": " else ErrorPrefix;
    assert FullErrMsg(errType, m1) == p + m1 + "\n";
    assert FullErrMsg(errType, m2) == p + m2 + "\n";
    assert m1 == (p + m1 + "\n")[|p|..|p| + |m1|];
    assert m2 == (p + m2 + "\n")[|p|..|p| + |m2|];
  }
}

=== FILE: generator.dfy ===
/** The load generator of loadgen/gen.go, without its timers and goroutines:
    construction, the nil branch of `interact`, the guard of `sendResult`,
    and the status guard of `Stop`. A result channel is the list of results
    delivered to it. `Result` values nest: the outer `Err` is a panic, the
    inner one an `error` return. */
module LoadGenerator {
  import opened Common
  import opened LoadgenLib
  import opened LoadgenConcurrency
  import opened LoadgenParams

  const InvalidRawReqMsg: string := "Invalid raw request."

  datatype Generator = Generator(
    timeoutNs: Int64,
    lps: UInt32,
    durationNs: Int64,
    concurrency: UInt32,
    hasStopSign: bool,
    cancelSign: int,
    status: int)

  /** `NewGenerator`, with `init`. `newTickets` stands for the ticket pool
      constructor, which is not part of this model: the error it returns
      for a given total, if any. The total is the concurrency formula as
      `init` writes it. */
  function NewGenerator(p: Params, newTickets: UInt32 -> Option<string>): (r: Result<Result<Generator>>)
    ensures r.Err? <==> Validate(p) == "" && p.lps > 1_000_000_000
    ensures Validate(p) != "" ==> r == Ok(Err(Validate(p)))
    ensures Validate(p) == "" && p.lps <= 1_000_000_000 ==>
              (r.Ok? && r.value.Err? <==> newTickets(ConcurrencyAsWritten(p.timeoutNs, p.lps).value).Some?)
    ensures r.Ok? && r.value.Ok? ==>
              Validate(p) == "" && r.value.value.status == StatusOriginal && r.value.value.cancelSign == 0
              && r.value.value.hasStopSign && r.value.value.timeoutNs == p.timeoutNs
              && r.value.value.lps == p.lps && r.value.value.durationNs == p.durationNs
              && ConcurrencyAsWritten(p.timeoutNs, p.lps) == Ok(r.value.value.concurrency)
  {
    var errMsg := Validate(p);
    if errMsg != "" then Ok(Err(errMsg))
    else Construct(p, newTickets, ConcurrencyAsWritten(p.timeoutNs, p.lps))
  }

  /** The part of `NewGenerator` after the checks, for a given outcome of
      the concurrency formula. */
  function Construct(p: Params, newTickets: UInt32 -> Option<string>, total: Result<UInt32>): (r: Result<Result<Generator>>)
    ensures r.Err? <==> total.Err?
    ensures total.Ok? ==> (r.Ok? && r.value.Err? <==> newTickets(total.value).Some?)
    ensures r.Ok? && r.value.Ok? ==>
              && r.value.value == Generator(p.timeoutNs, p.lps, p.durationNs, total.value, true, 0, StatusOriginal)
              && total == Ok(r.value.value.concurrency)
  {
    match total
    case Err(m) => Err(m)
    case Ok(c) =>
      match newTickets(c)
      case Some(e) => Ok(Err(e))
      case None => Ok(Ok(Generator(p.timeoutNs, p.lps, p.durationNs, c, true, 0, StatusOriginal)))
  }

  /** `NewGenerator` with the corrected concurrency formula: a positive
      timeout always gives at least one ticket. */
  function NewGeneratorIntended(p: Params, newTickets: UInt32 -> Option<string>): (r: Result<Result<Generator>>)
    ensures r.Err? <==> Validate(p) == "" && p.lps > 1_000_000_000
    ensures Validate(p) != "" ==> r == Ok(Err(Validate(p)))
    ensures r.Ok? && r.value.Ok? ==> Concurrency(p.timeoutNs, p.lps) == Ok(r.value.value.concurrency)
    ensures r.Ok? && r.value.Ok? && p.timeoutNs > 0 ==> r.value.value.concurrency >= 1
  {
    var errMsg := Validate(p);
    if errMsg != "" then Ok(Err(errMsg))
    else Construct(p, newTickets, Concurrency(p.timeoutNs, p.lps))
  }

  /** Outside the overflow corner the two constructions are the same. */
  lemma NewGeneratorAgrees(p: Params, newTickets: UInt32 -> Option<string>)
    requires !(p.timeoutNs == MaxInt64 && p.lps > 500_000_000)
    ensures NewGenerator(p, newTickets) == NewGeneratorIntended(p, newTickets)
  {
    if Validate(p) == "" {
      ConcurrencyAgrees(p.timeoutNs, p.lps);
    }
  }

  /** In the corner, `NewGenerator` asks the ticket pool for zero tickets,
      and a generator it returns has concurrency 0. */
  lemma NewGeneratorZeroTickets(p: Params, newTickets: UInt32 -> Option<string>)
    requires Validate(p) == "" && p.timeoutNs == MaxInt64 && 500_000_000 < p.lps <= 1_000_000_000
    ensures NewGenerator(p, newTickets) == Construct(p, newTickets, Ok(0))
    ensures NewGenerator(p, newTickets).Ok? && NewGenerator(p, newTickets).value.Ok? ==>
              NewGenerator(p, newTickets).value.value.concurrency == 0
    ensures NewGeneratorIntended(p, newTickets).Ok? && NewGeneratorIntended(p, newTickets).value.Ok? ==>
              NewGeneratorIntended(p, newTickets).value.value.concurrency == MaxInt32
  {
    ConcurrencyOverflow(p.lps);
  }

  /** `interact`. A nil request gets id -1 and an error; otherwise the
      caller's outcome (`call`) and the measured time are recorded under the
      request's id. */
  function Interact(rawReq: Option<RawReq>, call: Result<string>, elapsed: Int64): (r: RawResp)
    ensures rawReq.None? ==> r.id == -1 && r.err == Some(InvalidRawReqMsg)
    ensures rawReq.Some? ==> r.id == rawReq.value.id && r.elapse == elapsed
    ensures rawReq.Some? ==> (r.err.None? <==> call.Ok?)
    ensures rawReq.Some? && call.Ok? ==> r.resp == call.value
  {
    match rawReq
    case None => RawResp(-1, "", Some(InvalidRawReqMsg), 0)
    case Some(req) =>
      match call
      case Err(e) => RawResp(req.id, "", Some("Sync Call Error: " + e + "."), elapsed)
      case Ok(resp) => RawResp(req.id, resp, None, elapsed)
  }

  /** `sendResult`: delivered only while started and not cancelled. */
  function SendResult(gen: Generator, delivered: seq<CallResult>, result: CallResult): (r: (seq<CallResult>, bool))
    ensures r.1 <==> gen.status == StatusStarted && gen.cancelSign == 0
    ensures r.1 ==> r.0 == delivered + [result]
    ensures !r.1 ==> r.0 == delivered
  {
    if gen.status == StatusStarted && gen.cancelSign == 0 then (delivered + [result], true)
    else (delivered, false)
  }

  /** `handleStopSign`'s effect on the generator: results are cancelled. */
  function HandleStopSign(gen: Generator): (r: Generator)
    ensures r.cancelSign == 1
    ensures r.(cancelSign := gen.cancelSign) == gen
  {
    gen.(cancelSign := 1)
  }

  /** After the stop sign has been handled nothing more is delivered. */
  lemma NothingAfterCancel(gen: Generator, delivered: seq<CallResult>, result: CallResult)
    ensures SendResult(HandleStopSign(gen), delivered, result) == (delivered, false)
  {
  }

  /** `Stop`. Without a stop channel or unless started it reports (0, false)
      and changes nothing; otherwise it marks the generator stopped, the
      load loop handles the stop sign (`handleStopSign` sets the cancel
      sign) and the call count it hands back (`endCount`) is returned. */
  function Stop(gen: Generator, endCount: UInt64): (r: (Generator, UInt64, bool))
    ensures r.2 <==> gen.hasStopSign && gen.status == StatusStarted
    ensures !r.2 ==> r == (gen, 0, false)
    ensures r.2 ==> r.0 == gen.(status := StatusStopped, cancelSign := 1) && r.1 == endCount
  {
    if !gen.hasStopSign then (gen, 0, false)
    else if gen.status != StatusStarted then (gen, 0, false)
    else (HandleStopSign(gen.(status := StatusStopped)), endCount, true)
  }

  /** A second `Stop` always reports failure. */
  lemma StopTwice(gen: Generator, n: UInt64, m: UInt64)
    ensures !Stop(Stop(gen, n).0, m).2
  {
  }

  /** A freshly made generator is not started, so stopping it fails. */
  lemma NewGeneratorCannotStop(p: Params, newTickets: UInt32 -> Option<string>, n: UInt64)
    ensures var r := NewGenerator(p, newTickets);
            r.Ok? && r.value.Ok? ==> Stop(r.value.value, n) == (r.value.value, 0, false)
  {
  }
}

=== FILE: helper.dfy ===
/** The scheduler's string helpers (webcrawler/scheduler/helper.go):
    component codes of the form `prefix-id`, and the primary domain of a
    host. The host patterns are written out as explicit recognisers: an
    unanchored dotted-quad IPv4 test and an ordered list of end-anchored
    domain suffixes. */
module SchedulerHelpers {
  import opened Common

  /** `generateCode`: the prefix, a dash, and the id in decimal. */
  function GenerateCode(prefix: string, id: UInt32): (r: string)
    ensures |r| > |prefix| + 1 && r[..|prefix|] == prefix && r[|prefix|] == '-'
    ensures AllDigits(r[|prefix| + 1..]) && ParseDecimal(r[|prefix| + 1..]) == id
  {
    var r := prefix + "-" + NatToString(id);
    assert r[|prefix| + 1..] == NatToString(id);
    ParseNatToString(id);
    r
  }

  /** `parseCode`: splits at the first dash when that dash is not the first
      character; otherwise the whole code and an empty id. */
  function ParseCode(code: string): (r: seq<string>)
    ensures |r| == 2
    ensures '-' !in code || code[0] == '-' ==> r == [code, ""]
    ensures '-' in code && code[0] != '-' ==>
              r[0] != "" && '-' !in r[0] && r[0] + "-" + r[1] == code
  {
    var index := IndexOf(code, '-');
    if index > 0 then
      assert code[..index] + "-" + code[index + 1..] == code by {
        assert code == code[..index] + [code[index]] + code[index + 1..];
      }
      [code[..index], code[index + 1..]]
    else [code, ""]
  }

  /** The first occurrence of `c` is at `i` when `s[i]` is `c` and no
      earlier character is. */
  lemma {:induction false} IndexOfAt(s: string, c: char, i: nat)
    requires i < |s| && s[i] == c && c !in s[..i]
    ensures IndexOf(s, c) == i
  {
    if i > 0 {
      assert s[0] in s[..i];
      assert s[1..][..i - 1] == s[1..i];
      IndexOfAt(s[1..], c, i - 1);
    }
  }

  /** Round trip: a non-empty prefix without a dash comes back with the id
      in decimal. */
  lemma ParseGenerateCode(prefix: string, id: UInt32)
    requires prefix != "" && '-' !in prefix
    ensures ParseCode(GenerateCode(prefix, id)) == [prefix, NatToString(id)]
  {
    var code := GenerateCode(prefix, id);
    assert code == prefix + "-" + NatToString(id);
    assert code[..|prefix|] == prefix;
    IndexOfAt(code, '-', |prefix|);
    assert code[|prefix| + 1..] == NatToString(id);
  }

  /** The code `parseCode` splits is rebuilt by `generateCode` when its id
      part is a canonical decimal. */
  lemma GenerateParseCode(code: string)
    requires '-' in code && code[0] != '-'
    requires var r := ParseCode(code); AllDigits(r[1]) && r[1] == NatToString(ParseDecimal(r[1]))
    requires ParseDecimal(ParseCode(code)[1]) < Two32
    ensures GenerateCode(ParseCode(code)[0], ParseDecimal(ParseCode(code)[1])) == code
  {
  }

  /** The characters Go's `unicode.IsSpace` accepts. */
  const SpaceChars: set<char> := {
    ' ', '\t', '\n', '\U{000B}', '\U{000C}', '\r', '\U{0085}', '\U{00A0}', '\U{1680}',
    '\U{2000}', '\U{2001}', '\U{2002}', '\U{2003}', '\U{2004}', '\U{2005}', '\U{2006}',
    '\U{2007}', '\U{2008}', '\U{2009}', '\U{200A}',
    '\U{2028}', '\U{2029}', '\U{202F}', '\U{205F}', '\U{3000}'}

  predicate IsSpace(c: char) {
    c in SpaceChars
  }

  function TrimRight(s: string): (r: string)
    ensures IsPrefix(r, s)
    ensures |r| == 0 || !IsSpace(r[|r| - 1])
    ensures forall k :: |r| <= k < |s| ==> IsSpace(s[k])
  {
    if |s| > 0 && IsSpace(s[|s| - 1]) then TrimRight(s[..|s| - 1]) else s
  }

  function TrimLeft(s: string): (r: string)
    ensures IsSuffix(r, s)
    ensures |r| == 0 || !IsSpace(r[0])
    ensures forall k :: 0 <= k < |s| - |r| ==> IsSpace(s[k])
  {
    if |s| > 0 && IsSpace(s[0]) then TrimLeft(s[1..]) else s
  }

  /** `strings.TrimSpace`: the infix of `s` left after removing white space
      at both ends. */
  predicate InfixAt(r: string, s: string, i: int) {
    0 <= i <= |s| - |r| && r == s[i..i + |r|]
  }

  function TrimSpace(s: string): (r: string)
    ensures exists i :: InfixAt(r, s, i)
    ensures |r| == 0 || (!IsSpace(r[0]) && !IsSpace(r[|r| - 1]))
    ensures (forall k :: 0 <= k < |s| ==> IsSpace(s[k])) <==> r == ""
  {
    var t := TrimRight(s);
    var r := TrimLeft(t);
    TrimBothEnds(s, t, r);
    r
  }

  /** Trimming the right end and then the left leaves an infix, and leaves
      nothing exactly when every character was white space. */
  lemma TrimBothEnds(s: string, t: string, r: string)
    requires t == TrimRight(s) && r == TrimLeft(t)
    ensures InfixAt(r, s, |t| - |r|)
    ensures (forall k :: 0 <= k < |s| ==> IsSpace(s[k])) <==> r == ""
  {
    var i := |t| - |r|;
    assert t == s[..|t|];
    assert r == t[i..];
    if r == "" {
      assert t == "";
    } else {
      assert s[i] == r[0] && !IsSpace(r[0]);
    }
  }

  /** A string TrimSpace leaves alone. */
  lemma TrimSpaceTrimmed(s: string)
    requires |s| == 0 || (!IsSpace(s[0]) && !IsSpace(s[|s| - 1]))
    ensures TrimSpace(s) == s
  {
  }

  const EmptyHostMessage: string := "The host is empty!"
  const UnrecognizedHostMessage: string := "Unrecognized host!"

  /** One dotted-quad component: one to three ASCII digits, at most 255
      (the alternatives `25[0-5]|2[0-4]\d|[01]?\d?\d`). */
  predicate Octet(s: string) {
    1 <= |s| <= 3 && AllDigits(s) && ParseDecimal(s) <= 255
  }

  /** `s` split at every dot. */
  function SplitDots(s: string): (r: seq<string>)
    ensures |r| >= 1
    ensures forall k :: 0 <= k < |r| ==> '.' !in r[k]
    decreases |s|
  {
    var i := IndexOf(s, '.');
    if i < 0 then [s] else [s[..i]] + SplitDots(s[i + 1..])
  }

  /** `s` is four octets joined by dots. */
  predicate DottedQuad(s: string) {
    var parts := SplitDots(s);
    |parts| == 4 && forall k :: 0 <= k < 4 ==> Octet(parts[k])
  }

  /** `h[i..j]` is a dotted quad. */
  predicate IpAt(h: string, i: int, j: int) {
    0 <= i <= j <= |h| && DottedQuad(h[i..j])
  }

  /** The unanchored IPv4 pattern matches somewhere in `h`. */
  predicate ContainsIp(h: string) {
    exists i, j | 0 <= i <= j <= |h| :: IpAt(h, i, j)
  }

  /** `\w` in Go's regular expressions. */
  predicate IsWordChar(c: char) {
    ('0' <= c <= '9') || ('a' <= c <= 'z') || ('A' <= c <= 'Z') || c == '_'
  }

  /** The end-anchored domain patterns: `\.(t|t\.\w{2})$`, `\.t$` and `\.\w{2}$`. */
  datatype SuffixPattern = Generic(tld: string) | Fixed(tld: string) | TwoWordChars

  const DomainPatterns: seq<SuffixPattern> := [
    Generic("com"), Generic("gov"), Generic("net"), Generic("org"),
    Fixed("me"), Fixed("biz"), Fixed("info"), Fixed("name"), Fixed("mobi"), Fixed("so"),
    Fixed("asia"), Fixed("tel"), Fixed("tv"), Fixed("cc"), Fixed("co"),
    TwoWordChars]

  predicate EndsWithDotWord2(h: string) {
    |h| >= 3 && h[|h| - 3] == '.' && IsWordChar(h[|h| - 2]) && IsWordChar(h[|h| - 1])
  }

  /** Start of the leftmost match of one pattern (`FindStringIndex(h)[0]`). */
  function MatchStart(p: SuffixPattern, h: string): (r: Option<nat>)
    ensures r.Some? ==> r.value < |h| && h[r.value] == '.'
  {
    match p
    case Generic(t) =>
      if LongMatch(t, h) then
        assert h[|h| - 3 - |t| - 1] == h[..|h| - 3][|h| - 3 - |t| - 1];
        Some(|h| - 3 - |t| - 1)
      else if IsSuffix("." + t, h) then Some(|h| - |t| - 1)
      else None
    case Fixed(t) =>
      if IsSuffix("." + t, h) then Some(|h| - |t| - 1) else None
    case TwoWordChars =>
      if EndsWithDotWord2(h) then Some(|h| - 3) else None
  }

  /** The start of the first pattern, in list order, that matches. */
  function FirstMatch(ps: seq<SuffixPattern>, h: string): (r: Option<nat>)
    ensures r.Some? ==> r.value < |h| && h[r.value] == '.'
  {
    if |ps| == 0 then None
    else match MatchStart(ps[0], h)
      case Some(m) => Some(m)
      case None => FirstMatch(ps[1..], h)
  }

  /** Nothing is found exactly when no pattern of the list matches. */
  lemma {:induction false} FirstMatchNone(ps: seq<SuffixPattern>, h: string)
    ensures FirstMatch(ps, h).None? <==> forall k :: 0 <= k < |ps| ==> MatchStart(ps[k], h).None?
  {
    if |ps| > 0 && MatchStart(ps[0], h).None? {
      FirstMatchNone(ps[1..], h);
      assert forall k :: 1 <= k < |ps| ==> ps[k] == ps[1..][k - 1];
    }
  }

  /** The match `FirstMatch` reports is that of the first pattern that matches. */
  lemma {:induction false} FirstMatchIsFirst(ps: seq<SuffixPattern>, h: string)
    requires FirstMatch(ps, h).Some?
    ensures exists k :: 0 <= k < |ps| && MatchStart(ps[k], h) == FirstMatch(ps, h)
                        && forall j :: 0 <= j < k ==> MatchStart(ps[j], h).None?
  {
    if MatchStart(ps[0], h).None? {
      FirstMatchIsFirst(ps[1..], h);
      var k :| 0 <= k < |ps| - 1 && MatchStart(ps[1..][k], h) == FirstMatch(ps, h)
               && forall j :: 0 <= j < k ==> MatchStart(ps[1..][j], h).None?;
      assert MatchStart(ps[k + 1], h) == FirstMatch(ps, h);
      assert forall j :: 0 <= j < k + 1 ==> MatchStart(ps[j], h).None? by {
        forall j | 0 < j < k + 1 ensures MatchStart(ps[j], h).None? {
          assert ps[j] == ps[1..][j - 1];
        }
      }
    } else {
      assert MatchStart(ps[0], h) == FirstMatch(ps, h);
    }
  }

  /** `suffixIndex`: 0 when no pattern matches. */
  function SuffixIndex(h: string): (r: nat)
    ensures r > 0 ==> r < |h| && h[r] == '.'
  {
    match FirstMatch(DomainPatterns, h)
    case None => 0
    case Some(m) => m
  }

  /** `pdIndex`: just after the last dot before the suffix, or 0. */
  function PdIndex(h: string, suffixIndex: nat): (r: nat)
    requires suffixIndex <= |h|
    ensures r <= suffixIndex
    ensures '.' !in h[r..suffixIndex]
    ensures r == 0 || h[r - 1] == '.'
  {
    var index := LastIndexOf(h[..suffixIndex], '.');
    if index < 0 then 0 else index + 1
  }

  /** `getPrimaryDomain` after the host has been trimmed: an address is its
      own primary domain; a host name loses every label before the one that
      precedes its recognised suffix. */
  function HostDomain(h: string): (r: Result<string>)
    ensures h == "" <==> r == Err(EmptyHostMessage)
    ensures h != "" && ContainsIp(h) ==> r == Ok(h)
    ensures h != "" && !ContainsIp(h) ==> (r.Ok? <==> SuffixIndex(h) > 0)
    ensures r.Err? ==> r.error == EmptyHostMessage || r.error == UnrecognizedHostMessage
    ensures r.Ok? ==> IsSuffix(r.value, h) && r.value != ""
  {
    if h == "" then Err(EmptyHostMessage)
    else if ContainsIp(h) then Ok(h)
    else
      var si := SuffixIndex(h);
      if si > 0 then Ok(h[PdIndex(h, si)..])
      else Err(UnrecognizedHostMessage)
  }

  /** `getPrimaryDomain`: white space around the host is ignored, and a host
      of white space only is the empty host. */
  function GetPrimaryDomain(host: string): (r: Result<string>)
    ensures (forall k :: 0 <= k < |host| ==> IsSpace(host[k])) <==> r == Err(EmptyHostMessage)
    ensures r.Err? ==> r.error == EmptyHostMessage || r.error == UnrecognizedHostMessage
    ensures r.Ok? ==> r.value != ""
  {
    HostDomain(TrimSpace(host))
  }

  /** For a host name the primary domain is the recognised suffix preceded
      by the whole label in front of it: the text back to the previous dot,
      or to the start of the host. */
  lemma PrimaryDomainShape(h: string)
    requires HostDomain(h).Ok? && !ContainsIp(h)
    ensures var d := HostDomain(h).value;
      var si := SuffixIndex(h);
      var name := d[..|d| - (|h| - si)];
      && 0 < si && |d| >= |h| - si
      && d == name + h[si..]
      && '.' !in name
      && (|name| == si || h[si - |name| - 1] == '.')
  {
    var si := SuffixIndex(h);
    assert h != "" && si > 0;
    var pd := PdIndex(h, si);
    assert HostDomain(h).value == h[pd..];
    LabelBeforeSuffix(h, si, pd);
  }

  /** The text from `pd` on is the dot-free label `h[pd..si]` followed by
      the suffix from `si`. */
  lemma LabelBeforeSuffix(h: string, si: nat, pd: nat)
    requires pd <= si <= |h| && '.' !in h[pd..si] && (pd == 0 || h[pd - 1] == '.')
    ensures var d := h[pd..];
      var name := d[..|d| - (|h| - si)];
      && |d| >= |h| - si
      && d == name + h[si..]
      && '.' !in name
      && (|name| == si || h[si - |name| - 1] == '.')
  {
    var d := h[pd..];
    var name := h[pd..si];
    assert d == name + h[si..];
    assert d[..|d| - (|h| - si)] == name;
  }

  /** A pattern of the form `\.(t|t\.\w{2})$` whose `t` has three or more
      characters and no dot cannot match both ways. */
  predicate WellFormedPattern(p: SuffixPattern) {
    p.Generic? ==> |p.tld| >= 3 && '.' !in p.tld
  }

  lemma ShortExcludesLong(t: string, x: string)
    requires |t| >= 3 && '.' !in t && IsSuffix("." + t, x)
    ensures !EndsWithDotWord2(x)
  {
    assert x[|x| - 3] == ("." + t)[|t| - 2] == t[|t| - 3];
  }

  /** `x` ends with `e`, a dot and two word characters. */
  predicate LongMatch(t: string, x: string) {
    |x| >= 3 && IsSuffix("." + t, x[..|x| - 3]) && EndsWithDotWord2(x)
  }

  /** Cutting `k` characters off the front keeps a suffix of length `n`. */
  lemma SuffixOfDrop(h: string, k: nat, e: string)
    requires k <= |h| && |e| <= |h| - k
    ensures IsSuffix(e, h[k..]) <==> IsSuffix(e, h)
  {
    assert h[k..][|h| - k - |e|..] == h[|h| - |e|..];
  }

  lemma LongMatchDrop(t: string, h: string, k: nat)
    requires k <= |h| && |t| + 4 <= |h| - k
    ensures LongMatch(t, h[k..]) <==> LongMatch(t, h)
  {
    var d := h[k..];
    assert d[..|d| - 3] == h[..|h| - 3][k..];
    SuffixOfDrop(h[..|h| - 3], k, "." + t);
    assert d[|d| - 3] == h[|h| - 3] && d[|d| - 2] == h[|h| - 2] && d[|d| - 1] == h[|h| - 1];
  }

  lemma GenericShift(t: string, h: string, k: nat)
    requires k <= |h| && |t| >= 3 && '.' !in t
    ensures MatchStart(Generic(t), h).Some? && MatchStart(Generic(t), h).value >= k ==>
              MatchStart(Generic(t), h[k..]) == Some(MatchStart(Generic(t), h).value - k)
    ensures MatchStart(Generic(t), h[k..]).Some? ==>
              MatchStart(Generic(t), h) == Some(MatchStart(Generic(t), h[k..]).value + k)
  {
    var d := h[k..];
    var n := |t| + 1;
    if IsSuffix("." + t, h) {
      ShortExcludesLong(t, h);
    }
    if IsSuffix("." + t, d) {
      ShortExcludesLong(t, d);
    }
    if |d| >= n {
      SuffixOfDrop(h, k, "." + t);
    }
    if |d| >= n + 3 {
      LongMatchDrop(t, h, k);
    }
    if LongMatch(t, d) {
      assert |d| >= n + 3;
    }
  }

  lemma FixedShift(t: string, h: string, k: nat)
    requires k <= |h|
    ensures MatchStart(Fixed(t), h).Some? && MatchStart(Fixed(t), h).value >= k ==>
              MatchStart(Fixed(t), h[k..]) == Some(MatchStart(Fixed(t), h).value - k)
    ensures MatchStart(Fixed(t), h[k..]).Some? ==>
              MatchStart(Fixed(t), h) == Some(MatchStart(Fixed(t), h[k..]).value + k)
  {
    if |h| - k >= |t| + 1 {
      SuffixOfDrop(h, k, "." + t);
    }
  }

  lemma TwoWordCharsShift(h: string, k: nat)
    requires k <= |h|
    ensures MatchStart(TwoWordChars, h).Some? && MatchStart(TwoWordChars, h).value >= k ==>
              MatchStart(TwoWordChars, h[k..]) == Some(MatchStart(TwoWordChars, h).value - k)
    ensures MatchStart(TwoWordChars, h[k..]).Some? ==>
              MatchStart(TwoWordChars, h) == Some(MatchStart(TwoWordChars, h[k..]).value + k)
  {
  }

  /** Whether a pattern matches depends only on the end of the host, so
      cutting off a prefix that lies before the match moves the match. */
  lemma MatchStartShift(p: SuffixPattern, h: string, k: nat)
    requires k <= |h| && WellFormedPattern(p)
    ensures MatchStart(p, h).Some? && MatchStart(p, h).value >= k ==>
              MatchStart(p, h[k..]) == Some(MatchStart(p, h).value - k)
    ensures MatchStart(p, h[k..]).Some? ==> MatchStart(p, h) == Some(MatchStart(p, h[k..]).value + k)
  {
    match p
    case Generic(t) => GenericShift(t, h, k);
    case Fixed(t) => FixedShift(t, h, k);
    case TwoWordChars => TwoWordCharsShift(h, k);
  }

  lemma {:induction false} FirstMatchShift(ps: seq<SuffixPattern>, h: string, k: nat)
    requires k <= |h|
    requires forall i :: 0 <= i < |ps| ==> WellFormedPattern(ps[i])
    requires FirstMatch(ps, h).Some? && FirstMatch(ps, h).value >= k
    ensures FirstMatch(ps, h[k..]) == Some(FirstMatch(ps, h).value - k)
  {
    MatchStartShift(ps[0], h, k);
    if MatchStart(ps[0], h).None? {
      assert MatchStart(ps[0], h[k..]).None?;
      assert FirstMatch(ps, h) == FirstMatch(ps[1..], h);
      assert FirstMatch(ps, h[k..]) == FirstMatch(ps[1..], h[k..]);
      assert forall i :: 0 <= i < |ps| - 1 ==> ps[1..][i] == ps[i + 1];
      FirstMatchShift(ps[1..], h, k);
    } else {
      assert FirstMatch(ps, h) == MatchStart(ps[0], h);
      assert FirstMatch(ps, h[k..]) == MatchStart(ps[0], h[k..]);
    }
  }

  /** A dotted quad inside a substring is a dotted quad inside the string. */
  lemma ContainsIpInfix(h: string, k: nat)
    requires k <= |h| && ContainsIp(h[k..])
    ensures ContainsIp(h)
  {
    var i, j :| 0 <= i <= j <= |h[k..]| && IpAt(h[k..], i, j);
    assert h[k..][i..j] == h[k + i..k + j];
    assert IpAt(h, k + i, k + j);
  }

  lemma DomainPatternsWellFormed()
    ensures forall i :: 0 <= i < |DomainPatterns| ==> WellFormedPattern(DomainPatterns[i])
  {
  }

  /** On a host name the suffix is found at the same place once the labels
      before the primary domain are cut off. */
  lemma SuffixIndexDrop(h: string, pd: nat)
    requires 0 < SuffixIndex(h) && pd < SuffixIndex(h)
    ensures SuffixIndex(h[pd..]) == SuffixIndex(h) - pd
  {
    DomainPatternsWellFormed();
    FirstMatchShift(DomainPatterns, h, pd);
  }

  /** The primary domain of a trimmed host is its own primary domain, unless
      it starts with a dot (`a..com` gives `.com`, which is unrecognised). */
  lemma HostDomainIdempotent(h: string)
    requires HostDomain(h).Ok? && HostDomain(h).value[0] != '.'
    ensures HostDomain(HostDomain(h).value) == HostDomain(h)
  {
    if !ContainsIp(h) {
      var si := SuffixIndex(h);
      var pd := PdIndex(h, si);
      var d := h[pd..];
      assert HostDomain(h).value == d;
      if ContainsIp(d) {
        ContainsIpInfix(h, pd);
      }
      SuffixIndexDrop(h, pd);
      assert d[..si - pd] == h[pd..si];
      assert PdIndex(d, si - pd) == 0;
    }
  }

  /** The same for `getPrimaryDomain` itself: its result has no surrounding
      white space unless it starts with it. */
  lemma PrimaryDomainIdempotent(host: string)
    ensures GetPrimaryDomain(host).Ok? && GetPrimaryDomain(host).value[0] != '.' && !IsSpace(GetPrimaryDomain(host).value[0])
            ==> GetPrimaryDomain(GetPrimaryDomain(host).value) == GetPrimaryDomain(host)
  {
    TrimmedDomainIdempotent(TrimSpace(host));
  }

  /** The same for a host that is already trimmed. */
  lemma TrimmedDomainIdempotent(h: string)
    requires |h| == 0 || (!IsSpace(h[0]) && !IsSpace(h[|h| - 1]))
    ensures HostDomain(h).Ok? && HostDomain(h).value[0] != '.' && !IsSpace(HostDomain(h).value[0])
            ==> GetPrimaryDomain(HostDomain(h).value) == HostDomain(h)
  {
    if HostDomain(h).Ok? && HostDomain(h).value[0] != '.' && !IsSpace(HostDomain(h).value[0]) {
      var d := HostDomain(h).value;
      assert d[|d| - 1] == h[|h| - 1];
      TrimSpaceTrimmed(d);
      HostDomainIdempotent(h);
    }
  }

  /** A dotted quad starts with a digit. */
  lemma DottedQuadStartsWithDigit(s: string)
    ensures DottedQuad(s) ==> |s| > 0 && IsDigit(s[0])
  {
    var parts := SplitDots(s);
    var di := IndexOf(s, '.');
    if di >= 0 {
      assert parts[0] == s[..di];
    }
  }

  /** A host without digits is never taken for an address. */
  lemma NoDigitNoIp(h: string)
    requires forall k :: 0 <= k < |h| ==> !IsDigit(h[k])
    ensures !ContainsIp(h)
  {
    forall i, j | 0 <= i <= j <= |h|
      ensures !IpAt(h, i, j)
    {
      DottedQuadStartsWithDigit(h[i..j]);
    }
  }

  /** The last `c` in `s` is the one at `i` when none follows it. */
  lemma LastIndexOfAt(s: string, c: char, i: nat)
    requires i < |s| && s[i] == c && c !in s[i + 1..]
    ensures LastIndexOf(s, c) == i
  {
    assert c in s;
  }

  lemma TrimSpaceExample()
    ensures TrimSpace(" www.example.com\n") == "www.example.com"
  {
    var s := " www.example.com\n";
    var t := " www.example.com";
    assert IsSpace(s[|s| - 1]) && s[..|s| - 1] == t;
    assert TrimRight(s) == TrimRight(t);
    assert !IsSpace(t[|t| - 1]);
    assert TrimRight(t) == t;
    TrimLeftExample();
  }

  lemma TrimLeftExample()
    ensures TrimLeft(" www.example.com") == "www.example.com"
  {
    var t := " www.example.com";
    var u := "www.example.com";
    assert IsSpace(t[0]) && t[1..] == u;
    assert u[0] == 'w' && !IsSpace('w');
    assert TrimLeft(u) == u;
  }

  /** `www.example.com`, with white space around it, gives `example.com`. */
  lemma ExampleWww()
    ensures GetPrimaryDomain(" www.example.com\n") == Ok("example.com")
  {
    TrimSpaceExample();
    ExampleWwwTrimmed();
  }

  lemma ExampleWwwTrimmed()
    ensures HostDomain("www.example.com") == Ok("example.com")
  {
    var h := "www.example.com";
    WwwFacts();
    assert h[4..] == "example.com";
  }

  lemma WwwFacts()
    ensures !ContainsIp("www.example.com")
    ensures SuffixIndex("www.example.com") == 11
    ensures PdIndex("www.example.com", 11) == 4
  {
    var h := "www.example.com";
    NoDigitNoIp(h);
    assert |h| == 15 && h[12] != '.';
    assert h[11..] == ".com";
    assert MatchStart(Generic("com"), h) == Some(11);
    assert DomainPatterns[0] == Generic("com");
    assert h[..11] == "www.example";
    LastIndexOfAt(h[..11], '.', 3);
  }

  /** A country suffix after a generic one: `news.example.com.cn`. */
  lemma ExampleCountrySuffix()
    ensures HostDomain("news.example.com.cn") == Ok("example.com.cn")
  {
    var h := "news.example.com.cn";
    CountryFacts();
    CountrySuffixIndex();
    assert h[5..] == "example.com.cn";
  }

  lemma CountryFacts()
    ensures !ContainsIp("news.example.com.cn")
    ensures PdIndex("news.example.com.cn", 12) == 5
  {
    var h := "news.example.com.cn";
    NoDigitNoIp(h);
    assert h[..12] == "news.example";
    LastIndexOfAt(h[..12], '.', 4);
  }

  lemma CountrySuffixIndex()
    ensures SuffixIndex("news.example.com.cn") == 12
  {
    var h := "news.example.com.cn";
    assert |h| == 19;
    assert h[..16] == "news.example.com";
    assert IsSuffix(".com", h[..16]);
    assert h[16] == '.' && IsWordChar(h[17]) && IsWordChar(h[18]);
    assert LongMatch("com", h);
    assert MatchStart(Generic("com"), h) == Some(12);
    assert DomainPatterns[0] == Generic("com");
  }

  /** A name without a recognised suffix, and a host of white space only. */
  lemma ExampleErrors()
    ensures HostDomain("localhost") == Err(UnrecognizedHostMessage)
    ensures GetPrimaryDomain("  ") == Err(EmptyHostMessage)
  {
    var h := "localhost";
    NoDigitNoIp(h);
    assert '.' !in h;
    assert FirstMatch(DomainPatterns, h).None?;
    var blank := "  ";
    assert IsSpace(blank[0]) && IsSpace(blank[1]);
  }
}

=== FILE: idgen.dfy ===
/** The cyclic id generators (webcrawler/middleware/id.go). `GetUint32`
    counts 0, 1, ..., MaxUint32 and then starts over; because the branch that
    starts over leaves the counter at 0 instead of 1, the value 0 is handed
    out twice at every wrap, so the period is MaxUint32 + 2 calls.
    `GetUint64` stacks a cycle counter on top of it. */
module IdGenerators {
  import opened Common

  datatype IdGen = IdGen(sn: UInt32, ended: bool)

  function NewIdGenerator(): (g: IdGen)
    ensures g.sn == 0 && !g.ended
  {
    IdGen(0, false)
  }

  /** One call: the generator after it and the id it returns. */
  function GetUint32(g: IdGen): (r: (IdGen, UInt32))
    ensures g.ended ==> r.1 == 0 && r.0 == IdGen(0, false)
    ensures !g.ended ==> r.1 == g.sn
    ensures !g.ended && g.sn < MaxUint32 ==> r.0 == IdGen(g.sn + 1, false)
    ensures r.0.ended <==> r.1 == MaxUint32
  {
    if g.ended then (IdGen(0, false), 0)
    else if g.sn < MaxUint32 then (IdGen(g.sn + 1, false), g.sn)
    else (IdGen(g.sn, true), g.sn)
  }

  /** The generator after `k` calls. */
  function After(g: IdGen, k: nat): IdGen
    decreases k
  {
    if k == 0 then g else After(GetUint32(g).0, k - 1)
  }

  /** The id returned by call number `k` (counting from 0) of a fresh generator. */
  function IdAt(k: nat): UInt32 {
    GetUint32(After(NewIdGenerator(), k)).1
  }

  /** Number of calls after which a fresh generator is fresh again. */
  const Period: nat := MaxUint32 + 2

  lemma {:induction false} AfterAdd(g: IdGen, a: nat, b: nat)
    ensures After(g, a + b) == After(After(g, a), b)
    decreases a
  {
    if a > 0 {
      AfterAdd(GetUint32(g).0, a - 1, b);
    }
  }

  /** Within the first cycle the state is the call count itself, until the
      call that returned MaxUint32 sets `ended`. */
  lemma {:induction false} AfterFresh(k: nat)
    requires k <= MaxUint32 + 1
    ensures After(NewIdGenerator(), k) == if k <= MaxUint32 then IdGen(k, false) else IdGen(MaxUint32, true)
  {
    if k > 0 {
      AfterFresh(k - 1);
      AfterAdd(NewIdGenerator(), k - 1, 1);
    }
  }

  /** After `Period` calls a fresh generator is back where it started. */
  lemma PeriodRestores()
    ensures After(NewIdGenerator(), Period) == NewIdGenerator()
  {
    AfterFresh(MaxUint32 + 1);
    AfterAdd(NewIdGenerator(), MaxUint32 + 1, 1);
  }

  lemma {:induction false} AfterMod(k: nat)
    ensures After(NewIdGenerator(), k) == After(NewIdGenerator(), k % Period)
  {
    if k >= Period {
      AfterAdd(NewIdGenerator(), Period, k - Period);
      PeriodRestores();
      AfterMod(k - Period);
      ModMinusPeriod(k);
    }
  }

  lemma ModMinusPeriod(k: int)
    ensures (k - Period) % Period == k % Period
  {
  }

  /** The whole output of a fresh generator: call `k` returns `k mod Period`,
      except the last call of each period, which returns 0 a second time. */
  lemma IdSequence(k: nat)
    ensures IdAt(k) == if k % Period <= MaxUint32 then k % Period else 0
  {
    AfterMod(k);
    AfterFresh(k % Period);
  }

  /** Call k of a fresh generator returns k for every k up to MaxUint32. */
  lemma FirstCycleCounts(k: nat)
    requires k <= MaxUint32
    ensures IdAt(k) == k
  {
    AfterFresh(k);
  }

  /** The wrap: MaxUint32, then 0, then 0 again, then 1. */
  lemma WrapRepeatsZero()
    ensures IdAt(MaxUint32) == MaxUint32
    ensures IdAt(MaxUint32 + 1) == 0 && IdAt(MaxUint32 + 2) == 0 && IdAt(MaxUint32 + 3) == 1
  {
    FirstCycleCounts(MaxUint32);
    IdSequence(MaxUint32 + 1);
    IdSequence(MaxUint32 + 2);
    IdSequence(MaxUint32 + 3);
  }

  /** `cyclicIdGenerator2`: the 32-bit generator plus a count of its wraps. */
  datatype IdGen2 = IdGen2(base: IdGen, cycleCount: UInt64)

  function NewIdGenerator2(): (g: IdGen2)
    ensures g.base == NewIdGenerator() && g.cycleCount == 0
  {
    IdGen2(NewIdGenerator(), 0)
  }

  /** One `GetUint64` call: an odd cycle count lifts the 32-bit id by
      MaxUint32, and the count advances exactly when that id is MaxUint32. */
  function GetUint64(g: IdGen2): (r: (IdGen2, UInt64))
    ensures var (b, id32) := GetUint32(g.base);
      && r.0.base == b
      && (g.cycleCount % 2 == 0 ==> r.1 == id32)
      && (g.cycleCount % 2 == 1 ==> r.1 == MaxUint32 + id32)
      && (id32 == MaxUint32 ==> r.0.cycleCount == Wrap64U(g.cycleCount + 1))
      && (id32 != MaxUint32 ==> r.0.cycleCount == g.cycleCount)
  {
    var lift := if g.cycleCount % 2 == 1 then MaxUint32 else 0;
    var (b, id32) := GetUint32(g.base);
    var count := if id32 == MaxUint32 then Wrap64U(g.cycleCount as int + 1) else g.cycleCount;
    (IdGen2(b, count), lift + id32)
  }

  function After2(g: IdGen2, k: nat): IdGen2
    decreases k
  {
    if k == 0 then g else After2(GetUint64(g).0, k - 1)
  }

  lemma {:induction false} After2Add(g: IdGen2, a: nat, b: nat)
    ensures After2(g, a + b) == After2(After2(g, a), b)
    decreases a
  {
    if a > 0 {
      After2Add(GetUint64(g).0, a - 1, b);
    }
  }

  /** The 64-bit generator drives its base exactly like a 32-bit one, and
      in its first cycle counts no wraps until MaxUint32 has been returned. */
  lemma {:induction false} After2Fresh(k: nat)
    requires k <= MaxUint32 + 1
    ensures After2(NewIdGenerator2(), k).base == After(NewIdGenerator(), k)
    ensures After2(NewIdGenerator2(), k).cycleCount == if k <= MaxUint32 then 0 else 1
  {
    if k > 0 {
      After2Fresh(k - 1);
      After2Add(NewIdGenerator2(), k - 1, 1);
      AfterAdd(NewIdGenerator(), k - 1, 1);
      AfterFresh(k - 1);
    }
  }

  /** Because the base repeats 0 right after the cycle count turns odd,
      `GetUint64` hands out MaxUint32 three times in a row. */
  lemma MaxUint32ThreeTimes()
    ensures GetUint64(After2(NewIdGenerator2(), MaxUint32)).1 == MaxUint32
    ensures GetUint64(After2(NewIdGenerator2(), MaxUint32 + 1)).1 == MaxUint32
    ensures GetUint64(After2(NewIdGenerator2(), MaxUint32 + 2)).1 == MaxUint32
  {
    After2Fresh(MaxUint32);
    AfterFresh(MaxUint32);
    After2Fresh(MaxUint32 + 1);
    AfterFresh(MaxUint32 + 1);
    After2Add(NewIdGenerator2(), MaxUint32 + 1, 1);
  }
}

=== FILE: keys.dfy ===
/** The sorted key container of basic/map1/keys.go (`myKeys`): a slice kept
    in ascending order by its comparison function, accepting only keys of one
    dynamic type. Keys are modelled as a Go type name plus an integer value;
    the comparison is the three-way integer comparison the tests install. */
module SortedKeys {
  import opened Common

  /** A dynamically typed key: its Go type and its value. */
  datatype Key = Key(ty: string, v: int)

  /** The comparison function: -1, 0 or 1. */
  function Compare(a: Key, b: Key): (r: int)
    ensures r == -1 <==> a.v < b.v
    ensures r == 0 <==> a.v == b.v
    ensures r == 1 <==> a.v > b.v
  {
    if a.v < b.v then -1 else if a.v > b.v then 1 else 0
  }

  predicate Sorted(c: seq<Key>) {
    forall i, j :: 0 <= i < j < |c| ==> c[i].v <= c[j].v
  }

  predicate OfType(c: seq<Key>, ty: string) {
    forall i :: 0 <= i < |c| ==> c[i].ty == ty
  }

  datatype RawKeys = RawKeys(container: seq<Key>, elemType: string)

  /** Every container reachable through the operations below is sorted and
      holds keys of the element type only. */
  type Keys = ks: RawKeys | Sorted(ks.container) && OfType(ks.container, ks.elemType)
    witness RawKeys([], "int")

  function NewKeys(elemType: string): (ks: Keys)
    ensures Len(ks) == 0 && ks.elemType == elemType
  {
    RawKeys([], elemType)
  }

  function Len(ks: Keys): nat {
    |ks.container|
  }

  /** `Less`: the comparison answers -1. */
  function Less(ks: Keys, i: nat, j: nat): (r: bool)
    requires i < Len(ks) && j < Len(ks)
    ensures r <==> ks.container[i].v < ks.container[j].v
    ensures r ==> i < j
  {
    Compare(ks.container[i], ks.container[j]) == -1
  }

  /** `isAcceptableElem`: non-nil and of the element type. */
  predicate Acceptable(ks: Keys, k: Option<Key>) {
    k.Some? && k.value.ty == ks.elemType
  }

  /** The first position whose key is not below `x` (or `|c|`). */
  function LowerBound(c: seq<Key>, x: int): (r: nat)
    ensures r <= |c|
    ensures forall i :: 0 <= i < r ==> c[i].v < x
    ensures r < |c| ==> c[r].v >= x
  {
    if |c| == 0 then 0 else if c[0].v >= x then 0 else 1 + LowerBound(c[1..], x)
  }

  /** In a sorted container everything from the lower bound on is at least `x`. */
  lemma LowerBoundSplits(c: seq<Key>, x: int)
    requires Sorted(c)
    ensures forall i :: LowerBound(c, x) <= i < |c| ==> c[i].v >= x
  {
  }

  /** A position with the lower-bound property is the lower bound. */
  lemma {:induction false} LowerBoundUnique(c: seq<Key>, x: int, p: nat)
    requires p <= |c|
    requires forall i :: 0 <= i < p ==> c[i].v < x
    requires forall i :: p <= i < |c| ==> c[i].v >= x
    ensures LowerBound(c, x) == p
  {
    if |c| > 0 && c[0].v < x {
      LowerBoundUnique(c[1..], x, p - 1);
    }
  }

  /** `Search`, as the position `sort.Search` finds and the `contains` flag. */
  function Find(ks: Keys, k: Option<Key>): (r: (nat, bool))
    ensures !Acceptable(ks, k) ==> r == (0, false)
    ensures Acceptable(ks, k) ==> r.0 == LowerBound(ks.container, k.value.v)
    ensures r.1 <==> Acceptable(ks, k) && k.value in ks.container
  {
    if !Acceptable(ks, k) then (0, false)
    else
      var c := ks.container;
      var index := LowerBound(c, k.value.v);
      LowerBoundSplits(c, k.value.v);
      (index, index < |c| && c[index] == k.value)
  }

  /** `Search` with the binary search of `sort.Search`. */
  method Search(ks: Keys, k: Option<Key>) returns (index: nat, contains: bool)
    ensures (index, contains) == Find(ks, k)
  {
    if !Acceptable(ks, k) {
      return 0, false;
    }
    var c := ks.container;
    var x := k.value;
    var i, j := 0, |c|;
    while i < j
      invariant 0 <= i <= j <= |c|
      invariant forall p :: 0 <= p < i ==> c[p].v < x.v
      invariant forall p :: j <= p < |c| ==> c[p].v >= x.v
      decreases j - i
    {
      var h := (i + j) / 2;
      if Compare(c[h], x) < 0 {
        i := h + 1;
      } else {
        j := h;
      }
    }
    LowerBoundUnique(c, x.v, i);
    index := i;
    contains := index < |c| && c[index] == x;
  }

  /** Inserting at the lower bound keeps the container sorted. */
  function Insert(c: seq<Key>, k: Key): (r: seq<Key>)
    requires Sorted(c)
    ensures Sorted(r)
    ensures |r| == |c| + 1
    ensures multiset(r) == multiset(c) + multiset{k}
  {
    var p := LowerBound(c, k.v);
    InsertSorted(c, k);
    assert c == c[..p] + c[p..];
    c[..p] + [k] + c[p..]
  }

  lemma InsertSorted(c: seq<Key>, x: Key)
    requires Sorted(c)
    ensures Sorted(c[..LowerBound(c, x.v)] + [x] + c[LowerBound(c, x.v)..])
  {
    var p := LowerBound(c, x.v);
    LowerBoundSplits(c, x.v);
    InsertShape(c, p, x);
    var d := c[..p] + [x] + c[p..];
    forall i, j | 0 <= i < j < |d|
      ensures d[i].v <= d[j].v
    {
      if j < p {
        assert d[i] == c[i] && d[j] == c[j];
      } else if j == p {
        assert d[i] == c[i];
      } else if i < p {
        assert d[i] == c[i] && d[j] == c[j - 1];
      } else if i > p {
        assert d[i] == c[i - 1] && d[j] == c[j - 1];
      }
    }
  }

  /** Inserting a key of the element type keeps every key of that type. */
  lemma InsertOfType(c: seq<Key>, x: Key, ty: string)
    requires Sorted(c) && OfType(c, ty) && x.ty == ty
    ensures OfType(Insert(c, x), ty)
  {
    InsertShape(c, LowerBound(c, x.v), x);
  }

  /** `Add`: an acceptable key is appended and the container re-sorted;
      duplicates are kept. */
  function Add(ks: Keys, k: Option<Key>): (r: (Keys, bool))
    ensures r.1 <==> Acceptable(ks, k)
    ensures !r.1 ==> r.0 == ks
    ensures r.1 ==> Len(r.0) == Len(ks) + 1 && r.0.elemType == ks.elemType
    ensures r.1 ==> multiset(r.0.container) == multiset(ks.container) + multiset{k.value}
  {
    if !Acceptable(ks, k) then (ks, false)
    else
      var c' := Insert(ks.container, k.value);
      InsertOfType(ks.container, k.value, ks.elemType);
      (RawKeys(c', ks.elemType), true)
  }

  /** `Remove`: deletes the occurrence `Search` finds. */
  function Remove(ks: Keys, k: Option<Key>): (r: (Keys, bool))
    ensures r.1 <==> Acceptable(ks, k) && k.value in ks.container
    ensures !r.1 ==> r.0 == ks
    ensures r.1 ==> Len(r.0) + 1 == Len(ks) && r.0.elemType == ks.elemType
    ensures r.1 ==> multiset(r.0.container) == multiset(ks.container) - multiset{k.value}
  {
    var (index, contains) := Find(ks, k);
    if !contains then (ks, false)
    else
      var c := ks.container;
      assert c == c[..index] + [c[index]] + c[index + 1..];
      (RawKeys(c[..index] + c[index + 1..], ks.elemType), true)
  }

  function Clear(ks: Keys): (r: Keys)
    ensures Len(r) == 0 && r.elemType == ks.elemType
  {
    RawKeys([], ks.elemType)
  }

  /** `Get`: nil past the end. */
  function Get(ks: Keys, index: nat): (r: Option<Key>)
    ensures r.None? <==> index >= Len(ks)
    ensures r.Some? ==> r.value == ks.container[index]
  {
    if index >= Len(ks) then None else Some(ks.container[index])
  }

  /** `GetAll`: a snapshot listing what `Get` answers at each position. */
  function GetAll(ks: Keys): (r: seq<Key>)
    ensures |r| == Len(ks)
    ensures forall i :: 0 <= i < |r| ==> Get(ks, i) == Some(r[i])
  {
    ks.container
  }

  /** Adding a key above every stored key appends it. */
  lemma AddLargest(ks: Keys, k: Option<Key>)
    requires Acceptable(ks, k)
    requires forall i :: 0 <= i < Len(ks) ==> ks.container[i].v < k.value.v
    ensures Add(ks, k).0.container == ks.container + [k.value]
  {
    var c := ks.container;
    LowerBoundUnique(c, k.value.v, |c|);
    assert c[..|c|] == c && c[|c|..] == [];
  }

  /** After an `Add`, `Search` reports the key and `Get` returns it there. */
  lemma AddThenSearch(ks: Keys, k: Option<Key>)
    requires Acceptable(ks, k)
    ensures Find(Add(ks, k).0, k).1
    ensures Get(Add(ks, k).0, Find(Add(ks, k).0, k).0) == k
  {
    var c' := Add(ks, k).0.container;
    assert k.value in multiset(c');
  }

  /** Removing a key just added restores the container. */
  lemma AddThenRemove(ks: Keys, k: Option<Key>)
    requires Acceptable(ks, k)
    ensures Remove(Add(ks, k).0, k) == (ks, true)
  {
    var c := ks.container;
    var p := LowerBound(c, k.value.v);
    LowerBoundSplits(c, k.value.v);
    InsertAtLowerBound(c, k.value);
    assert Add(ks, k).0.container == c[..p] + [k.value] + c[p..];
    assert Find(Add(ks, k).0, k) == (p, true);
  }

  /** Inserting `x` at its lower bound puts it where a later search finds
      it, and dropping that position gives back the original list. */
  lemma InsertAtLowerBound(c: seq<Key>, x: Key)
    requires forall i :: LowerBound(c, x.v) <= i < |c| ==> c[i].v >= x.v
    ensures var p := LowerBound(c, x.v);
            var d := c[..p] + [x] + c[p..];
            LowerBound(d, x.v) == p && d[p] == x && d[..p] + d[p + 1..] == c
  {
    var p := LowerBound(c, x.v);
    var d := c[..p] + [x] + c[p..];
    InsertShape(c, p, x);
    LowerBoundUnique(d, x.v, p);
  }

  /** Where the entries of `c` sit once `x` is placed at position `p`. */
  lemma InsertShape(c: seq<Key>, p: nat, x: Key)
    requires p <= |c|
    ensures var d := c[..p] + [x] + c[p..];
            && |d| == |c| + 1 && d[p] == x
            && (forall i :: 0 <= i < p ==> d[i] == c[i])
            && (forall i :: p < i < |d| ==> d[i] == c[i - 1])
            && d[..p] + d[p + 1..] == c
  {
    var d := c[..p] + [x] + c[p..];
    assert d[..p] == c[..p] && d[p + 1..] == c[p..];
  }

  /** A removal keeps the other keys in order: what is left is the container
      with exactly one position dropped. */
  lemma RemoveDropsOne(ks: Keys, k: Option<Key>)
    requires Remove(ks, k).1
    ensures exists p :: 0 <= p < Len(ks) && ks.container[p] == k.value
              && Remove(ks, k).0.container == ks.container[..p] + ks.container[p + 1..]
  {
    var p := Find(ks, k).0;
    assert ks.container[p] == k.value;
  }
}

=== FILE: loadgen.dfy ===
/** The parameter checks of `NewGenerator` in loadgen/gen.go: the caller
    and the result channel appear only as present or nil, and each invalid
    parameter has its own message. */
module LoadgenParams {
  import opened Common

  const CallerMsg: string := "Invalid caller!\n"
  const TimeoutMsg: string := "Invalid timeoutNs!\n"
  const LpsMsg: string := "Invalid lps(load per second)!\n"
  const DurationMsg: string := "Invalid durationNs!\n"
  const ResultChMsg: string := "Invalid result channel!\n"

  /** The arguments of `NewGenerator`. */
  datatype Params = Params(hasCaller: bool, timeoutNs: Int64, lps: UInt32, durationNs: Int64, hasResultCh: bool)

  /** The checks of `NewGenerator`, each overwriting the message of the
      ones before it. */
  function Validate(p: Params): (errMsg: string)
    ensures errMsg == "" <==> p.hasCaller && p.timeoutNs != 0 && p.lps != 0 && p.durationNs != 0 && p.hasResultCh
    ensures !p.hasResultCh ==> errMsg == ResultChMsg
    ensures p.hasResultCh && p.durationNs == 0 ==> errMsg == DurationMsg
    ensures p.hasResultCh && p.durationNs != 0 && p.lps == 0 ==> errMsg == LpsMsg
    ensures p.hasResultCh && p.durationNs != 0 && p.lps != 0 && p.timeoutNs == 0 ==> errMsg == TimeoutMsg
    ensures p.hasResultCh && p.durationNs != 0 && p.lps != 0 && p.timeoutNs != 0 && !p.hasCaller ==> errMsg == CallerMsg
  {
    var m1 := if !p.hasCaller then CallerMsg else "";
    var m2 := if p.timeoutNs == 0 then TimeoutMsg else m1;
    var m3 := if p.lps == 0 then LpsMsg else m2;
    var m4 := if p.durationNs == 0 then DurationMsg else m3;
    if !p.hasResultCh then ResultChMsg else m4
  }
}

=== FILE: omap.dfy ===
/** The ordered map of basic/map1/omap.go (`myOrderedMap`): a Go map from
    keys to elements plus a sorted key container. `Put` checks the element's
    type but not the key's, so a key the container refuses still enters the
    map and the two can diverge; `Consistent` is the invariant that holds
    while every key put has the key type. */
module OrderedMaps {
  import opened Common
  import K = SortedKeys

  /** A dynamically typed element: its Go type and its value. */
  datatype Elem = Elem(ty: string, v: int)

  datatype OMap = OMap(keys: K.Keys, elemType: string, m: map<Option<K.Key>, Elem>)

  /** Strictly ascending: sorted without repeats. */
  predicate Strict(c: seq<K.Key>) {
    forall i, j :: 0 <= i < j < |c| ==> c[i].v < c[j].v
  }

  /** The map keys naming the container's entries. */
  function SomeSet(c: seq<K.Key>): set<Option<K.Key>> {
    set x | x in c :: Some(x)
  }

  /** The part of `m` whose keys lie in `s`. */
  function Restrict(m: map<Option<K.Key>, Elem>, s: set<Option<K.Key>>): map<Option<K.Key>, Elem> {
    map k | k in m && k in s :: m[k]
  }

  /** The key container lists exactly the map's keys, once each, and every
      element has the element type. */
  predicate Consistent(om: OMap) {
    Strict(om.keys.container)
    && om.m.Keys == SomeSet(om.keys.container)
    && forall k :: k in om.m ==> om.m[k].ty == om.elemType
  }

  function NewOrderedMap(keys: K.Keys, elemType: string): (om: OMap)
    ensures Len(om) == 0 && om.keys == keys && om.elemType == elemType
    ensures Consistent(om) <==> K.Len(keys) == 0
  {
    var om := OMap(keys, elemType, map[]);
    assert K.Len(keys) > 0 ==> Some(keys.container[0]) in SomeSet(keys.container);
    om
  }

  function Len(om: OMap): nat {
    |om.m|
  }

  /** `Get`: nil for a missing key. */
  function Get(om: OMap, key: Option<K.Key>): (r: Option<Elem>)
    ensures r.Some? <==> Contains(om, key)
    ensures r.Some? ==> r.value == om.m[key]
  {
    if key in om.m then Some(om.m[key]) else None
  }

  function Contains(om: OMap, key: Option<K.Key>): bool {
    key in om.m
  }

  predicate AcceptableElem(om: OMap, e: Option<Elem>) {
    e.Some? && e.value.ty == om.elemType
  }

  /** `Put`: refuses a nil or wrongly typed element; otherwise stores it,
      returns the previous element (nil if none) and, for a new key, adds
      the key to the container (which itself refuses an unacceptable key). */
  function Put(om: OMap, key: Option<K.Key>, elem: Option<Elem>): (r: (OMap, Option<Elem>, bool))
    ensures r.2 <==> AcceptableElem(om, elem)
    ensures !r.2 ==> r.0 == om && r.1.None?
    ensures r.2 ==> r.1 == Get(om, key) && r.0.m == om.m[key := elem.value]
    ensures r.0.elemType == om.elemType && r.0.keys.elemType == om.keys.elemType
    ensures r.2 && Contains(om, key) ==> r.0.keys == om.keys
    ensures r.2 && !Contains(om, key) ==> r.0.keys == K.Add(om.keys, key).0
    ensures r.2 ==> Contains(r.0, key) && Get(r.0, key) == elem
    ensures r.2 ==> Len(r.0) == if Contains(om, key) then Len(om) else Len(om) + 1
  {
    if !AcceptableElem(om, elem) then (om, None, false)
    else
      var prev := Get(om, key);
      var om' := om.(m := om.m[key := elem.value]);
      if prev.Some? then (om', prev, true)
      else (om'.(keys := K.Add(om.keys, key).0), prev, true)
  }

  /** `Remove`: returns the previous element (nil if none) and deletes the
      key from the map and, when it was there, from the container. */
  function Remove(om: OMap, key: Option<K.Key>): (r: (OMap, Option<Elem>))
    ensures r.1 == Get(om, key)
    ensures r.0.m == om.m - {key} && r.0.elemType == om.elemType
    ensures !Contains(r.0, key)
    ensures Contains(om, key) ==> r.0.keys == K.Remove(om.keys, key).0
    ensures !Contains(om, key) ==> r.0 == om
    ensures Contains(om, key) ==> Len(r.0) + 1 == Len(om)
  {
    var prev := Get(om, key);
    var om' := om.(m := om.m - {key});
    if prev.Some? then (om'.(keys := K.Remove(om.keys, key).0), prev)
    else (om', prev)
  }

  function Clear(om: OMap): (r: OMap)
    ensures Len(r) == 0 && K.Len(r.keys) == 0 && Consistent(r)
  {
    om.(m := map[], keys := K.Clear(om.keys))
  }

  /** In a consistent map the size of the map is the size of the container. */
  lemma {:induction false} StrictCard(c: seq<K.Key>)
    requires Strict(c)
    ensures |SomeSet(c)| == |c|
  {
    if |c| > 0 {
      StrictCard(c[1..]);
      assert SomeSet(c) == {Some(c[0])} + SomeSet(c[1..]);
      assert c[0] !in c[1..];
    }
  }

  lemma ConsistentLen(om: OMap)
    requires Consistent(om)
    ensures Len(om) == K.Len(om.keys)
  {
    StrictCard(om.keys.container);
  }

  /** `FirstKey`: nil on an empty map, otherwise the container's first key,
      which in a consistent map is the smallest key of the map. */
  function FirstKey(om: OMap): (r: Option<K.Key>)
    ensures Len(om) == 0 ==> r.None?
    ensures Consistent(om) && Len(om) > 0 ==>
              r.Some? && Contains(om, r) && forall k :: k in om.m ==> r.value.v <= k.value.v
  {
    if Len(om) == 0 then None
    else
      assert Consistent(om) ==> Some(om.keys.container[0]) in SomeSet(om.keys.container);
      K.Get(om.keys, 0)
  }

  /** `LastKey`: nil on an empty map, otherwise the container's key at
      position `Len - 1`, which in a consistent map is the largest key. */
  function LastKey(om: OMap): (r: Option<K.Key>)
    ensures Len(om) == 0 ==> r.None?
    ensures Consistent(om) && Len(om) > 0 ==>
              r.Some? && Contains(om, r) && forall k :: k in om.m ==> k.value.v <= r.value.v
  {
    if Len(om) == 0 then None
    else
      if Consistent(om) then
        ConsistentLen(om);
        var c := om.keys.container;
        assert Some(c[|c| - 1]) in SomeSet(c);
        K.Get(om.keys, Len(om) - 1)
      else K.Get(om.keys, Len(om) - 1)
  }

  /** `Keys`: the container's keys in order; in a consistent map they are
      ascending and are exactly the map's keys. */
  function KeysOf(om: OMap): (r: seq<K.Key>)
    ensures |r| == K.Len(om.keys)
    ensures Consistent(om) ==> Strict(r) && forall k :: Some(k) in om.m <==> k in r
  {
    K.GetAll(om.keys)
  }

  /** `Elems`: the element of each container key in order (nil for a key the
      map lacks); in a consistent map none is nil. */
  function Elems(om: OMap): (r: seq<Option<Elem>>)
    ensures |r| == K.Len(om.keys)
    ensures forall i :: 0 <= i < |r| ==> r[i] == Get(om, Some(om.keys.container[i]))
    ensures Consistent(om) ==> forall i :: 0 <= i < |r| ==> r[i].Some?
  {
    var c := om.keys.container;
    assert Consistent(om) ==> forall i :: 0 <= i < |c| ==> Some(c[i]) in SomeSet(c);
    seq(|c|, i requires 0 <= i < |c| => Get(om, Some(c[i])))
  }

  /** `Put` keeps a map consistent as long as the key has the key type. */
  lemma PutKeepsConsistent(om: OMap, key: Option<K.Key>, elem: Option<Elem>)
    requires Consistent(om) && K.Acceptable(om.keys, key)
    ensures Consistent(Put(om, key, elem).0)
  {
    if AcceptableElem(om, elem) && !Contains(om, key) {
      var c := om.keys.container;
      var c' := Put(om, key, elem).0.keys.container;
      assert key.value !in c;
      var p := K.LowerBound(c, key.value.v);
      K.LowerBoundSplits(c, key.value.v);
      assert c' == c[..p] + [key.value] + c[p..];
      assert forall i :: p <= i < |c| ==> c[i].v > key.value.v by {
        forall i | p <= i < |c|
          ensures c[i].v > key.value.v
        {
          assert c[i] != key.value && c[i].ty == key.value.ty;
        }
      }
      InsertStrict(c, p, key.value);
    }
  }

  /** Placing a key between the keys below it and the keys above it keeps
      the list strictly ascending and adds just that key. */
  lemma InsertStrict(c: seq<K.Key>, p: nat, k: K.Key)
    requires Strict(c) && p <= |c|
    requires forall i :: 0 <= i < p ==> c[i].v < k.v
    requires forall i :: p <= i < |c| ==> c[i].v > k.v
    ensures Strict(c[..p] + [k] + c[p..])
    ensures forall x :: x in c[..p] + [k] + c[p..] <==> x in c || x == k
  {
    var d := c[..p] + [k] + c[p..];
    assert forall j :: 0 <= j < |d| ==> d[j] == if j < p then c[j] else if j == p then k else c[j - 1];
    assert c == c[..p] + c[p..];
  }

  /** A key of the wrong type reaches the map but not the container. */
  lemma UntypedKeyDiverges(om: OMap, key: Option<K.Key>, elem: Option<Elem>)
    requires AcceptableElem(om, elem) && !Contains(om, key) && !K.Acceptable(om.keys, key)
    ensures Contains(Put(om, key, elem).0, key)
    ensures Put(om, key, elem).0.keys == om.keys
  {
  }

  /** Dropping one position of a strictly ascending list drops just that key. */
  lemma DropOne(c: seq<K.Key>, p: nat)
    requires Strict(c) && p < |c|
    ensures Strict(c[..p] + c[p + 1..])
    ensures SomeSet(c[..p] + c[p + 1..]) == SomeSet(c) - {Some(c[p])}
  {
    var d := c[..p] + c[p + 1..];
    assert forall j :: 0 <= j < |d| ==> d[j] == if j < p then c[j] else c[j + 1];
    forall x | x in c
      ensures x in d <==> x != c[p]
    {
      var i :| 0 <= i < |c| && c[i] == x;
      if i < p {
        assert d[i] == x;
      } else if i > p {
        assert d[i - 1] == x;
      }
    }
  }

  /** `Remove` keeps a map consistent. */
  lemma RemoveKeepsConsistent(om: OMap, key: Option<K.Key>)
    requires Consistent(om)
    ensures Consistent(Remove(om, key).0)
  {
    if Contains(om, key) {
      var c := om.keys.container;
      assert key in SomeSet(c);
      var p := K.Find(om.keys, key).0;
      assert c[p] == key.value;
      DropOne(c, p);
    }
  }

  /** Copies the container's keys at positions `[i, end)` into `acc`, as the
      loop of `SubMap` does. */
  function CopyRange(om: OMap, i: nat, end: nat, acc: OMap): (r: OMap)
    ensures r.keys.elemType == acc.keys.elemType && r.elemType == acc.elemType
    decreases end - i
  {
    if i >= end then acc
    else
      var key := K.Get(om.keys, i);
      CopyRange(om, i + 1, end, Put(acc, key, Get(om, key)).0)
  }

  /** Restricting to one more key of the map stores that key's element. */
  lemma RestrictInsert(m: map<Option<K.Key>, Elem>, s: set<Option<K.Key>>, key: Option<K.Key>)
    requires key in m
    ensures Restrict(m, s)[key := m[key]] == Restrict(m, s + {key})
  {
  }

  /** A new key above every stored key extends the container at the end. */
  lemma PutLargest(acc: OMap, k: K.Key, e: Option<Elem>)
    requires K.Acceptable(acc.keys, Some(k)) && AcceptableElem(acc, e) && !Contains(acc, Some(k))
    requires forall i :: 0 <= i < K.Len(acc.keys) ==> acc.keys.container[i].v < k.v
    ensures Put(acc, Some(k), e).0.keys.container == acc.keys.container + [k]
  {
    K.AddLargest(acc.keys, Some(k));
  }

  /** One step of the copy loop extends the copied slice by one key. */
  lemma CopyStep(om: OMap, b: nat, i: nat, acc: OMap)
    requires Consistent(om) && b <= i < K.Len(om.keys)
    requires acc.keys.elemType == om.keys.elemType && acc.elemType == om.elemType
    requires acc.keys.container == om.keys.container[b..i]
    requires acc.m == Restrict(om.m, SomeSet(om.keys.container[b..i]))
    ensures Put(acc, K.Get(om.keys, i), Get(om, K.Get(om.keys, i))).0.keys.container == om.keys.container[b..i + 1]
    ensures Put(acc, K.Get(om.keys, i), Get(om, K.Get(om.keys, i))).0.m == Restrict(om.m, SomeSet(om.keys.container[b..i + 1]))
  {
    var c := om.keys.container;
    var key := Some(c[i]);
    var s := c[b..i];
    assert c[b..i + 1] == s + [c[i]];
    assert key in SomeSet(c);
    SliceBelow(c, b, i);
    PutLargest(acc, c[i], Get(om, key));
    SomeSetAppend(s, c[i]);
    RestrictInsert(om.m, SomeSet(s), key);
  }

  /** In a strictly ascending list every key of a slice lies below the key
      just after it. */
  lemma SliceBelow(c: seq<K.Key>, b: nat, i: nat)
    requires Strict(c) && b <= i < |c|
    ensures forall j :: 0 <= j < i - b ==> c[b..i][j].v < c[i].v
    ensures c[i] !in c[b..i]
  {
    forall j | 0 <= j < i - b
      ensures c[b..i][j].v < c[i].v
    {
      assert c[b..i][j] == c[b + j];
    }
  }

  lemma SomeSetAppend(s: seq<K.Key>, x: K.Key)
    ensures SomeSet(s + [x]) == SomeSet(s) + {Some(x)}
  {
    assert forall y :: y in s + [x] <==> y in s || y == x;
  }

  /** The copy of a range of a consistent map is that slice of its keys. */
  lemma {:induction false} CopyRangeSlice(om: OMap, b: nat, i: nat, end: nat, acc: OMap)
    requires Consistent(om) && b <= i <= end <= K.Len(om.keys)
    requires acc.keys.elemType == om.keys.elemType && acc.elemType == om.elemType
    requires acc.keys.container == om.keys.container[b..i]
    requires acc.m == Restrict(om.m, SomeSet(om.keys.container[b..i]))
    ensures CopyRange(om, i, end, acc).keys.container == om.keys.container[b..end]
    ensures CopyRange(om, i, end, acc).m == Restrict(om.m, SomeSet(om.keys.container[b..end]))
    decreases end - i
  {
    if i < end {
      CopyStep(om, b, i, acc);
      var key := K.Get(om.keys, i);
      CopyRangeSlice(om, b, i + 1, end, Put(acc, key, Get(om, key)).0);
    }
  }

  /** The positions `SubMap` copies between, as written: `from`'s position
      when it is present, else 0; `to`'s position when present, else `Len`. */
  function SubMapBounds(om: OMap, fromKey: Option<K.Key>, toKey: Option<K.Key>): (r: (nat, nat))
    ensures K.Find(om.keys, fromKey).1 ==> r.0 == K.Find(om.keys, fromKey).0
    ensures !K.Find(om.keys, fromKey).1 ==> r.0 == 0
    ensures K.Find(om.keys, toKey).1 ==> r.1 == K.Find(om.keys, toKey).0
    ensures !K.Find(om.keys, toKey).1 ==> r.1 == Len(om)
    ensures Consistent(om) ==> r.1 <= K.Len(om.keys)
  {
    if Consistent(om) then
      ConsistentLen(om);
      SubMapBoundsOf(om, fromKey, toKey)
    else SubMapBoundsOf(om, fromKey, toKey)
  }

  function SubMapBoundsOf(om: OMap, fromKey: Option<K.Key>, toKey: Option<K.Key>): (nat, nat) {
    var (beginIndex, fromFound) := K.Find(om.keys, fromKey);
    var (endIndex, toFound) := K.Find(om.keys, toKey);
    (if fromFound then beginIndex else 0, if toFound then endIndex else Len(om))
  }

  /** A fresh map of the same types, holding the positions `[b, e)`. */
  function CopyBetween(om: OMap, b: nat, e: nat): OMap {
    CopyRange(om, b, e, OMap(K.NewKeys(om.keys.elemType), om.elemType, map[]))
  }

  /** `SubMap`, as written. */
  function SubMap(om: OMap, fromKey: Option<K.Key>, toKey: Option<K.Key>): (r: OMap)
    ensures r.keys.elemType == om.keys.elemType && r.elemType == om.elemType
    ensures Len(om) == 0 ==> Len(r) == 0
  {
    var empty := OMap(K.NewKeys(om.keys.elemType), om.elemType, map[]);
    if Len(om) == 0 then empty
    else
      var (b, e) := SubMapBounds(om, fromKey, toKey);
      CopyBetween(om, b, e)
  }

  /** Copying `[b, e)` of a consistent map yields exactly that slice of its
      keys and their elements (nothing when `b >= e`). */
  lemma CopyBetweenSlice(om: OMap, b: nat, e: nat)
    requires Consistent(om) && e <= K.Len(om.keys)
    ensures b < e ==> CopyBetween(om, b, e).keys.container == om.keys.container[b..e]
    ensures b < e ==> CopyBetween(om, b, e).m == Restrict(om.m, SomeSet(om.keys.container[b..e]))
    ensures b >= e ==> Len(CopyBetween(om, b, e)) == 0
  {
    if b < e {
      var empty := OMap(K.NewKeys(om.keys.elemType), om.elemType, map[]);
      assert SomeSet(om.keys.container[b..b]) == {};
      CopyRangeSlice(om, b, b, e, empty);
    }
  }

  /** As written, `SubMap` of a consistent map holds the keys at positions
      `[b, e)` given by `SubMapBounds`. */
  lemma SubMapAsWritten(om: OMap, fromKey: Option<K.Key>, toKey: Option<K.Key>)
    requires Consistent(om)
    ensures var (b, e) := SubMapBounds(om, fromKey, toKey);
            Len(om) > 0 && b < e ==> SubMap(om, fromKey, toKey).keys.container == om.keys.container[b..e]
    ensures var (b, e) := SubMapBounds(om, fromKey, toKey);
            Len(om) > 0 && b < e ==> SubMap(om, fromKey, toKey).m == Restrict(om.m, SomeSet(om.keys.container[b..e]))
    ensures var (b, e) := SubMapBounds(om, fromKey, toKey);
            b >= e ==> Len(SubMap(om, fromKey, toKey)) == 0
  {
    ConsistentLen(om);
    var (b, e) := SubMapBounds(om, fromKey, toKey);
    CopyBetweenSlice(om, b, e);
  }

  /** The discrepancy: with `fromKey` of the key type but absent and no upper
      bound, every key is copied, including those below `fromKey`. */
  lemma SubMapAbsentFromCopiesAll(om: OMap, fromKey: Option<K.Key>)
    requires Consistent(om) && Len(om) > 0
    requires K.Acceptable(om.keys, fromKey) && !Contains(om, fromKey)
    ensures SubMap(om, fromKey, None).keys.container == om.keys.container
  {
    ConsistentLen(om);
    var c := om.keys.container;
    assert fromKey !in SomeSet(c);
    assert fromKey.value !in c;
    assert SubMapBounds(om, fromKey, None) == (0, K.Len(om.keys));
    CopyBetweenSlice(om, 0, K.Len(om.keys));
    assert c[0..K.Len(om.keys)] == c;
  }

  /** A consistent map with the keys 1, 3 and 7. */
  function ExampleMap(): (om: OMap)
    ensures Consistent(om) && Len(om) == 3 && om.keys.elemType == "int"
    ensures KeysOf(om) == [K.Key("int", 1), K.Key("int", 3), K.Key("int", 7)]
  {
    var c := [K.Key("int", 1), K.Key("int", 3), K.Key("int", 7)];
    var m := map[Some(c[0]) := Elem("string", 1), Some(c[1]) := Elem("string", 3), Some(c[2]) := Elem("string", 7)];
    assert SomeSet(c) == {Some(c[0]), Some(c[1]), Some(c[2])};
    OMap(K.RawKeys(c, "int"), "string", m)
  }

  /** On the keys {1, 3, 7}, `SubMap(5, nil)` keeps the key 1, which the
      documented contract excludes. */
  lemma SubMapExample()
    ensures SubMap(ExampleMap(), Some(K.Key("int", 5)), None).keys.container[0] == K.Key("int", 1)
    ensures !InRange(K.Key("int", 1), Some(K.Key("int", 5)), None, ExampleMap().keys)
  {
    var om := ExampleMap();
    assert K.Key("int", 5) !in KeysOf(om);
    SubMapAbsentFromCopiesAll(om, Some(K.Key("int", 5)));
  }

  /** `SubMap` as documented: the lower and upper positions are the lower
      bounds of `fromKey` and `toKey` whether or not they are present. */
  function SubMapIntended(om: OMap, fromKey: Option<K.Key>, toKey: Option<K.Key>): (r: OMap)
    ensures r.keys.elemType == om.keys.elemType && r.elemType == om.elemType
  {
    var empty := OMap(K.NewKeys(om.keys.elemType), om.elemType, map[]);
    if Len(om) == 0 then empty
    else
      var (b, e) := IntendedBounds(om, fromKey, toKey);
      CopyBetween(om, b, e)
  }

  /** The positions the corrected `SubMap` copies between. */
  function IntendedBounds(om: OMap, fromKey: Option<K.Key>, toKey: Option<K.Key>): (nat, nat) {
    (if K.Acceptable(om.keys, fromKey) then K.Find(om.keys, fromKey).0 else 0,
     if K.Acceptable(om.keys, toKey) then K.Find(om.keys, toKey).0 else Len(om))
  }

  /** The documented contract: the keys at least `fromKey` and below `toKey`,
      a nil or wrongly typed bound leaving that side open. */
  predicate InRange(x: K.Key, fromKey: Option<K.Key>, toKey: Option<K.Key>, ks: K.Keys) {
    (K.Acceptable(ks, fromKey) ==> fromKey.value.v <= x.v) && (K.Acceptable(ks, toKey) ==> x.v < toKey.value.v)
  }

  /** Between two lower bounds of a strictly ascending list lie exactly the
      keys in the value range they bound. */
  lemma SliceByBounds(c: seq<K.Key>, b: nat, e: nat, lo: Option<int>, hi: Option<int>)
    requires Strict(c) && e <= |c|
    requires lo.Some? ==> b == K.LowerBound(c, lo.value)
    requires lo.None? ==> b == 0
    requires hi.Some? ==> e == K.LowerBound(c, hi.value)
    requires hi.None? ==> e == |c|
    ensures forall i :: 0 <= i < |c| ==>
              (b <= i < e <==> (lo.Some? ==> lo.value <= c[i].v) && (hi.Some? ==> c[i].v < hi.value))
  {
    if lo.Some? { K.LowerBoundSplits(c, lo.value); }
    if hi.Some? { K.LowerBoundSplits(c, hi.value); }
  }

  /** Membership in a slice of a list without repeats, by position. */
  lemma SliceMember(c: seq<K.Key>, b: nat, e: nat, i: nat)
    requires Strict(c) && b <= e <= |c| && i < |c|
    ensures Some(c[i]) in SomeSet(c[b..e]) <==> b <= i < e
  {
    if b <= i < e {
      assert c[b..e][i - b] == c[i];
    }
    if Some(c[i]) in SomeSet(c[b..e]) {
      var j :| 0 <= j < e - b && c[b..e][j] == c[i];
      assert c[b + j] == c[i];
    }
  }

  /** A position lies between the corrected bounds exactly when its key is
      in the documented range. */
  lemma IntendedBoundsRange(om: OMap, fromKey: Option<K.Key>, toKey: Option<K.Key>, i: nat)
    requires Consistent(om) && i < K.Len(om.keys)
    ensures var (b, e) := IntendedBounds(om, fromKey, toKey);
            e <= K.Len(om.keys) && (b <= i < e <==> InRange(om.keys.container[i], fromKey, toKey, om.keys))
  {
    ConsistentLen(om);
    var c := om.keys.container;
    var (b, e) := IntendedBounds(om, fromKey, toKey);
    var lo := if K.Acceptable(om.keys, fromKey) then Some(fromKey.value.v) else None;
    var hi := if K.Acceptable(om.keys, toKey) then Some(toKey.value.v) else None;
    SliceByBounds(c, b, e, lo, hi);
  }

  /** One key's membership in the corrected `SubMap`. */
  lemma IntendedMember(om: OMap, fromKey: Option<K.Key>, toKey: Option<K.Key>, x: K.Key)
    requires Consistent(om) && Len(om) > 0
    ensures Some(x) in SubMapIntended(om, fromKey, toKey).m <==> Some(x) in om.m && InRange(x, fromKey, toKey, om.keys)
  {
    ConsistentLen(om);
    var c := om.keys.container;
    var (b, e) := IntendedBounds(om, fromKey, toKey);
    IntendedBoundsRange(om, fromKey, toKey, 0);
    CopyBetweenSlice(om, b, e);
    if Some(x) in om.m {
      assert Some(x) in SomeSet(c);
      var i :| 0 <= i < |c| && c[i] == x;
      IntendedBoundsRange(om, fromKey, toKey, i);
      if b < e {
        SliceMember(c, b, e, i);
      }
    }
  }

  /** The corrected `SubMap` holds exactly the keys in the documented range,
      with their elements. */
  lemma SubMapIntendedRange(om: OMap, fromKey: Option<K.Key>, toKey: Option<K.Key>)
    requires Consistent(om)
    ensures forall x :: Some(x) in SubMapIntended(om, fromKey, toKey).m <==> Some(x) in om.m && InRange(x, fromKey, toKey, om.keys)
    ensures forall k :: k in SubMapIntended(om, fromKey, toKey).m ==> k in om.m && SubMapIntended(om, fromKey, toKey).m[k] == om.m[k]
  {
    ConsistentLen(om);
    if Len(om) > 0 {
      var (b, e) := IntendedBounds(om, fromKey, toKey);
      IntendedBoundsRange(om, fromKey, toKey, 0);
      CopyBetweenSlice(om, b, e);
      forall x
        ensures Some(x) in SubMapIntended(om, fromKey, toKey).m <==> Some(x) in om.m && InRange(x, fromKey, toKey, om.keys)
      {
        IntendedMember(om, fromKey, toKey, x);
      }
    }
  }

  /** `HeadMap` as documented: the corrected `SubMap` with a nil lower
      bound, so the keys below `toKey` with their elements (all keys for a
      nil or wrongly typed `toKey`). */
  function HeadMapIntended(om: OMap, toKey: Option<K.Key>): (r: OMap)
    ensures r.keys.elemType == om.keys.elemType && r.elemType == om.elemType
    ensures Consistent(om) ==>
              forall x :: Some(x) in r.m <==> Some(x) in om.m && (K.Acceptable(om.keys, toKey) ==> x.v < toKey.value.v)
    ensures Consistent(om) ==> forall k :: k in r.m ==> k in om.m && r.m[k] == om.m[k]
  {
    if Consistent(om) then
      SubMapIntendedRange(om, None, toKey);
      SubMapIntended(om, None, toKey)
    else SubMapIntended(om, None, toKey)
  }

  /** `TailMap` as documented: the corrected `SubMap` with a nil upper
      bound, so the keys at least `fromKey` with their elements. */
  function TailMapIntended(om: OMap, fromKey: Option<K.Key>): (r: OMap)
    ensures r.keys.elemType == om.keys.elemType && r.elemType == om.elemType
    ensures Consistent(om) ==>
              forall x :: Some(x) in r.m <==> Some(x) in om.m && (K.Acceptable(om.keys, fromKey) ==> fromKey.value.v <= x.v)
    ensures Consistent(om) ==> forall k :: k in r.m ==> k in om.m && r.m[k] == om.m[k]
  {
    if Consistent(om) then
      SubMapIntendedRange(om, fromKey, None);
      SubMapIntended(om, fromKey, None)
    else SubMapIntended(om, fromKey, None)
  }

  /** A bound that `Search` finds: a key of the key type that is stored. */
  predicate Found(om: OMap, k: Option<K.Key>) {
    K.Find(om.keys, k).1
  }

  /** As written, `SubMap` is the corrected one with every bound it does not
      find replaced by nil. */
  lemma SubMapIsIntendedOnFound(om: OMap, fromKey: Option<K.Key>, toKey: Option<K.Key>)
    requires Consistent(om)
    ensures SubMap(om, fromKey, toKey)
              == SubMapIntended(om, if Found(om, fromKey) then fromKey else None, if Found(om, toKey) then toKey else None)
  {
    var f := if Found(om, fromKey) then fromKey else None;
    var t := if Found(om, toKey) then toKey else None;
    assert SubMapBounds(om, fromKey, toKey) == IntendedBounds(om, f, t);
  }

  /** `HeadMap`: `SubMap` with a nil lower bound. As written, the keys below
      `toKey` when `toKey` is stored, and every key otherwise. */
  function HeadMap(om: OMap, toKey: Option<K.Key>): (r: OMap)
    ensures r.keys.elemType == om.keys.elemType && r.elemType == om.elemType
    ensures Consistent(om) ==>
              forall x :: Some(x) in r.m <==> Some(x) in om.m && (Found(om, toKey) ==> x.v < toKey.value.v)
    ensures Consistent(om) ==> forall k :: k in r.m ==> k in om.m && r.m[k] == om.m[k]
  {
    if Consistent(om) then
      SubMapIsIntendedOnFound(om, None, toKey);
      SubMapIntendedRange(om, None, if Found(om, toKey) then toKey else None);
      SubMap(om, None, toKey)
    else SubMap(om, None, toKey)
  }

  /** `TailMap`: `SubMap` with a nil upper bound. As written, the keys at
      least `fromKey` when `fromKey` is stored, and every key otherwise. */
  function TailMap(om: OMap, fromKey: Option<K.Key>): (r: OMap)
    ensures r.keys.elemType == om.keys.elemType && r.elemType == om.elemType
    ensures Consistent(om) ==>
              forall x :: Some(x) in r.m <==> Some(x) in om.m && (Found(om, fromKey) ==> fromKey.value.v <= x.v)
    ensures Consistent(om) ==> forall k :: k in r.m ==> k in om.m && r.m[k] == om.m[k]
  {
    if Consistent(om) then
      SubMapIsIntendedOnFound(om, fromKey, None);
      SubMapIntendedRange(om, if Found(om, fromKey) then fromKey else None, None);
      SubMap(om, fromKey, None)
    else SubMap(om, fromKey, None)
  }

  /** For a stored bound the two forms agree. */
  lemma HeadTailAgreeOnFound(om: OMap, k: Option<K.Key>)
    requires Consistent(om) && Found(om, k)
    ensures HeadMap(om, k) == HeadMapIntended(om, k)
    ensures TailMap(om, k) == TailMapIntended(om, k)
  {
    SubMapIsIntendedOnFound(om, None, k);
    SubMapIsIntendedOnFound(om, k, None);
  }

  /** On the keys {1, 3, 7} with the unstored bound 5, `HeadMap` and
      `TailMap` both keep all three keys, where the documented forms keep
      {1, 3} and {7}. */
  lemma HeadTailExample()
    ensures var om := ExampleMap(); var five := Some(K.Key("int", 5));
            && Some(K.Key("int", 7)) in HeadMap(om, five).m && Some(K.Key("int", 7)) !in HeadMapIntended(om, five).m
            && Some(K.Key("int", 1)) in TailMap(om, five).m && Some(K.Key("int", 1)) !in TailMapIntended(om, five).m
  {
    var om := ExampleMap();
    var five := Some(K.Key("int", 5));
    assert K.Key("int", 5) !in KeysOf(om);
    assert !Found(om, five);
    assert Some(K.Key("int", 7)) in om.m && Some(K.Key("int", 1)) in om.m;
  }
}

=== FILE: pipeline.dfy ===
/** The item pipeline (webcrawler/itempipeline/pipeline.go): items pass
    through the registered processors in order, and four counters record
    how many were sent, accepted, processed and are in flight. */
module ItemPipelines {
  import opened Common
  import opened Data

  /** An item processor: the processed item (nil when its map is nil) and
      an error, if any. */
  type Processor = Item -> (Item, Option<string>)

  datatype ItemPipeline = ItemPipeline(
    processors: seq<Processor>,
    failFast: bool,
    sent: UInt64,
    accepted: UInt64,
    processed: UInt64,
    processingNumber: UInt64)

  const InvalidListMessage: string := "Invalid item processor list!\n"

  function InvalidProcessorMessage(i: nat): string {
    "Invalid item processor[" + NatToString(i) + "]!\n"
  }

  /** Index of the first nil processor, or `|ps|` when there is none. */
  function FirstNil(ps: seq<Option<Processor>>): (r: nat)
    ensures r <= |ps|
    ensures r < |ps| ==> ps[r].None?
    ensures forall i :: 0 <= i < r ==> ps[i].Some?
  {
    if |ps| == 0 then 0
    else if ps[0].None? then 0
    else 1 + FirstNil(ps[1..])
  }

  /** `NewItemPipeline`: `Err` is the panic raised for a nil list or for the
      first nil processor; otherwise the processors in order and zero counters. */
  function NewItemPipeline(ps: Option<seq<Option<Processor>>>): (r: Result<ItemPipeline>)
    ensures ps.None? ==> r == Err(InvalidListMessage)
    ensures ps.Some? ==> (r.Ok? <==> forall i :: 0 <= i < |ps.value| ==> ps.value[i].Some?)
    ensures ps.Some? && r.Err? ==>
              exists i :: 0 <= i < |ps.value| && ps.value[i].None? && r.error == InvalidProcessorMessage(i)
                          && forall j :: 0 <= j < i ==> ps.value[j].Some?
    ensures r.Ok? ==> |r.value.processors| == |ps.value|
                      && (forall i :: 0 <= i < |ps.value| ==> ps.value[i] == Some(r.value.processors[i]))
                      && !r.value.failFast && r.value.sent == 0 && r.value.accepted == 0
                      && r.value.processed == 0 && r.value.processingNumber == 0
  {
    match ps
    case None => Err(InvalidListMessage)
    case Some(list) =>
      var k := FirstNil(list);
      if k < |list| then Err(InvalidProcessorMessage(k))
      else Ok(ItemPipeline(seq(|list|, i requires 0 <= i < |list| => list[i].value), false, 0, 0, 0, 0))
  }

  /** Runs the processors on `cur`. A non-nil result replaces the current
      item; each error is collected, and with `failFast` the first one ends
      the run. */
  function Process(ps: seq<Processor>, cur: Item, failFast: bool): (errs: seq<string>)
    ensures |errs| <= |ps|
    ensures failFast ==> |errs| <= 1
  {
    if |ps| == 0 then []
    else
      var (out, err) := ps[0](cur);
      var next := if out.entries.Some? then out else cur;
      match err
      case Some(e) => if failFast then [e] else [e] + Process(ps[1..], next, failFast)
      case None => Process(ps[1..], next, failFast)
  }

  /** Fail-fast reports exactly the first error the full run would report,
      and no error when the full run has none. */
  lemma {:induction false} FailFastIsFirstError(ps: seq<Processor>, cur: Item)
    ensures var all := Process(ps, cur, false);
            Process(ps, cur, true) == if |all| == 0 then [] else [all[0]]
  {
    if |ps| > 0 {
      var (out, err) := ps[0](cur);
      var next := if out.entries.Some? then out else cur;
      FailFastIsFirstError(ps[1..], next);
    }
  }

  const InvalidItemMessage: string := "The item is invalid!"

  /** `Send`: the in-flight counter is raised and, by the deferred call,
      lowered again in uint64 arithmetic; `sent` always counts the call. A
      nil item is refused with one error; any other item is accepted,
      processed, and counted as processed. */
  function Send(ip: ItemPipeline, item: Item): (r: (ItemPipeline, seq<string>))
    ensures r.0.sent == Wrap64U(ip.sent + 1)
    ensures r.0.processingNumber == ip.processingNumber
    ensures r.0.processors == ip.processors && r.0.failFast == ip.failFast
    ensures item.entries.None? ==> r.1 == [InvalidItemMessage]
                                   && r.0.accepted == ip.accepted && r.0.processed == ip.processed
    ensures item.entries.Some? ==> r.1 == Process(ip.processors, item, ip.failFast)
                                   && r.0.accepted == Wrap64U(ip.accepted + 1)
                                   && r.0.processed == Wrap64U(ip.processed + 1)
  {
    var inFlight := Wrap64U(ip.processingNumber + 1);
    var sent := Wrap64U(ip.sent + 1);
    var done := Wrap64U(inFlight + MaxUint64);
    if item.entries.None? then
      (ip.(sent := sent, processingNumber := done), [InvalidItemMessage])
    else
      var errs := Process(ip.processors, item, ip.failFast);
      (ip.(sent := sent, accepted := Wrap64U(ip.accepted + 1), processed := Wrap64U(ip.processed + 1),
           processingNumber := done), errs)
  }

  function FailFast(ip: ItemPipeline): bool {
    ip.failFast
  }

  function SetFailFast(ip: ItemPipeline, failFast: bool): (r: ItemPipeline)
    ensures FailFast(r) == failFast
    ensures r.processors == ip.processors && r.sent == ip.sent && r.accepted == ip.accepted
            && r.processed == ip.processed && r.processingNumber == ip.processingNumber
  {
    ip.(failFast := failFast)
  }

  /** `Count`: always three values, sent, accepted and processed. */
  function Count(ip: ItemPipeline): (r: seq<UInt64>)
    ensures |r| == 3 && r[0] == ip.sent && r[1] == ip.accepted && r[2] == ip.processed
  {
    [ip.sent, ip.accepted, ip.processed]
  }

  function ProcessingNumber(ip: ItemPipeline): UInt64 {
    ip.processingNumber
  }

  /** Under sequential use no item is in flight between calls, and every
      accepted item has been processed; the counters stay ordered while
      `sent` has not wrapped. */
  ghost predicate CountersOrdered(ip: ItemPipeline) {
    ip.processed == ip.accepted <= ip.sent && ip.processingNumber == 0
  }

  lemma SendKeepsCountersOrdered(ip: ItemPipeline, item: Item)
    requires CountersOrdered(ip) && ip.sent < MaxUint64
    ensures CountersOrdered(Send(ip, item).0)
    ensures Send(ip, item).0.sent == ip.sent + 1
  {
  }

  /** Sends every item of `items` in order. */
  function SendAll(ip: ItemPipeline, items: seq<Item>): ItemPipeline
    decreases |items|
  {
    if |items| == 0 then ip else SendAll(Send(ip, items[0]).0, items[1..])
  }

  /** Number of non-nil items in `items`. */
  function CountAccepted(items: seq<Item>): (n: nat)
    ensures n <= |items|
  {
    if |items| == 0 then 0 else (if items[0].entries.Some? then 1 else 0) + CountAccepted(items[1..])
  }

  /** From a fresh pipeline, after a run of sends (fewer than 2^64), `Count`
      reports the number of items sent and, twice, the number of non-nil
      ones, and nothing is in flight. */
  lemma {:induction false} SendAllCounts(ip: ItemPipeline, items: seq<Item>)
    requires CountersOrdered(ip) && ip.sent + |items| <= MaxUint64
    ensures var r := SendAll(ip, items);
            && Count(r) == [ip.sent + |items|, ip.accepted + CountAccepted(items), ip.processed + CountAccepted(items)]
            && ProcessingNumber(r) == 0
    decreases |items|
  {
    if |items| > 0 {
      SendKeepsCountersOrdered(ip, items[0]);
      SendAllCounts(Send(ip, items[0]).0, items[1..]);
    }
  }

  const SummaryHead: string := "failFast: "

  /** The filled-in summary template. */
  function Summary(ip: ItemPipeline): (r: string)
    ensures IsPrefix(SummaryHead + BoolString(ip.failFast) + ", processorNumber: " + NatToString(|ip.processors|), r)
  {
    var head := SummaryHead + BoolString(ip.failFast) + ", processorNumber: ";
    PrefixOfAppend(head + NatToString(|ip.processors|), SummaryCounters(ip));
    head + NatToString(|ip.processors|) + SummaryCounters(ip)
  }

  /** The part of the summary after the processor count: the three
      counters of `Count` and the in-flight number. */
  function SummaryCounters(ip: ItemPipeline): string {
    ", sent: " + NatToString(ip.sent)
    + (", accepted: " + NatToString(ip.accepted)
       + (", processed: " + NatToString(ip.processed)
          + (", processingNumber: " + NatToString(ip.processingNumber))))
  }

  /** Equal summaries mean equal pipelines as far as the template shows:
      the same fail-fast flag, processor count, counters and in-flight number. */
  lemma SummaryInjective(a: ItemPipeline, b: ItemPipeline)
    requires Summary(a) == Summary(b)
    ensures a.failFast == b.failFast && |a.processors| == |b.processors|
    ensures Count(a) == Count(b)
    ensures ProcessingNumber(a) == ProcessingNumber(b)
  {
    SummaryFailFast(a, b);
    var head := SummaryHead + BoolString(a.failFast) + ", processorNumber: ";
    NumberFieldSplit(head, |a.processors|, SummaryCounters(a), |b.processors|, SummaryCounters(b));
    var acc := ", accepted: " + NatToString(a.accepted)
               + (", processed: " + NatToString(a.processed)
                  + (", processingNumber: " + NatToString(a.processingNumber)));
    var acc' := ", accepted: " + NatToString(b.accepted)
                + (", processed: " + NatToString(b.processed)
                   + (", processingNumber: " + NatToString(b.processingNumber)));
    NumberFieldSplit(", sent: ", a.sent, acc, b.sent, acc');
    var proc := ", processed: " + NatToString(a.processed)
                + (", processingNumber: " + NatToString(a.processingNumber));
    var proc' := ", processed: " + NatToString(b.processed)
                 + (", processingNumber: " + NatToString(b.processingNumber));
    NumberFieldSplit(", accepted: ", a.accepted, proc, b.accepted, proc');
    var pn := ", processingNumber: " + NatToString(a.processingNumber);
    var pn' := ", processingNumber: " + NatToString(b.processingNumber);
    NumberFieldSplit(", processed: ", a.processed, pn, b.processed, pn');
    NumberFieldLast(", processingNumber: ", a.processingNumber, b.processingNumber);
  }

  /** The flag is the first thing after the label, and "true" and "false"
      start differently. */
  lemma SummaryFailFast(a: ItemPipeline, b: ItemPipeline)
    requires Summary(a) == Summary(b)
    ensures a.failFast == b.failFast
  {
    var pa := SummaryHead + BoolString(a.failFast) + ", processorNumber: " + NatToString(|a.processors|);
    var pb := SummaryHead + BoolString(b.failFast) + ", processorNumber: " + NatToString(|b.processors|);
    assert Summary(a)[..|pa|] == pa && Summary(b)[..|pb|] == pb;
    assert pa[|SummaryHead|] == BoolString(a.failFast)[0];
    assert pb[|SummaryHead|] == BoolString(b.failFast)[0];
  }
}

=== FILE: pool.dfy ===
/** The entity pool (webcrawler/middleware/pool.go): a FIFO container of
    entities plus a map from entity id to "is in the pool". `Take` pops the
    oldest entity and marks its id out; `Return` puts an entity back only if
    a compare-and-set on its id flips it from out to in. */
module Pools {
  import opened Common

  /** An entity: its id and its dynamic type (`reflect.TypeOf`). */
  datatype Entity = Entity(id: UInt32, etype: string)

  datatype Pool = Pool(total: UInt32, etype: string, container: seq<Entity>, idContainer: map<UInt32, bool>)

  function Ids(c: seq<Entity>): (r: seq<UInt32>)
    ensures |r| == |c| && forall i :: 0 <= i < |c| ==> r[i] == c[i].id
  {
    seq(|c|, i requires 0 <= i < |c| => c[i].id)
  }

  function ToSet<T>(s: seq<T>): set<T> {
    set x | x in s
  }

  /** The ids marked "in the pool". */
  function TrueIds(m: map<UInt32, bool>): set<UInt32> {
    set k | k in m && m[k]
  }

  /** The ids marked "taken". */
  function FalseIds(m: map<UInt32, bool>): set<UInt32> {
    set k | k in m && !m[k]
  }

  /** A pool built from distinct ids and used only through `Take` and
      `Return`: the container holds distinct entities of the pool's type,
      their ids are exactly the ids marked true, and the map knows `total` ids. */
  ghost predicate Valid(p: Pool) {
    && |p.container| <= p.total
    && Distinct(Ids(p.container))
    && (forall i :: 0 <= i < |p.container| ==> p.container[i].etype == p.etype)
    && TrueIds(p.idContainer) == ToSet(Ids(p.container))
    && |p.idContainer.Keys| == p.total
  }

  function Total(p: Pool): UInt32 {
    p.total
  }

  /** `total - uint32(len(container))` in uint32 arithmetic. */
  function Used(p: Pool): (r: UInt32)
    ensures Valid(p) ==> r == p.total - |p.container|
  {
    Wrap32(p.total - |p.container|)
  }

  function NotInitializedMessage(total: UInt32): string {
    "The pool can not be initialized! (total=" + NatToString(total) + ")\n"
  }

  function GeneratedTypeMessage(etype: string): string {
    "The type of result of function genEntity() is NOT " + etype + "!\n"
  }

  lemma {:induction false} DistinctSetCard<T>(s: seq<T>)
    requires Distinct(s)
    ensures |ToSet(s)| == |s|
  {
    if |s| > 0 {
      var init := s[..|s| - 1];
      DistinctSetCard(init);
      assert ToSet(s) == ToSet(init) + {s[|s| - 1]};
      assert s[|s| - 1] !in ToSet(init);
    }
  }

  /** The id map after marking every entity of `c` as in the pool. */
  function MarkAll(c: seq<Entity>): (m: map<UInt32, bool>)
    ensures m.Keys == ToSet(Ids(c))
    ensures forall k :: k in m ==> m[k]
  {
    if |c| == 0 then map[]
    else
      var init := c[..|c| - 1];
      assert ToSet(Ids(c)) == ToSet(Ids(init)) + {c[|c| - 1].id} by {
        assert Ids(c) == Ids(init) + [c[|c| - 1].id];
      }
      MarkAll(init)[c[|c| - 1].id := true]
  }

  lemma MarkAllAllIn(c: seq<Entity>)
    ensures TrueIds(MarkAll(c)) == MarkAll(c).Keys
  {
  }

  /** A pool whose container holds distinct ids of its type, all marked in. */
  lemma FreshPoolValid(total: UInt32, etype: string, c: seq<Entity>)
    requires |c| == total && Distinct(Ids(c))
    requires forall i :: 0 <= i < |c| ==> c[i].etype == etype
    ensures Valid(Pool(total, etype, c, MarkAll(c)))
  {
    var p := Pool(total, etype, c, MarkAll(c));
    assert TrueIds(p.idContainer) == ToSet(Ids(p.container)) by {
      MarkAllAllIn(c);
    }
    assert |p.idContainer.Keys| == p.total by {
      DistinctSetCard(Ids(c));
    }
  }

  /** The loop of `NewPool`: calls `gen` for 0, 1, ..., `total - 1`,
      marking each id as in the pool, and stops at the first entity of the
      wrong type. */
  method Generate(total: UInt32, etype: string, gen: nat -> Entity)
    returns (ok: bool, container: seq<Entity>, m: map<UInt32, bool>)
    ensures ok <==> forall i :: 0 <= i < total ==> gen(i).etype == etype
    ensures ok ==> |container| == total && (forall i :: 0 <= i < total ==> container[i] == gen(i))
                   && m == MarkAll(container)
  {
    container, m := [], map[];
    var i := 0;
    while i < total
      invariant 0 <= i <= total
      invariant |container| == i && forall j :: 0 <= j < i ==> container[j] == gen(j)
      invariant forall j :: 0 <= j < i ==> gen(j).etype == etype
      invariant m == MarkAll(container)
    {
      var e := gen(i);
      if e.etype != etype {
        return false, container, m;
      }
      assert (container + [e])[..|container|] == container;
      container := container + [e];
      m := m[e.id := true];
      i := i + 1;
    }
    ok := true;
  }

  /** `NewPool`: `gen(i)` is the entity the i-th call of `genEntity` returns. */
  method NewPool(total: UInt32, etype: string, gen: nat -> Entity) returns (r: Result<Pool>)
    ensures total == 0 ==> r == Err(NotInitializedMessage(total))
    ensures total > 0 ==> (r.Ok? <==> forall i :: 0 <= i < total ==> gen(i).etype == etype)
    ensures total > 0 && r.Err? ==> r.error == GeneratedTypeMessage(etype)
    ensures r.Ok? ==>
              && r.value.total == total && r.value.etype == etype
              && |r.value.container| == total
              && (forall i :: 0 <= i < total ==> r.value.container[i] == gen(i))
              && r.value.idContainer == MarkAll(r.value.container)
              && Used(r.value) == 0
    ensures r.Ok? && (forall i, j :: 0 <= i < j < total ==> gen(i).id != gen(j).id) ==> Valid(r.value)
  {
    if total == 0 {
      return Err(NotInitializedMessage(total));
    }
    var ok, container, m := Generate(total, etype, gen);
    if !ok {
      return Err(GeneratedTypeMessage(etype));
    }
    r := Ok(Pool(total, etype, container, m));
    if forall a, b :: 0 <= a < b < total ==> gen(a).id != gen(b).id {
      assert Distinct(Ids(container));
      FreshPoolValid(total, etype, container);
    }
  }

  /** `Take` on a non-empty pool (an empty one blocks): the oldest entity
      leaves and its id is marked taken. */
  function Take(p: Pool): (r: (Pool, Entity))
    requires |p.container| > 0
    ensures r.1 == p.container[0]
    ensures r.0 == p.(container := p.container[1..], idContainer := p.idContainer[r.1.id := false])
  {
    var e := p.container[0];
    (p.(container := p.container[1..], idContainer := p.idContainer[e.id := false]), e)
  }

  /** `compareAndSetForIdContainer`: -1 for an unknown id, 0 when the value
      differs from `oldValue`, 1 (and the store) otherwise. */
  function CompareAndSet(m: map<UInt32, bool>, id: UInt32, oldValue: bool, newValue: bool): (r: (map<UInt32, bool>, int))
    ensures r.1 == -1 <==> id !in m
    ensures r.1 == 0 <==> id in m && m[id] != oldValue
    ensures r.1 == 1 <==> id in m && m[id] == oldValue
    ensures r.1 == 1 ==> r.0 == m[id := newValue]
    ensures r.1 != 1 ==> r.0 == m
  {
    if id !in m then (m, -1)
    else if m[id] != oldValue then (m, 0)
    else (m[id := newValue], 1)
  }

  const InvalidEntityMessage: string := "The returning entity is invalid!"

  function ReturnedTypeMessage(etype: string): string {
    "The type of returning entity is NOT " + etype + "!\n"
  }

  function AlreadyInPoolMessage(id: UInt32): string {
    "The entity (id=" + NatToString(id) + ") is already in the pool!\n"
  }

  function IllegalEntityMessage(id: UInt32): string {
    "The entity (id=" + NatToString(id) + ") is illegal!\n"
  }

  /** `Return`: `None` is a nil entity; the second component is the error. */
  function Return(p: Pool, entity: Option<Entity>): (r: (Pool, Option<string>))
    ensures r.1.None? <==> (entity.Some? && entity.value.etype == p.etype
                            && entity.value.id in p.idContainer && !p.idContainer[entity.value.id])
    ensures r.1.None? ==> r.0 == p.(container := p.container + [entity.value],
                                    idContainer := p.idContainer[entity.value.id := true])
    ensures r.1.Some? ==> r.0 == p
    ensures entity.None? ==> r.1 == Some(InvalidEntityMessage)
    ensures entity.Some? && entity.value.etype != p.etype ==> r.1 == Some(ReturnedTypeMessage(p.etype))
    ensures (entity.Some? && entity.value.etype == p.etype && entity.value.id in p.idContainer
             && p.idContainer[entity.value.id]) ==> r.1 == Some(AlreadyInPoolMessage(entity.value.id))
    ensures (entity.Some? && entity.value.etype == p.etype && entity.value.id !in p.idContainer)
            ==> r.1 == Some(IllegalEntityMessage(entity.value.id))
  {
    match entity
    case None => (p, Some(InvalidEntityMessage))
    case Some(e) =>
      if e.etype != p.etype then (p, Some(ReturnedTypeMessage(p.etype)))
      else
        var (m, cas) := CompareAndSet(p.idContainer, e.id, false, true);
        if cas == 1 then (p.(container := p.container + [e], idContainer := m), None)
        else if cas == 0 then (p, Some(AlreadyInPoolMessage(e.id)))
        else (p, Some(IllegalEntityMessage(e.id)))
  }

  /** Every id the map knows is either in the pool or taken. */
  lemma KeysSplit(m: map<UInt32, bool>)
    ensures m.Keys == TrueIds(m) + FalseIds(m) && TrueIds(m) * FalseIds(m) == {}
    ensures |m.Keys| == |TrueIds(m)| + |FalseIds(m)|
  {
    assert m.Keys == TrueIds(m) + FalseIds(m);
    assert TrueIds(m) * FalseIds(m) == {};
  }

  /** The number of ids marked taken is `Used()`. */
  lemma UsedCountsTakenIds(p: Pool)
    requires Valid(p)
    ensures |FalseIds(p.idContainer)| == Used(p)
  {
    KeysSplit(p.idContainer);
    DistinctSetCard(Ids(p.container));
  }

  lemma TrueIdsUpdate(m: map<UInt32, bool>, id: UInt32, b: bool)
    ensures b ==> TrueIds(m[id := b]) == TrueIds(m) + {id}
    ensures !b ==> TrueIds(m[id := b]) == TrueIds(m) - {id}
  {
  }

  /** Appending an entity with a new id keeps the ids distinct. */
  lemma AppendFresh(c: seq<Entity>, e: Entity)
    requires Distinct(Ids(c)) && e.id !in ToSet(Ids(c))
    ensures Distinct(Ids(c + [e]))
    ensures ToSet(Ids(c + [e])) == ToSet(Ids(c)) + {e.id}
  {
    assert Ids(c + [e]) == Ids(c) + [e.id];
  }

  /** `Take` keeps the pool consistent and raises `Used` by one. */
  lemma TakePreservesValid(p: Pool)
    requires Valid(p) && |p.container| > 0
    ensures Valid(Take(p).0)
    ensures Used(Take(p).0) == Used(p) + 1
  {
    var (q, e) := Take(p);
    var c := p.container;
    assert Ids(q.container) == Ids(c)[1..];
    assert e.id in TrueIds(p.idContainer);
    assert ToSet(Ids(q.container)) == ToSet(Ids(c)) - {e.id} by {
      forall x | x in ToSet(Ids(c)) - {e.id}
        ensures x in ToSet(Ids(q.container))
      {
        var k :| 0 <= k < |c| && Ids(c)[k] == x;
        assert k != 0;
        assert Ids(q.container)[k - 1] == x;
      }
    }
    TrueIdsUpdate(p.idContainer, e.id, false);
    assert q.idContainer.Keys == p.idContainer.Keys;
  }

  /** A successful `Return` keeps the pool consistent, lowers `Used` by one,
      and always finds room in the container, so the send never blocks. */
  lemma ReturnPreservesValid(p: Pool, entity: Option<Entity>)
    requires Valid(p)
    ensures Valid(Return(p, entity).0)
    ensures Return(p, entity).1.None? ==> |p.container| < p.total && Used(Return(p, entity).0) == Used(p) - 1
  {
    var (q, err) := Return(p, entity);
    if err.None? {
      var e := entity.value;
      var c := p.container;
      KeysSplit(p.idContainer);
      assert e.id in FalseIds(p.idContainer);
      DistinctSetCard(Ids(c));
      AppendFresh(c, e);
      TrueIdsUpdate(p.idContainer, e.id, true);
      assert q.idContainer.Keys == p.idContainer.Keys;
    }
  }

  /** Returning the entity just taken puts it at the back of the queue and
      restores the id map. */
  lemma TakeThenReturn(p: Pool)
    requires Valid(p) && |p.container| > 0
    ensures Return(Take(p).0, Some(Take(p).1)) ==
            (p.(container := p.container[1..] + [p.container[0]]), None)
  {
    var e := p.container[0];
    assert e.id in TrueIds(p.idContainer);
    assert p.idContainer[e.id := false][e.id := true] == p.idContainer;
  }
}

=== FILE: resultcode.dfy ===
/** The shared vocabulary of the load generator (loadgen/lib/base.go): raw
    requests and responses, call results, the result codes and their plain
    names, and the generator's status values. Byte payloads are strings. */
module LoadgenLib {
  import opened Common

  datatype RawReq = RawReq(id: Int64, req: string)
  datatype RawResp = RawResp(id: Int64, resp: string, err: Option<string>, elapse: Int64)
  datatype CallResult = CallResult(id: Int64, req: RawReq, resp: RawResp, code: int, msg: string, elapse: Int64)

  /** Codes 1 to 1000 are reserved for the system under load. */
  const Success: int := 0
  const WarningCallTimeout: int := 1001
  const ErrorCall: int := 2001
  const ErrorResponse: int := 2002
  const ErrorCalee: int := 2003
  const FatalCall: int := 3001

  const UnknownPlain: string := "Unknown result code"

  predicate Defined(code: int) {
    code == Success || code == WarningCallTimeout || code == ErrorCall
    || code == ErrorResponse || code == ErrorCalee || code == FatalCall
  }

  /** `GetResultCodePlain`. */
  function Plain(code: int): (r: string)
    ensures |r| > 0
    ensures r == UnknownPlain <==> !Defined(code)
    ensures code == Success ==> r == "Success"
    ensures code == WarningCallTimeout ==> r == "Call Timeout Warning"
    ensures code == ErrorCall ==> r == "Call Error"
    ensures code == ErrorResponse ==> r == "Response Error"
    ensures code == ErrorCalee ==> r == "Callee Error"
    ensures code == FatalCall ==> r == "Call Fatal Error"
  {
    if code == Success then "Success"
    else if code == WarningCallTimeout then "Call Timeout Warning"
    else if code == ErrorCall then "Call Error"
    else if code == ErrorResponse then "Response Error"
    else if code == ErrorCalee then "Callee Error"
    else if code == FatalCall then "Call Fatal Error"
    else UnknownPlain
  }

  /** Different defined codes have different names, so the name identifies
      the code. */
  lemma PlainIdentifies(a: int, b: int)
    requires Defined(a) || Defined(b)
    ensures Plain(a) == Plain(b) <==> a == b
  {
  }

  /** The reserved codes have no name of their own. */
  lemma ReservedUnknown(code: int)
    requires 1 <= code <= 1000
    ensures Plain(code) == UnknownPlain
  {
  }

  /** The generator's status. */
  const StatusOriginal: int := 0
  const StatusStarted: int := 1
  const StatusStopped: int := 2
}

=== FILE: schedule.dfy ===
/** The scheduler's steps after `Start` (webcrawler/scheduler/scheduler.go):
    offering a page's requests to the cache one after another, classifying
    an error by the component code that raised it, and one burst of the
    `schedule` loop that moves cached requests into the request channel. */
module SchedulerSteps {
  import opened Common
  import opened Data
  import opened Schedulers
  import CM = ChannelManagers
  import SS = StopSigns
  import RC = RequestCaches
  import H = SchedulerHelpers
  import CE = CrawlerErrors

  /** Offers every request of `reqs` in order; the URL strings accepted. */
  function SaveAll(s: Scheduler, reqs: seq<Request>, code: string): (r: (Scheduler, seq<string>))
    requires s.stopSign.Some? && s.reqCache.Some?
    ensures r.0.stopSign.Some? && r.0.reqCache.Some?
    decreases |reqs|
  {
    if |reqs| == 0 then (s, [])
    else
      var (s1, ok) := SaveReqToCache(s, reqs[0], code);
      var (s2, urls) := SaveAll(s1, reqs[1..], code);
      (s2, if ok then [reqs[0].httpReq.value.url.value.text] + urls else urls)
  }

  /** No URL string is accepted twice: the accepted URLs are distinct, were
      not seen before, and are exactly what the URL set gains. */
  lemma {:induction false} SaveAllNoRepeat(s: Scheduler, reqs: seq<Request>, code: string)
    requires s.stopSign.Some? && s.reqCache.Some?
    ensures var (t, urls) := SaveAll(s, reqs, code);
            && Distinct(urls)
            && (forall x :: x in urls ==> x !in s.urlMap)
            && t.urlMap == s.urlMap + (set x | x in urls)
    decreases |reqs|
  {
    if |reqs| > 0 {
      var step := SaveReqToCache(s, reqs[0], code);
      SaveOneUrl(s, reqs[0], code);
      var tail := SaveAll(step.0, reqs[1..], code);
      SaveAllNoRepeat(step.0, reqs[1..], code);
      if step.1 {
        var u := reqs[0].httpReq.value.url.value.text;
        assert SaveAll(s, reqs, code) == (tail.0, [u] + tail.1);
        AcceptedFirst(s.urlMap, u, tail.1, tail.0.urlMap);
      } else {
        assert SaveAll(s, reqs, code) == tail;
      }
    }
  }

  /** The bookkeeping of one accepted URL in front of the rest. */
  lemma AcceptedFirst(before: set<string>, u: string, rest: seq<string>, after: set<string>)
    requires u !in before
    requires Distinct(rest) && (forall x :: x in rest ==> x !in before + {u})
    requires after == before + {u} + (set x | x in rest)
    ensures Distinct([u] + rest) && (forall x :: x in [u] + rest ==> x !in before)
    ensures after == before + (set x | x in [u] + rest)
  {
    DistinctCons(u, rest);
    assert (set x | x in [u] + rest) == {u} + (set x | x in rest);
  }

  /** What one offer does to the URL set: an accepted URL is new and is
      added; a refused request leaves the set alone. */
  lemma SaveOneUrl(s: Scheduler, req: Request, code: string)
    requires s.stopSign.Some? && s.reqCache.Some?
    ensures var (s1, ok) := SaveReqToCache(s, req, code);
            && s1.stopSign.Some? && s1.reqCache.Some?
            && (!ok ==> s1.urlMap == s.urlMap)
            && (ok ==> req.httpReq.Some? && req.httpReq.value.url.Some?
                       && req.httpReq.value.url.value.text !in s.urlMap
                       && s1.urlMap == s.urlMap + {req.httpReq.value.url.value.text})
  {
  }

  /** The error type of a component. */
  function ComponentErrorType(component: string): (r: string)
    ensures component == DownloaderCode ==> r == CE.DownloaderError
    ensures component == AnalyzerCode ==> r == CE.AnalyzerError
    ensures component == ItemPipelineCode ==> r == CE.ItemProcessorError
    ensures component !in {DownloaderCode, AnalyzerCode, ItemPipelineCode} ==> r == ""
  {
    if component == DownloaderCode then CE.DownloaderError
    else if component == AnalyzerCode then CE.AnalyzerError
    else if component == ItemPipelineCode then CE.ItemProcessorError
    else ""
  }

  /** The error type `sendError` gives a component code, read from the part
      before the dash; an unknown component gets the empty type. */
  function ErrorTypeOf(code: string): string {
    ComponentErrorType(H.ParseCode(code)[0])
  }

  /** A code made by `generateCode` is classified by the component that
      made it, whatever the id. */
  lemma GeneratedCodeErrorType(component: string, id: UInt32)
    requires component != "" && '-' !in component
    ensures ErrorTypeOf(H.GenerateCode(component, id)) == ComponentErrorType(component)
  {
    H.ParseGenerateCode(component, id);
  }

  /** The four component codes qualify for `GeneratedCodeErrorType`. */
  lemma ComponentCodesHaveNoDash()
    ensures '-' !in DownloaderCode && '-' !in AnalyzerCode && '-' !in ItemPipelineCode && '-' !in SchedulerCode
  {
  }

  /** `sendError`: the crawler error it hands to the error channel, if any.
      A nil error is dropped; a raised stop sign records the code instead. */
  function SendError(s: Scheduler, err: Option<string>, code: string): (r: (Scheduler, Option<CE.CrawlerError>))
    requires s.stopSign.Some?
    ensures err.None? ==> r == (s, None)
    ensures err.Some? && s.stopSign.value.signed ==>
              r == (s.(stopSign := Some(SS.Deal(s.stopSign.value, code))), None)
    ensures err.Some? && !s.stopSign.value.signed ==>
              r.0 == s && r.1 == Some(CE.NewCrawlerError(ErrorTypeOf(code), err.value))
  {
    match err
    case None => (s, None)
    case Some(e) =>
      var ce := CE.NewCrawlerError(ErrorTypeOf(code), e);
      if SS.Signed(s.stopSign.value) then (s.(stopSign := Some(SS.Deal(s.stopSign.value, code))), None)
      else (s, Some(ce))
  }

  /** One pass of the `schedule` loop: with the stop sign raised it records
      the scheduler's acknowledgement and ends; otherwise it moves requests
      from the head of the cache to the request channel until the channel
      is full or the cache yields nothing. */
  method ScheduleBurst(ss: SS.StopSign, cache: RC.RequestCache, q: CM.Queue<Request>)
    returns (ss': SS.StopSign, cache': RC.RequestCache, q': CM.Queue<Request>, stopped: bool)
    requires CM.QueueValid(q)
    ensures ss.signed ==> stopped && ss' == SS.Deal(ss, SchedulerCode) && cache' == cache && q' == q
    ensures !ss.signed ==> !stopped && ss' == ss
    ensures !ss.signed ==>
              var n := if cache.closed then 0 else Min(q.capacity - |q.items|, |cache.cache|);
              && q'.capacity == q.capacity && CM.QueueValid(q')
              && q'.items == q.items + cache.cache[..n]
              && cache'.cache == cache.cache[n..] && cache'.closed == cache.closed
  {
    if SS.Signed(ss) {
      return SS.Deal(ss, SchedulerCode), cache, q, true;
    }
    ss', cache', q', stopped := ss, cache, q, false;
    var remainder := q.capacity - |q.items|;
    var moved := 0;
    while remainder > 0
      invariant 0 <= moved <= |cache.cache|
      invariant cache.closed ==> moved == 0
      invariant 0 <= remainder == q.capacity - |q.items| - moved
      invariant q'.capacity == q.capacity && q'.items == q.items + cache.cache[..moved]
      invariant cache'.cache == cache.cache[moved..] && cache'.closed == cache.closed
      decreases remainder
    {
      var (c2, temp) := RC.Get(cache');
      if temp.None? {
        break;
      }
      assert cache.cache[..moved + 1] == cache.cache[..moved] + [temp.value];
      cache' := c2;
      q' := CM.Push(q', temp.value);
      remainder := remainder - 1;
      moved := moved + 1;
    }
    assert moved == (if cache.closed then 0 else Min(q.capacity - |q.items|, |cache.cache|));
  }

  function Min(a: int, b: int): (r: int)
    ensures r <= a && r <= b && (r == a || r == b)
  {
    if a <= b then a else b
  }
}

=== FILE: scheduler.dfy ===
/** The scheduler's sequential decisions (webcrawler/scheduler/scheduler.go):
    the `running` flag of `Start`/`Stop`, the filter ladder a request passes
    on its way into the cache, the classification of errors by component
    code, and one burst of moving cached requests into the request channel.
    The goroutines that drive these steps are not modelled; every step is
    an atomic transition of an immutable scheduler value. */
module Schedulers {
  import opened Common
  import opened Data
  import A = Arguments
  import CM = ChannelManagers
  import SS = StopSigns
  import P = Pools
  import RC = RequestCaches
  import H = SchedulerHelpers
  import IP = ItemPipelines
  import CE = CrawlerErrors

  const DownloaderCode: string := "downloader"
  const AnalyzerCode: string := "analyzer"
  const ItemPipelineCode: string := "item_pipeline"
  const SchedulerCode: string := "scheduler"

  /** `running` is 0 before the first `Start`, 1 while running and 2 after
      `Stop`. Components are nil (`None`) until `Start` builds them, and a
      failed `Start` leaves those it did not reach as they were. `urlMap`
      is the set of URL strings already accepted. */
  datatype Scheduler = Scheduler(
    channelArgs: A.ChannelArgs,
    poolBaseArgs: A.PoolBaseArgs,
    crawlDepth: UInt32,
    primaryDomain: string,
    chanman: Option<CM.ChannelManager>,
    stopSign: Option<SS.StopSign>,
    dlpool: Option<P.Pool>,
    analyzerPool: Option<P.Pool>,
    itemPipeline: Option<IP.ItemPipeline>,
    reqCache: Option<RC.RequestCache>,
    urlMap: set<string>,
    running: UInt32)

  /** `NewScheduler`: the zero value. */
  function NewScheduler(): (s: Scheduler)
    ensures s.running == 0 && !Running(s)
    ensures s.chanman.None? && s.stopSign.None? && s.reqCache.None? && s.urlMap == {}
  {
    Scheduler(A.NewChannelArgs(0, 0, 0, 0), A.NewPoolBaseArgs(0, 0), 0, "",
              None, None, None, None, None, None, {}, 0)
  }

  function Running(s: Scheduler): bool {
    s.running == 1
  }

  /** `Stop`: refused unless running. Otherwise it signs the stop sign,
      closes the channel manager and the cache, and sets the flag to 2;
      `Err` is the panic raised when one of those components is nil. */
  function Stop(s: Scheduler): (r: Result<(Scheduler, bool)>)
    ensures !Running(s) ==> r == Ok((s, false))
    ensures Running(s) ==> (r.Ok? <==> s.stopSign.Some? && s.chanman.Some? && s.reqCache.Some?)
    ensures r.Err? ==> r.error == NilPointerPanic
    ensures Running(s) && r.Ok? ==>
              && r.value.1 && r.value.0.running == 2 && !Running(r.value.0)
              && r.value.0.stopSign.Some? && r.value.0.reqCache.Some? && r.value.0.chanman.Some?
              && SS.Signed(r.value.0.stopSign.value)
              && r.value.0.reqCache.value.closed && r.value.0.reqCache.value.cache == s.reqCache.value.cache
              && (s.chanman.value.status == CM.Initialized ==> r.value.0.chanman.value.status == CM.Closed)
              && r.value.0.urlMap == s.urlMap
  {
    if s.running != 1 then Ok((s, false))
    else if s.stopSign.None? || s.chanman.None? || s.reqCache.None? then Err(NilPointerPanic)
    else
      Ok((s.(stopSign := Some(SS.Sign(s.stopSign.value).0),
             chanman := Some(CM.Close(s.chanman.value).0),
             reqCache := Some(RC.Close(s.reqCache.value)),
             running := 2), true))
  }

  /** `Idle`: both pools have nothing lent out and no item is in the
      pipeline; `Err` is the panic on a nil component. */
  function Idle(s: Scheduler): (r: Result<bool>)
    ensures r.Ok? <==> s.dlpool.Some? && s.analyzerPool.Some? && s.itemPipeline.Some?
    ensures r.Ok? ==> (r.value <==> P.Used(s.dlpool.value) == 0 && P.Used(s.analyzerPool.value) == 0
                                    && IP.ProcessingNumber(s.itemPipeline.value) == 0)
  {
    if s.dlpool.None? || s.analyzerPool.None? || s.itemPipeline.None? then Err(NilPointerPanic)
    else Ok(P.Used(s.dlpool.value) == 0 && P.Used(s.analyzerPool.value) == 0
            && IP.ProcessingNumber(s.itemPipeline.value) == 0)
  }

  /** `ErrorChan`: nil unless the channel manager is initialized. */
  function ErrorChan(s: Scheduler): (r: Result<Option<CM.Queue<string>>>)
    ensures r.Err? <==> s.chanman.None?
    ensures r.Ok? ==> (r.value.Some? <==> s.chanman.value.status == CM.Initialized)
    ensures r.Ok? && r.value.Some? ==> r.value.value == s.chanman.value.errorCh
  {
    match s.chanman
    case None => Err(NilPointerPanic)
    case Some(cm) => if cm.status != CM.Initialized then Ok(None) else Ok(Some(cm.errorCh))
  }

  /** ASCII lower case. For the comparison with "http" this is exactly
      `strings.ToLower`: no other character lowers to 'h', 't' or 'p'. */
  function ToLowerAscii(s: string): (r: string)
    ensures |r| == |s|
    ensures forall i :: 0 <= i < |s| ==> r[i] == if 'A' <= s[i] <= 'Z' then (s[i] as int + 32) as char else s[i]
  {
    seq(|s|, i requires 0 <= i < |s| => if 'A' <= s[i] <= 'Z' then (s[i] as int + 32) as char else s[i])
  }

  predicate IsHttpScheme(scheme: string) {
    ToLowerAscii(scheme) == "http"
  }

  /** The primary domain `saveReqToCache` compares: the error is dropped,
      leaving the empty string. */
  function DomainOrEmpty(host: string): (r: string)
    ensures H.GetPrimaryDomain(host).Ok? ==> r == H.GetPrimaryDomain(host).value
    ensures H.GetPrimaryDomain(host).Err? ==> r == ""
  {
    match H.GetPrimaryDomain(host)
    case Ok(d) => d
    case Err(_) => ""
  }

  /** The tests of `saveReqToCache` before the stop sign: a request and URL
      are present, the scheme is http, the URL is new, the host is in the
      session's primary domain and the depth is within the limit. */
  predicate Admissible(s: Scheduler, req: Request) {
    && req.httpReq.Some? && req.httpReq.value.url.Some?
    && IsHttpScheme(req.httpReq.value.url.value.scheme)
    && req.httpReq.value.url.value.text !in s.urlMap
    && DomainOrEmpty(req.httpReq.value.host) == s.primaryDomain
    && req.depth <= s.crawlDepth
  }

  /** `saveReqToCache`. It runs only on data from the analyzers, which
      `Start` launches after building the stop sign and the cache. */
  function SaveReqToCache(s: Scheduler, req: Request, code: string): (r: (Scheduler, bool))
    requires s.stopSign.Some? && s.reqCache.Some?
    ensures r.1 <==> Admissible(s, req) && !s.stopSign.value.signed
    ensures !Admissible(s, req) ==> r.0 == s
    ensures Admissible(s, req) && s.stopSign.value.signed ==>
              r.0 == s.(stopSign := Some(SS.Deal(s.stopSign.value, code)))
    ensures !r.1 ==> r.0.reqCache == s.reqCache && r.0.urlMap == s.urlMap
    ensures r.1 ==> && r.0.urlMap == s.urlMap + {req.httpReq.value.url.value.text}
                    && r.0.reqCache == Some(RC.Put(s.reqCache.value, Some(req)).0)
                    && r.0.stopSign == s.stopSign
    ensures r.1 && !s.reqCache.value.closed ==> r.0.reqCache.value.cache == s.reqCache.value.cache + [req]
  {
    var sign := s.stopSign.value;
    if !Admissible(s, req) then (s, false)
    else if SS.Signed(sign) then (s.(stopSign := Some(SS.Deal(sign, code))), false)
    else (s.(reqCache := Some(RC.Put(s.reqCache.value, Some(req)).0),
             urlMap := s.urlMap + {req.httpReq.value.url.value.text}), true)
  }

  /** Only a valid request (one with an HTTP request that has a URL) can
      enter the cache; an invalid one is turned away before the stop sign
      is consulted, so nothing changes. */
  lemma SaveReqNeedsValidRequest(s: Scheduler, req: Request, code: string)
    requires s.stopSign.Some? && s.reqCache.Some?
    ensures SaveReqToCache(s, req, code).1 ==> RequestValid(req)
    ensures !RequestValid(req) ==> SaveReqToCache(s, req, code) == (s, false)
  {
  }
}

=== FILE: seq.dfy ===
/** `StringSeq` and the `Sequence` wrapper of basic/seq.go. Indices are Go
    `int`s; an index the slice does not have panics, modelled as `Err`. A
    value handed to `Append` or `Set` is a string or something else (nil
    included). A `Sequence` whose embedded sequence is nil panics on every
    call that reaches it. */
module Sequences {
  import opened Common
  import opened Sorting

  const IndexPanic: string := "index out of range"

  /** The `interface{}` argument: a string, or a value of any other type. */
  datatype Value = Str(s: string) | NonString

  datatype StringSeq = StringSeq(value: seq<string>)

  /** The element type `reflect` reports for a `[]string`. */
  const StringType: string := "string"

  function Len(ss: StringSeq): (r: nat)
    ensures r == |ss.value|
  {
    |ss.value|
  }

  /** `Less`: Go's `<` on the two strings. */
  function Less(ss: StringSeq, i: int, j: int): (r: Result<bool>)
    ensures r.Ok? <==> 0 <= i < |ss.value| && 0 <= j < |ss.value|
    ensures r.Ok? ==> (r.value <==> StrCompare(ss.value[i], ss.value[j]) < 0)
    ensures r.Ok? && r.value ==> ss.value[i] != ss.value[j]
  {
    if 0 <= i < |ss.value| && 0 <= j < |ss.value| then Ok(StrCompare(ss.value[i], ss.value[j]) < 0)
    else Err(IndexPanic)
  }

  /** `Swap`: exchanges two entries. */
  function Swap(ss: StringSeq, i: int, j: int): (r: Result<StringSeq>)
    ensures r.Ok? <==> 0 <= i < |ss.value| && 0 <= j < |ss.value|
    ensures r.Ok? ==> |r.value.value| == |ss.value| && multiset(r.value.value) == multiset(ss.value)
    ensures r.Ok? ==> r.value.value[i] == ss.value[j] && r.value.value[j] == ss.value[i]
    ensures r.Ok? ==> forall k :: 0 <= k < |ss.value| && k != i && k != j ==> r.value.value[k] == ss.value[k]
  {
    if 0 <= i < |ss.value| && 0 <= j < |ss.value| then
      Ok(StringSeq(ss.value[i := ss.value[j]][j := ss.value[i]]))
    else Err(IndexPanic)
  }

  /** `Sort`: the same strings in ascending order. */
  function Sort(ss: StringSeq): (r: StringSeq)
    ensures SortedBy(r.value, StrCompare)
    ensures multiset(r.value) == multiset(ss.value)
  {
    StrCompareIsComparator();
    StringSeq(SortBy(ss.value, StrCompare))
  }

  /** The head of an ascending list is not above any of its entries. */
  lemma {:induction false} HeadIsLeast(a: seq<string>, x: string)
    requires SortedBy(a, StrCompare) && x in a
    ensures StrCompare(a[0], x) <= 0
  {
    if a[0] != x {
      assert x in a[1..];
      assert SortedBy(a[1..], StrCompare);
      HeadIsLeast(a[1..], x);
      StrCompareTransitive(a[0], a[1], x);
    }
  }

  /** Two ascending lists of the same strings start with the same one. */
  lemma SameHead(a: seq<string>, b: seq<string>)
    requires SortedBy(a, StrCompare) && SortedBy(b, StrCompare)
    requires |a| > 0 && multiset(a) == multiset(b)
    ensures |b| > 0 && a[0] == b[0]
  {
    assert a[0] in multiset(b);
    assert b[0] in multiset(a);
    HeadIsLeast(a, b[0]);
    HeadIsLeast(b, a[0]);
    StrCompareFlips(a[0], b[0]);
  }

  lemma SameTail<T>(a: seq<T>, b: seq<T>)
    requires |a| > 0 && |b| > 0 && a[0] == b[0] && multiset(a) == multiset(b)
    ensures multiset(a[1..]) == multiset(b[1..])
  {
    assert a == [a[0]] + a[1..] && b == [b[0]] + b[1..];
    assert multiset(a) == multiset{a[0]} + multiset(a[1..]);
    assert multiset(b) == multiset{b[0]} + multiset(b[1..]);
    assert multiset(a[1..]) == multiset(a) - multiset{a[0]};
    assert multiset(b[1..]) == multiset(b) - multiset{b[0]};
  }

  /** Two ascending lists of the same strings are the same list. */
  lemma {:induction false} SortedUnique(a: seq<string>, b: seq<string>)
    requires SortedBy(a, StrCompare) && SortedBy(b, StrCompare)
    requires multiset(a) == multiset(b)
    ensures a == b
  {
    if |a| == 0 {
      assert |multiset(b)| == 0;
    } else {
      SameHead(a, b);
      SameTail(a, b);
      assert SortedBy(a[1..], StrCompare) && SortedBy(b[1..], StrCompare);
      SortedUnique(a[1..], b[1..]);
      assert a == [a[0]] + a[1..] && b == [b[0]] + b[1..];
    }
  }

  /** Any ascending rearrangement is what `Sort` gives, and sorting twice
      changes nothing. */
  lemma SortIsTheSortedPermutation(ss: StringSeq, t: seq<string>)
    requires SortedBy(t, StrCompare) && multiset(t) == multiset(ss.value)
    ensures Sort(ss).value == t
    ensures Sort(Sort(ss)) == Sort(ss)
  {
    SortedUnique(Sort(ss).value, t);
    SortedUnique(Sort(Sort(ss)).value, Sort(ss).value);
  }

  /** `Append`: only a string is accepted, and it goes at the end. */
  function Append(ss: StringSeq, e: Value): (r: (StringSeq, bool))
    ensures r.1 <==> e.Str?
    ensures r.1 ==> r.0.value == ss.value + [e.s]
    ensures !r.1 ==> r.0 == ss
  {
    match e
    case Str(s) => (StringSeq(ss.value + [s]), true)
    case NonString => (ss, false)
  }

  /** `Set`: an index at or past the end, or a non-string, gives false; a
      negative index with a string panics. */
  function Set(ss: StringSeq, index: int, e: Value): (r: Result<(StringSeq, bool)>)
    ensures r.Err? <==> index < 0 && e.Str?
    ensures r.Ok? && r.value.1 ==>
              0 <= index < |ss.value| && e.Str? && r.value.0.value == ss.value[index := e.s]
    ensures r.Ok? && !r.value.1 ==> (index >= |ss.value| || e.NonString?) && r.value.0 == ss
  {
    if index >= |ss.value| then Ok((ss, false))
    else match e
      case NonString => Ok((ss, false))
      case Str(s) =>
        if index < 0 then Err(IndexPanic)
        else Ok((StringSeq(ss.value[index := s]), true))
  }

  /** `Delete`: removes the entry at `index` and returns it; the entries
      after it shift down by one. */
  function Delete(ss: StringSeq, index: int): (r: Result<(StringSeq, Option<string>, bool)>)
    ensures r.Err? <==> index < 0
    ensures r.Ok? ==> (r.value.2 <==> index < |ss.value|)
    ensures r.Ok? && !r.value.2 ==> r.value.0 == ss && r.value.1.None?
    ensures r.Ok? && r.value.2 ==>
              r.value.1 == Some(ss.value[index]) && |r.value.0.value| + 1 == |ss.value|
              && ss.value == r.value.0.value[..index] + [ss.value[index]] + r.value.0.value[index..]
  {
    var length := |ss.value|;
    if index >= length then Ok((ss, None, false))
    else if index < 0 then Err(IndexPanic)
    else
      var s := ss.value[index];
      var rest := ss.value[..index] + ss.value[index + 1..];
      assert ss.value == rest[..index] + [s] + rest[index..];
      Ok((StringSeq(rest), Some(s), true))
  }

  /** `ElemValue`: nil past the end, a panic before the start. */
  function ElemValue(ss: StringSeq, index: int): (r: Result<Option<string>>)
    ensures r.Err? <==> index < 0
    ensures r.Ok? ==> (r.value.Some? <==> index < |ss.value|)
    ensures r.Ok? && r.value.Some? ==> r.value.value == ss.value[index]
  {
    if index >= |ss.value| then Ok(None)
    else if index < 0 then Err(IndexPanic)
    else Ok(Some(ss.value[index]))
  }

  /** Appending then deleting the last entry gives back the sequence and
      the appended string. */
  lemma AppendThenDelete(ss: StringSeq, s: string)
    ensures Delete(Append(ss, Str(s)).0, |ss.value|) == Ok((ss, Some(s), true))
  {
    var t := Append(ss, Str(s)).0.value;
    assert t[..|ss.value|] + t[|ss.value| + 1..] == ss.value;
  }

  /** `ElemValue` after a successful `Set` reads the new string there and
      the old strings elsewhere. */
  lemma SetThenElemValue(ss: StringSeq, index: int, s: string, k: int)
    requires 0 <= index < |ss.value|
    ensures Set(ss, index, Str(s)).Ok? && Set(ss, index, Str(s)).value.1
    ensures ElemValue(Set(ss, index, Str(s)).value.0, k)
              == (if k == index then Ok(Some(s)) else ElemValue(ss, k))
  {
  }

  /** Removing an entry from an ascending list leaves it ascending. */
  lemma DeleteKeepsSorted(ss: StringSeq, index: int)
    requires SortedBy(ss.value, StrCompare)
    requires Delete(ss, index).Ok?
    ensures SortedBy(Delete(ss, index).value.0.value, StrCompare)
  {
    if 0 <= index < |ss.value| {
      var v := ss.value;
      var r := v[..index] + v[index + 1..];
      assert Delete(ss, index).value.0.value == r;
      forall i | 0 <= i < |r| - 1
        ensures StrCompare(r[i], r[i + 1]) <= 0
      {
        if i + 1 < index {
          assert r[i] == v[i] && r[i + 1] == v[i + 1];
        } else if i >= index {
          assert r[i] == v[i + 1] && r[i + 1] == v[i + 2];
        } else {
          assert r[i] == v[i] && r[i + 1] == v[i + 2];
          StrCompareTransitive(v[i], v[i + 1], v[i + 2]);
        }
      }
    }
  }

  /** The `Sequence` wrapper: the embedded sequence (possibly nil), whether
      the last change was a `Sort`, and the cached element type. */
  datatype Sequence = Sequence(inner: Option<StringSeq>, sorted: bool, elemType: Option<string>)

  /** The flag never claims more than is true: when `sorted` is set the
      strings are ascending. */
  predicate FlagSound(sq: Sequence) {
    sq.sorted ==> sq.inner.Some? && SortedBy(sq.inner.value.value, StrCompare)
  }

  /** `Sequence.Sort`: sorts the embedded sequence and sets the flag. */
  function SequenceSort(sq: Sequence): (r: Result<Sequence>)
    ensures r.Err? <==> sq.inner.None?
    ensures r.Ok? ==> r.value.sorted && r.value.inner == Some(Sort(sq.inner.value))
    ensures r.Ok? ==> r.value.elemType == sq.elemType
    ensures r.Ok? ==> FlagSound(r.value)
  {
    match sq.inner
    case None => Err(NilPointerPanic)
    case Some(ss) => Ok(sq.(inner := Some(Sort(ss)), sorted := true))
  }

  /** `Sequence.Append`: a successful append clears the flag; a refused one
      leaves everything as it was. */
  function SequenceAppend(sq: Sequence, e: Value): (r: Result<(Sequence, bool)>)
    ensures r.Err? <==> sq.inner.None?
    ensures r.Ok? ==> (r.value.1 <==> e.Str?)
    ensures r.Ok? && r.value.1 ==> !r.value.0.sorted && r.value.0.inner == Some(Append(sq.inner.value, e).0)
    ensures r.Ok? && !r.value.1 ==> r.value.0 == sq
  {
    match sq.inner
    case None => Err(NilPointerPanic)
    case Some(ss) =>
      var (ss', result) := Append(ss, e);
      var sorted := if result && sq.sorted then false else sq.sorted;
      Ok((sq.(inner := Some(ss'), sorted := sorted), result))
  }

  /** `Sequence.Set`: as `Append`, the flag is cleared only on success. */
  function SequenceSet(sq: Sequence, index: int, e: Value): (r: Result<(Sequence, bool)>)
    ensures r.Err? <==> sq.inner.None? || Set(sq.inner.value, index, e).Err?
    ensures r.Ok? ==> r.value.1 == Set(sq.inner.value, index, e).value.1
    ensures r.Ok? && r.value.1 ==> !r.value.0.sorted && r.value.0.inner == Some(Set(sq.inner.value, index, e).value.0)
    ensures r.Ok? && !r.value.1 ==> r.value.0 == sq
  {
    match sq.inner
    case None => Err(NilPointerPanic)
    case Some(ss) =>
      match Set(ss, index, e)
      case Err(m) => Err(m)
      case Ok((ss', result)) =>
        var sorted := if result && sq.sorted then false else sq.sorted;
        Ok((sq.(inner := Some(ss'), sorted := sorted), result))
  }

  /** `Delete` reached through the wrapper: the flag is left as it was. */
  function SequenceDelete(sq: Sequence, index: int): (r: Result<(Sequence, Option<string>, bool)>)
    ensures r.Err? <==> sq.inner.None? || index < 0
    ensures r.Ok? ==> r.value.0.sorted == sq.sorted && r.value.0.elemType == sq.elemType
    ensures r.Ok? ==>
              r.value.0.inner == Some(Delete(sq.inner.value, index).value.0)
              && r.value.1 == Delete(sq.inner.value, index).value.1
              && r.value.2 == Delete(sq.inner.value, index).value.2
  {
    match sq.inner
    case None => Err(NilPointerPanic)
    case Some(ss) =>
      match Delete(ss, index)
      case Err(m) => Err(m)
      case Ok((ss', s, ok)) => Ok((sq.(inner := Some(ss')), s, ok))
  }

  /** `Swap` reached through the wrapper: the flag is left as it was. */
  function SequenceSwap(sq: Sequence, i: int, j: int): (r: Result<Sequence>)
    ensures r.Err? <==> sq.inner.None? || Swap(sq.inner.value, i, j).Err?
    ensures r.Ok? ==> r.value.sorted == sq.sorted && r.value.inner == Some(Swap(sq.inner.value, i, j).value)
  {
    match sq.inner
    case None => Err(NilPointerPanic)
    case Some(ss) =>
      match Swap(ss, i, j)
      case Err(m) => Err(m)
      case Ok(ss') => Ok(sq.(inner := Some(ss')))
  }

  /** Sorting, appending, setting and deleting keep the flag sound. */
  lemma OperationsKeepFlagSound(sq: Sequence, e: Value, index: int)
    requires FlagSound(sq)
    ensures SequenceSort(sq).Ok? ==> FlagSound(SequenceSort(sq).value)
    ensures SequenceAppend(sq, e).Ok? ==> FlagSound(SequenceAppend(sq, e).value.0)
    ensures SequenceSet(sq, index, e).Ok? ==> FlagSound(SequenceSet(sq, index, e).value.0)
    ensures SequenceDelete(sq, index).Ok? ==> FlagSound(SequenceDelete(sq, index).value.0)
  {
    if sq.sorted && SequenceDelete(sq, index).Ok? {
      DeleteKeepsSorted(sq.inner.value, index);
    }
  }

  /** `Swap` is the one operation that can leave the flag set on strings
      that are no longer ascending. */
  lemma SwapCanStaleFlag()
    ensures var sq := Sequence(Some(StringSeq(["a", "b"])), true, None);
            FlagSound(sq) && SequenceSwap(sq, 0, 1).Ok? && !FlagSound(SequenceSwap(sq, 0, 1).value)
  {
    var sq := Sequence(Some(StringSeq(["a", "b"])), true, None);
    assert StrCompare("a", "b") == -1;
    var v := SequenceSwap(sq, 0, 1).value.inner.value.value;
    assert v == ["b", "a"];
    assert StrCompare("b", "a") == 1;
  }

  /** `Sequence.ElemType`: reads the type once and caches it. */
  function SequenceElemType(sq: Sequence): (r: (Sequence, Option<string>))
    ensures sq.elemType.Some? ==> r == (sq, sq.elemType)
    ensures sq.elemType.None? && sq.inner.Some? ==> r.1 == Some(StringType) && r.0 == sq.(elemType := r.1)
    ensures sq.elemType.None? && sq.inner.None? ==> r == (sq, None)
  {
    if sq.elemType.None? && sq.inner.Some? then
      var sq' := sq.(elemType := Some(StringType));
      (sq', sq'.elemType)
    else (sq, sq.elemType)
  }

  /** `Init`: succeeds exactly when a sequence is embedded, and then
      records its element type. */
  function Init(sq: Sequence): (r: (Sequence, bool))
    ensures r.1 <==> sq.inner.Some?
    ensures r.1 ==> r.0 == sq.(elemType := Some(StringType))
    ensures !r.1 ==> r.0 == sq
  {
    if sq.inner.Some? then (sq.(elemType := Some(StringType)), true) else (sq, false)
  }

  /** After `Init`, asking for the element type answers without change. */
  lemma InitThenElemType(sq: Sequence)
    requires Init(sq).1
    ensures SequenceElemType(Init(sq).0) == (Init(sq).0, Some(StringType))
  {
  }
}

=== FILE: server.dfy ===
/** The arithmetic of the load generator's test server
    (loadgen/testhelper/server.go): `op`, which folds the operands with one
    operator, and `genFormula`, which prints the calculation. Go's `int` is
    taken to be 64 bits wide; `+`, `-` and `*` wrap around, `/` truncates
    toward zero, and a zero divisor panics (`Err`). */
module CalcServer {
  import opened Common

  /** The operators `op` knows. */
  predicate IsOperator(operator: string) {
    operator == "+" || operator == "-" || operator == "*" || operator == "/"
  }

  /** One combining step of a non-zero running result with an operand. */
  function Apply(acc: Int64, v: Int64, operator: string): (r: Result<Int64>)
    requires IsOperator(operator)
    ensures r.Err? <==> operator == "/" && v == 0
    ensures operator == "+" ==> r == Ok(Wrap64(acc + v))
    ensures operator == "-" ==> r == Ok(Wrap64(acc - v))
    ensures operator == "*" ==> r == Ok(Wrap64(acc * v))
    ensures operator == "/" && v != 0 ==> r == Ok(Wrap64(GoQuot(acc, v)))
  {
    if operator == "+" then Ok(Wrap64(acc + v))
    else if operator == "-" then Ok(Wrap64(acc - v))
    else if operator == "*" then Ok(Wrap64(acc * v))
    else if v == 0 then Err(DividePanic)
    else Ok(Wrap64(GoQuot(acc, v)))
  }

  /** The loop of one `switch` case: a zero running result is replaced by
      the next operand, a non-zero one is combined with it. */
  function Fold(xs: seq<Int64>, operator: string): (r: Result<Int64>)
    requires IsOperator(operator)
    ensures |xs| == 0 ==> r == Ok(0)
    ensures r.Err? ==> operator == "/" && 0 in xs
  {
    if |xs| == 0 then Ok(0)
    else
      var v := xs[|xs| - 1];
      match Fold(xs[..|xs| - 1], operator)
      case Err(m) => Err(m)
      case Ok(acc) => if acc == 0 then Ok(v) else Apply(acc, v, operator)
  }

  /** `op`: 0 for an unknown operator or no operands. */
  function Op(operands: seq<Int64>, operator: string): (r: Result<Int64>)
    ensures !IsOperator(operator) || |operands| == 0 ==> r == Ok(0)
    ensures r.Err? ==> operator == "/" && 0 in operands
    ensures operator != "/" ==> r.Ok?
  {
    if IsOperator(operator) then Fold(operands, operator) else Ok(0)
  }

  /** `op` as the source runs it: one loop over the operands. */
  method OpLoop(operands: seq<Int64>, operator: string) returns (r: Result<Int64>)
    ensures r == Op(operands, operator)
  {
    if !IsOperator(operator) {
      return Ok(0);
    }
    var result: Int64 := 0;
    var i := 0;
    while i < |operands|
      invariant 0 <= i <= |operands|
      invariant Fold(operands[..i], operator) == Ok(result)
    {
      var v := operands[i];
      assert operands[..i + 1][..i] == operands[..i];
      if result == 0 {
        result := v;
      } else {
        var step := Apply(result, v, operator);
        if step.Err? {
          ErrSticks(operands, i + 1, operator);
          return step;
        }
        result := step.value;
      }
      i := i + 1;
    }
    assert operands[..|operands|] == operands;
    return Ok(result);
  }

  /** A panic part way through is the panic of the whole fold. */
  lemma {:induction false} ErrSticks(xs: seq<Int64>, k: nat, operator: string)
    requires IsOperator(operator) && k <= |xs| && Fold(xs[..k], operator).Err?
    ensures Fold(xs, operator) == Fold(xs[..k], operator)
  {
    if k < |xs| {
      var prefix := xs[..|xs| - 1];
      assert prefix[..k] == xs[..k];
      ErrSticks(prefix, k, operator);
    } else {
      assert xs[..k] == xs;
    }
  }

  /** A single operand is the result, whatever the operator. */
  lemma OpSingle(a: Int64, operator: string)
    requires IsOperator(operator)
    ensures Op([a], operator) == Ok(a)
  {
    assert [a][..0] == [];
  }

  /** Two non-zero operands are combined as the operator says. */
  lemma OpTwo(a: Int64, b: Int64)
    requires a != 0
    ensures Op([a, b], "+") == Ok(Wrap64(a + b))
    ensures Op([a, b], "-") == Ok(Wrap64(a - b))
    ensures Op([a, b], "*") == Ok(Wrap64(a * b))
    ensures b == 0 ==> Op([a, b], "/").Err?
    ensures b != 0 ==> Op([a, b], "/") == Ok(Wrap64(GoQuot(a, b)))
  {
    assert [a, b][..1] == [a];
    OpSingle(a, "+");
    OpSingle(a, "-");
    OpSingle(a, "*");
    OpSingle(a, "/");
  }

  /** Once the running result is zero, what came before is forgotten: the
      rest is folded as if it were the whole list. */
  lemma {:induction false} ZeroRestarts(xs: seq<Int64>, ys: seq<Int64>, operator: string)
    requires IsOperator(operator) && Fold(xs, operator) == Ok(0)
    ensures Fold(xs + ys, operator) == Fold(ys, operator)
  {
    if |ys| > 0 {
      var ys' := ys[..|ys| - 1];
      ZeroRestarts(xs, ys', operator);
      assert (xs + ys)[..|xs + ys| - 1] == xs + ys';
    } else {
      assert xs + ys == xs;
    }
  }

  function Sum(xs: seq<int>): int {
    if |xs| == 0 then 0 else Sum(xs[..|xs| - 1]) + xs[|xs| - 1]
  }

  /** Wrapping part way through a sum does not change the wrapped total. */
  lemma Wrap64Add(a: int, b: int)
    ensures Wrap64(Wrap64(a) + b) == Wrap64(a + b)
  {
    var x := a - MinInt64;
    var q := x / Two64;
    assert x == q * Two64 + x % Two64;
    assert Wrap64(a) + b - MinInt64 == (a + b - MinInt64) - q * Two64;
    ModShift(a + b - MinInt64, q);
  }

  lemma ModShift(z: int, q: int)
    ensures (z - q * Two64) % Two64 == z % Two64
  {
  }

  /** For `+` the zero rule is harmless: the result is the operands' sum,
      wrapped to 64 bits. */
  lemma {:induction false} OpPlusIsSum(xs: seq<Int64>)
    ensures Op(xs, "+") == Ok(Wrap64(Sum(xs)))
  {
    if |xs| > 0 {
      var prefix := xs[..|xs| - 1];
      var v := xs[|xs| - 1];
      OpPlusIsSum(prefix);
      var acc := Wrap64(Sum(prefix));
      assert Fold(prefix, "+") == Ok(acc);
      Wrap64Add(Sum(prefix), v);
      assert Sum(xs) == Sum(prefix) + v;
      if acc == 0 {
        assert Wrap64(acc + v) == v;
      }
    }
  }

  /** Operands that are never zero can never make `/` panic. */
  lemma NonZeroNeverPanics(xs: seq<Int64>, operator: string)
    requires forall i :: 0 <= i < |xs| ==> xs[i] != 0
    ensures Op(xs, operator).Ok?
  {
  }

  /** The decimal texts of the operands. */
  function Texts(xs: seq<Int64>): (r: seq<string>)
    ensures |r| == |xs|
    ensures forall i :: 0 <= i < |xs| ==> r[i] == IntToString(xs[i])
  {
    seq(|xs|, i requires 0 <= i < |xs| => IntToString(xs[i]))
  }

  /** The reference text: the operands joined by " op ", then " = " or
      " != " and the result. */
  function Formula(operands: seq<Int64>, operator: string, result: Int64, equal: bool): string {
    Join(Texts(operands), " " + operator + " ") + (if equal then " = " else " != ") + IntToString(result)
  }

  /** `genFormula`, writing into a buffer as the source does. */
  method GenFormula(operands: seq<Int64>, operator: string, result: Int64, equal: bool) returns (r: string)
    ensures r == Formula(operands, operator, result, equal)
  {
    var sep := " " + operator + " ";
    var buff := "";
    var n := |operands|;
    var i := 0;
    while i < n
      invariant 0 <= i <= n
      invariant buff == Join(Texts(operands[..i]), sep)
    {
      JoinStep(operands, i, sep);
      if i > 0 {
        buff := buff + sep;
      }
      buff := buff + IntToString(operands[i]);
      i := i + 1;
    }
    assert operands[..n] == operands;
    if equal {
      buff := buff + " = ";
    } else {
      buff := buff + " != ";
    }
    r := buff + IntToString(result);
  }

  /** One more operand extends the joined text by the separator (except
      before the first) and the operand's text. */
  lemma JoinStep(xs: seq<Int64>, i: nat, sep: string)
    requires i < |xs|
    ensures Join(Texts(xs[..i + 1]), sep)
              == (if i > 0 then Join(Texts(xs[..i]), sep) + sep else "") + IntToString(xs[i])
  {
    TextsStep(xs, i);
    var t := Texts(xs[..i + 1]);
    assert t[..|t| - 1] == Texts(xs[..i]);
  }

  lemma TextsStep(xs: seq<Int64>, i: nat)
    requires i < |xs|
    ensures Texts(xs[..i + 1]) == Texts(xs[..i]) + [IntToString(xs[i])]
  {
  }

  /** With one operand no operator text appears: the formula is the operand,
      the relation and the result. */
  lemma FormulaSingle(a: Int64, operator: string, result: Int64, equal: bool)
    ensures Formula([a], operator, result, equal)
              == IntToString(a) + (if equal then " = " else " != ") + IntToString(result)
  {
  }

  /** With two operands the operator sits between them. */
  lemma FormulaTwo(a: Int64, b: Int64, operator: string, result: Int64)
    ensures Formula([a, b], operator, result, true)
              == IntToString(a) + (" " + operator + " ") + IntToString(b) + " = " + IntToString(result)
  {
    var sep := " " + operator + " ";
    var t := Texts([a, b]);
    assert t == [IntToString(a), IntToString(b)];
    assert t[..1] == [IntToString(a)];
    assert Join(t[..1], sep) == IntToString(a);
    assert Join(t, sep) == IntToString(a) + sep + IntToString(b);
  }

  /** What the request handler puts in its response for a decoded request:
      the request id, `op`'s result and the formula marked as equal. */
  datatype ServerReq = ServerReq(id: Int64, operands: seq<Int64>, operator: string)
  datatype ServerResp = ServerResp(id: Int64, formula: string, result: Int64, err: Option<string>)

  function Answer(sreq: ServerReq): (r: Result<ServerResp>)
    ensures r.Err? <==> Op(sreq.operands, sreq.operator).Err?
    ensures r.Ok? ==>
              r.value.id == sreq.id && r.value.err.None?
              && Op(sreq.operands, sreq.operator) == Ok(r.value.result)
              && r.value.formula == Formula(sreq.operands, sreq.operator, r.value.result, true)
  {
    match Op(sreq.operands, sreq.operator)
    case Err(m) => Err(m)
    case Ok(result) => Ok(ServerResp(sreq.id, Formula(sreq.operands, sreq.operator, result, true), result, None))
  }
}

=== FILE: set.dfy ===
/** The set algebra of basic/set/set.go over the `Set` interface. A set value
    is the list its `Elements` method returns (no repeats); `nil` is `None`.
    Results are built in a fresh hash set by adding elements one at a time. */
module SetAlgebra {
  import opened Common

  /** What `Elements` returns: each element once. */
  type SetValue<T(==)> = s: seq<T> | Distinct(s) witness []

  function Elems<T>(s: seq<T>): set<T> {
    set x | x in s
  }

  /** A list without repeats has as many elements as its set. */
  lemma {:induction false} DistinctCard<T>(s: seq<T>)
    requires Distinct(s)
    ensures |Elems(s)| == |s|
  {
    if |s| > 0 {
      var t := s[1..];
      assert forall j :: 0 <= j < |t| ==> t[j] == s[j + 1];
      DistinctCard(t);
      assert Elems(s) == {s[0]} + Elems(t);
      assert s[0] !in t;
    }
  }

  /** The hash set's `Add`: an element already present is not added again. */
  function Add<T>(s: SetValue<T>, x: T): (r: SetValue<T>)
    ensures Elems(r) == Elems(s) + {x}
    ensures x in s ==> r == s
  {
    if x in s then s
    else
      assert forall i :: 0 <= i < |s| ==> s[i] != x;
      s + [x]
  }

  /** Adds each element of `xs` for which `want` holds, in order. */
  method AddWhere<T>(acc: SetValue<T>, xs: seq<T>, want: T -> bool) returns (r: SetValue<T>)
    ensures Elems(r) == Elems(acc) + (set x | x in xs && want(x))
  {
    r := acc;
    var i := 0;
    while i < |xs|
      invariant 0 <= i <= |xs|
      invariant Elems(r) == Elems(acc) + (set x | x in xs[..i] && want(x))
    {
      assert xs[..i + 1] == xs[..i] + [xs[i]];
      if want(xs[i]) {
        r := Add(r, xs[i]);
      }
      i := i + 1;
    }
    assert xs[..i] == xs;
  }

  /** `IsSuperset`: false on nil or when the sizes rule it out, true when
      `other` is empty, otherwise whether `one` holds every element of
      `other`. Together these decide exactly the proper superset relation. */
  method IsSuperset<T>(one: Option<SetValue<T>>, other: Option<SetValue<T>>) returns (r: bool)
    ensures r <==> one.Some? && other.Some? && Elems(other.value) < Elems(one.value)
  {
    if one.None? || other.None? {
      return false;
    }
    var a, b := one.value, other.value;
    DistinctCard(a);
    DistinctCard(b);
    if |a| == 0 || |a| == |b| {
      NotProperOfSmaller(Elems(b), Elems(a));
      return false;
    }
    if |a| > 0 && |b| == 0 {
      return true;
    }
    var i := 0;
    while i < |b|
      invariant 0 <= i <= |b|
      invariant forall j :: 0 <= j < i ==> b[j] in a
    {
      if b[i] !in a {
        assert b[i] in Elems(b);
        return false;
      }
      i := i + 1;
    }
    assert Elems(b) <= Elems(a);
    assert Elems(b) != Elems(a);
    return true;
  }

  /** For a subset, being proper is being smaller. */
  lemma ProperBySize<T>(x: set<T>, y: set<T>)
    requires x <= y
    ensures x < y <==> |x| < |y|
  {
    assert y == x + (y - x);
    assert x * (y - x) == {};
    if |x| < |y| {
      assert |y - x| > 0;
      var e :| e in y - x;
      assert e !in x;
    }
  }

  /** A set is never a proper subset of one no larger than itself. */
  lemma NotProperOfSmaller<T>(x: set<T>, y: set<T>)
    requires |y| <= |x|
    ensures !(x < y)
  {
    if x <= y {
      ProperBySize(x, y);
    }
  }

  /** `Union`: nil if either argument is. */
  method Union<T>(one: Option<SetValue<T>>, other: Option<SetValue<T>>) returns (r: Option<SetValue<T>>)
    ensures r.None? <==> one.None? || other.None?
    ensures r.Some? ==> Elems(r.value) == Elems(one.value) + Elems(other.value)
  {
    if one.None? || other.None? {
      return None;
    }
    var s := AddWhere([], one.value, _ => true);
    if |other.value| == 0 {
      return Some(s);
    }
    s := AddWhere(s, other.value, _ => true);
    return Some(s);
  }

  /** `Intersect`: walks the smaller set and keeps what the other holds. */
  method Intersect<T>(one: Option<SetValue<T>>, other: Option<SetValue<T>>) returns (r: Option<SetValue<T>>)
    ensures r.None? <==> one.None? || other.None?
    ensures r.Some? ==> Elems(r.value) == Elems(one.value) * Elems(other.value)
  {
    if one.None? || other.None? {
      return None;
    }
    var a, b := one.value, other.value;
    if |b| == 0 {
      return Some([]);
    }
    var s;
    if |a| < |b| {
      s := AddWhere([], a, x => x in b);
    } else {
      s := AddWhere([], b, x => x in a);
    }
    return Some(s);
  }

  /** `Difference`: the elements of `one` that `other` lacks. */
  method Difference<T>(one: Option<SetValue<T>>, other: Option<SetValue<T>>) returns (r: Option<SetValue<T>>)
    ensures r.None? <==> one.None? || other.None?
    ensures r.Some? ==> Elems(r.value) == Elems(one.value) - Elems(other.value)
  {
    if one.None? || other.None? {
      return None;
    }
    var a, b := one.value, other.value;
    var s;
    if |b| == 0 {
      s := AddWhere([], a, _ => true);
    } else {
      s := AddWhere([], a, x => x !in b);
    }
    return Some(s);
  }

  /** `SymmetricDifference`: the union of both differences. */
  method SymmetricDifference<T>(one: Option<SetValue<T>>, other: Option<SetValue<T>>) returns (r: Option<SetValue<T>>)
    ensures r.None? <==> one.None? || other.None?
    ensures r.Some? ==> forall x :: x in Elems(r.value) <==> (x in Elems(one.value)) != (x in Elems(other.value))
  {
    if one.None? || other.None? {
      return None;
    }
    var diffA := Difference(one, other);
    if |other.value| == 0 {
      return diffA;
    }
    var diffB := Difference(other, one);
    r := Union(diffA, diffB);
  }

  /** A dynamically typed value: nil, a value implementing `Set`, or another. */
  datatype Dyn<T(==)> = NilValue | SetDyn(s: SetValue<T>) | OtherDyn

  /** `IsSet`: the type assertion to `Set` succeeds; it fails on nil. */
  function IsSet<T>(v: Dyn<T>): (r: bool)
    ensures r <==> !v.NilValue? && !v.OtherDyn?
  {
    v.SetDyn?
  }
}

=== FILE: set2.dfy ===
/** `SimpleSet` of basic/set2.go: elements stored under a generated string
    key, a list of the keys and a map from key to element. Nil elements are
    `None`; the key generator and comparator are optional functions, and
    `show` stands for the `%v` formatting used when no generator is set. */
module SimpleSets {
  import opened Common
  import opened Sorting

  datatype RawSet<!T(!new)> = RawSet(
    keyGenerator: Option<T -> string>,
    comparator: Option<(T, T) -> int>,
    show: T -> string,
    keys: seq<string>,
    elementMap: map<string, T>)

  /** The keys list and the map always name the same keys, each once. */
  predicate Valid<T(!new)>(s: RawSet<T>) {
    Distinct(s.keys) && s.elementMap.Keys == set k | k in s.keys
  }

  type SimpleSet<!T(!new)> = s: RawSet<T> | Valid(s)
    witness RawSet(None, None, _ => "", [], map[])

  function NewSimpleSet<T(!new)>(keyGenerator: Option<T -> string>, comparator: Option<(T, T) -> int>, show: T -> string): (s: SimpleSet<T>)
    ensures Len(s) == 0
  {
    RawSet(keyGenerator, comparator, show, [], map[])
  }

  function Len<T(!new)>(s: SimpleSet<T>): nat {
    |s.keys|
  }

  /** `generateKey`: "K{" + g(x) + "}}" with a generator g, otherwise
      "K{" + the `%v` text of x + "}". */
  function GenerateKey<T(!new)>(s: SimpleSet<T>, x: T): (r: string)
    ensures IsPrefix("K{", r) && r[|r| - 1] == '}'
  {
    var k := match s.keyGenerator
      case Some(g) => g(x) + "}"
      case None => s.show(x);
    "K{" + k + "}"
  }

  /** Two elements share a key exactly when the generator (or the `%v`
      text) gives them the same string. */
  lemma GenerateKeyIdentifies<T(!new)>(s: SimpleSet<T>, x: T, y: T)
    ensures s.keyGenerator.Some? ==>
              (GenerateKey(s, x) == GenerateKey(s, y) <==> s.keyGenerator.value(x) == s.keyGenerator.value(y))
    ensures s.keyGenerator.None? ==>
              (GenerateKey(s, x) == GenerateKey(s, y) <==> s.show(x) == s.show(y))
  {
    var kx, ky := GenerateKey(s, x), GenerateKey(s, y);
    if kx == ky {
      match s.keyGenerator {
        case Some(g) =>
          assert kx[2..|kx| - 2] == g(x);
          assert ky[2..|ky| - 2] == g(y);
        case None =>
          assert kx[2..|kx| - 1] == s.show(x);
          assert ky[2..|ky| - 1] == s.show(y);
      }
    }
  }

  /** The keys list and the map agree on every key, and an empty map
      leaves no key in the list. */
  lemma KeyStored<T(!new)>(s: SimpleSet<T>, k: string)
    ensures k in s.elementMap <==> k in s.keys
    ensures |s.elementMap| == 0 ==> k !in s.keys
  {
    assert k in s.elementMap.Keys <==> k in s.keys;
    if k in s.keys {
      assert k in s.elementMap.Keys;
      assert |s.elementMap.Keys| >= 1;
    }
  }

  /** `Contain`: an element with the same key is stored. */
  function Contain<T(!new)>(s: SimpleSet<T>, x: T): (r: bool)
    ensures r <==> GenerateKey(s, x) in s.keys
  {
    KeyStored(s, GenerateKey(s, x));
    if |s.elementMap| == 0 then false
    else GenerateKey(s, x) in s.elementMap
  }

  /** `Add`: refuses nil and an element whose key is already stored;
      otherwise stores it under its key and appends the key. */
  function Add<T(!new)>(s: SimpleSet<T>, x: Option<T>): (r: (SimpleSet<T>, bool))
    ensures r.1 <==> x.Some? && !Contain(s, x.value)
    ensures !r.1 ==> r.0 == s
    ensures r.1 ==> Len(r.0) == Len(s) + 1 && Contain(r.0, x.value)
    ensures r.1 ==> GenerateKey(s, x.value) in r.0.elementMap && r.0.elementMap[GenerateKey(s, x.value)] == x.value
    ensures forall y :: Contain(s, y) ==> Contain(r.0, y)
  {
    match x
    case None => (s, false)
    case Some(e) =>
      var key := GenerateKey(s, e);
      if key in s.elementMap then (s, false)
      else
        assert forall i :: 0 <= i < |s.keys| ==> s.keys[i] != key;
        (s.(elementMap := s.elementMap[key := e], keys := s.keys + [key]), true)
  }

  /** `s` without the entry `k`, the rest in order. */
  function Without(ks: seq<string>, k: string): (r: seq<string>)
    ensures forall x :: x in r <==> x in ks && x != k
    ensures Distinct(ks) ==> Distinct(r)
    ensures Distinct(ks) && k in ks ==> |r| + 1 == |ks|
    ensures k !in ks ==> r == ks
  {
    if |ks| == 0 then []
    else
      var rest := Without(ks[1..], k);
      assert ks == [ks[0]] + ks[1..];
      if ks[0] == k then rest
      else
        assert Distinct(ks) ==> ks[0] !in rest;
        ConsKeepsDistinct(ks[0], rest);
        [ks[0]] + rest
  }

  lemma ConsKeepsDistinct(x: string, rest: seq<string>)
    ensures Distinct(rest) && x !in rest ==> Distinct([x] + rest)
  {
    if Distinct(rest) && x !in rest {
      DistinctCons(x, rest);
    }
  }

  /** `Remove`: an element whose key is stored is deleted from the map and
      from the keys list. The source also re-sorts the keys list here; the
      order of that list is not observable through the operations modelled,
      and the model keeps it. */
  function Remove<T(!new)>(s: SimpleSet<T>, x: T): (r: (SimpleSet<T>, bool))
    ensures r.1 <==> Contain(s, x)
    ensures !r.1 ==> r.0 == s
    ensures r.1 ==> Len(r.0) + 1 == Len(s) && !Contain(r.0, x)
    ensures forall y :: Contain(r.0, y) <==> Contain(s, y) && GenerateKey(s, y) != GenerateKey(s, x)
  {
    if |s.elementMap| == 0 then (s, false)
    else
      var key := GenerateKey(s, x);
      if key !in s.elementMap then (s, false)
      else (s.(elementMap := s.elementMap - {key}, keys := Without(s.keys, key)), true)
  }

  /** `Clear`: always succeeds and leaves nothing stored. */
  function Clear<T(!new)>(s: SimpleSet<T>): (r: (SimpleSet<T>, bool))
    ensures r.1 && Len(r.0) == 0
    ensures forall y :: !Contain(r.0, y)
  {
    (s.(elementMap := map[], keys := []), true)
  }

  /** Removing an element just added restores what was stored. */
  lemma AddThenRemove<T(!new)>(s: SimpleSet<T>, x: T)
    requires !Contain(s, x)
    ensures Remove(Add(s, Some(x)).0, x).0.elementMap == s.elementMap
    ensures Remove(Add(s, Some(x)).0, x).0.keys == s.keys
    ensures !Remove(Remove(Add(s, Some(x)).0, x).0, x).1
  {
    var key := GenerateKey(s, x);
    AddAppends(s, x);
    var t := Add(s, Some(x)).0;
    RemoveDeletes(t, x);
    assert s.elementMap[key := x] - {key} == s.elementMap;
    WithoutLast(s.keys, key);
  }

  /** An element not yet stored is appended under its key. */
  lemma AddAppends<T(!new)>(s: SimpleSet<T>, x: T)
    requires !Contain(s, x)
    ensures Add(s, Some(x)).0.keys == s.keys + [GenerateKey(s, x)]
    ensures Add(s, Some(x)).0.elementMap == s.elementMap[GenerateKey(s, x) := x]
    ensures GenerateKey(Add(s, Some(x)).0, x) == GenerateKey(s, x) && Contain(Add(s, Some(x)).0, x)
  {
  }

  /** A stored element is deleted from the map and the keys list. */
  lemma RemoveDeletes<T(!new)>(s: SimpleSet<T>, x: T)
    requires Contain(s, x)
    ensures Remove(s, x).0.keys == Without(s.keys, GenerateKey(s, x))
    ensures Remove(s, x).0.elementMap == s.elementMap - {GenerateKey(s, x)}
    ensures Remove(s, x).1 && !Contain(Remove(s, x).0, x)
  {
  }

  lemma {:induction false} WithoutLast(ks: seq<string>, k: string)
    requires k !in ks
    ensures Without(ks + [k], k) == ks
  {
    if |ks| > 0 {
      assert (ks + [k])[1..] == ks[1..] + [k];
      WithoutLast(ks[1..], k);
    } else {
      assert ks + [k] == [k];
    }
  }

  /** The stored elements, in keys-list order. */
  function Elements<T(!new)>(s: SimpleSet<T>): (r: seq<T>)
    ensures |r| == Len(s)
  {
    seq(|s.keys|, i requires 0 <= i < |s.keys| => s.elementMap[s.keys[i]])
  }

  /** `Slice` with a comparator: every stored element once, in ascending
      comparator order. */
  function Slice<T(!new)>(s: SimpleSet<T>): (r: seq<T>)
    requires s.comparator.Some? && SignConsistent(s.comparator.value)
    ensures |r| == Len(s)
    ensures SortedBy(r, s.comparator.value)
    ensures multiset(r) == multiset(Elements(s))
  {
    if |s.keys| == 0 then []
    else SortBy(Elements(s), s.comparator.value)
  }

  /** The closure `Iterator` returns: a snapshot of `Slice` and a position. */
  datatype Iterator<T(!new)> = Iterator(snapshots: seq<T>, index: nat)

  function NewIterator<T(!new)>(s: SimpleSet<T>): (it: Iterator<T>)
    requires s.comparator.Some? && SignConsistent(s.comparator.value)
    ensures it.index == 0 && it.snapshots == Slice(s)
  {
    Iterator(Slice(s), 0)
  }

  /** One call of the iterator: the next snapshot element, or nil and false
      once the snapshot is exhausted. */
  function Next<T(!new)>(it: Iterator<T>): (r: (Iterator<T>, Option<T>, bool))
    ensures r.2 <==> it.index < |it.snapshots|
    ensures r.2 ==> r.1 == Some(it.snapshots[it.index]) && r.0.index == it.index + 1
    ensures !r.2 ==> r.1.None? && r.0 == it
    ensures r.0.snapshots == it.snapshots
  {
    if it.index < |it.snapshots| then (it.(index := it.index + 1), Some(it.snapshots[it.index]), true)
    else (it, None, false)
  }

  /** Everything the iterator yields until it reports false. */
  function Yields<T(!new)>(it: Iterator<T>): seq<T>
    decreases |it.snapshots| - it.index
  {
    var (it', x, ok) := Next(it);
    if ok then [x.value] + Yields(it') else []
  }

  lemma {:induction false} YieldsRest<T(!new)>(it: Iterator<T>)
    requires it.index <= |it.snapshots|
    ensures Yields(it) == it.snapshots[it.index..]
    decreases |it.snapshots| - it.index
  {
    if it.index < |it.snapshots| {
      YieldsRest(Next(it).0);
    }
  }

  /** A fresh iterator yields exactly `Slice`, in ascending order. */
  lemma IteratorYieldsSlice<T(!new)>(s: SimpleSet<T>)
    requires s.comparator.Some? && SignConsistent(s.comparator.value)
    ensures Yields(NewIterator(s)) == Slice(s)
    ensures SortedBy(Yields(NewIterator(s)), s.comparator.value)
  {
    YieldsRest(NewIterator(s));
  }

  /** With a transitive comparator every earlier element of `Slice` is not
      above any later one. */
  lemma SliceAscending<T(!new)>(s: SimpleSet<T>)
    requires s.comparator.Some? && SignConsistent(s.comparator.value) && Transitive(s.comparator.value)
    ensures forall i, j :: 0 <= i < j < Len(s) ==> s.comparator.value(Slice(s)[i], Slice(s)[j]) <= 0
  {
    SortedByPairwise(Slice(s), s.comparator.value);
  }
}

=== FILE: sorting.dfy ===
/** Sorting by a three-way comparison function, as `sort.Sort` does with a
    `Less` built from it, and the comparison of Go strings. */
module Sorting {
  /** The comparator's sign is consistent: `a` below `b` exactly when `b`
      is above `a`. This is all the ordering of `Slice` relies on. */
  ghost predicate SignConsistent<T(!new)>(cmp: (T, T) -> int) {
    forall a, b :: cmp(a, b) < 0 <==> cmp(b, a) > 0
  }

  /** With transitivity the comparator is a total preorder. */
  ghost predicate Transitive<T(!new)>(cmp: (T, T) -> int) {
    forall a, b, c :: cmp(a, b) <= 0 && cmp(b, c) <= 0 ==> cmp(a, c) <= 0
  }

  /** Each element is not above the next one. */
  predicate SortedBy<T(!new)>(xs: seq<T>, cmp: (T, T) -> int) {
    forall i :: 0 <= i < |xs| - 1 ==> cmp(xs[i], xs[i + 1]) <= 0
  }

  /** Inserts `x` before the first element it does not exceed. */
  function InsertBy<T(!new)>(x: T, xs: seq<T>, cmp: (T, T) -> int): (r: seq<T>)
    requires SignConsistent(cmp) && SortedBy(xs, cmp)
    ensures SortedBy(r, cmp)
    ensures multiset(r) == multiset(xs) + multiset{x}
    ensures |r| == |xs| + 1
    ensures r[0] == x || (|xs| > 0 && r[0] == xs[0])
  {
    if |xs| == 0 then [x]
    else if cmp(x, xs[0]) <= 0 then [x] + xs
    else
      assert xs == [xs[0]] + xs[1..];
      assert cmp(xs[0], x) <= 0;
      var rest := InsertBy(x, xs[1..], cmp);
      [xs[0]] + rest
  }

  function SortBy<T(!new)>(xs: seq<T>, cmp: (T, T) -> int): (r: seq<T>)
    requires SignConsistent(cmp)
    ensures SortedBy(r, cmp)
    ensures multiset(r) == multiset(xs)
    ensures |r| == |xs|
  {
    if |xs| == 0 then []
    else
      assert xs == [xs[0]] + xs[1..];
      InsertBy(xs[0], SortBy(xs[1..], cmp), cmp)
  }

  /** Under a transitive comparator, ascending neighbours make the whole
      list ascending. */
  lemma {:induction false} SortedByPairwise<T(!new)>(xs: seq<T>, cmp: (T, T) -> int)
    requires SortedBy(xs, cmp) && Transitive(cmp)
    ensures forall i, j :: 0 <= i < j < |xs| ==> cmp(xs[i], xs[j]) <= 0
  {
    if |xs| > 1 {
      SortedByPairwise(xs[1..], cmp);
      forall j | 1 <= j < |xs|
        ensures cmp(xs[0], xs[j]) <= 0
      {
        assert xs[j] == xs[1..][j - 1];
        assert j > 1 ==> cmp(xs[1], xs[j]) <= 0;
      }
      forall i, j | 0 <= i < j < |xs|
        ensures cmp(xs[i], xs[j]) <= 0
      {
        if i > 0 {
          assert xs[i] == xs[1..][i - 1] && xs[j] == xs[1..][j - 1];
        }
      }
    }
  }

  /** Go's string comparison, as -1, 0 or 1: lexicographic by character. */
  function StrCompare(a: string, b: string): (r: int)
    ensures -1 <= r <= 1
    ensures r == 0 <==> a == b
  {
    if |a| == 0 && |b| == 0 then 0
    else if |a| == 0 then -1
    else if |b| == 0 then 1
    else if a[0] < b[0] then -1
    else if a[0] > b[0] then 1
    else
      assert a == [a[0]] + a[1..] && b == [b[0]] + b[1..];
      StrCompare(a[1..], b[1..])
  }

  lemma {:induction false} StrCompareFlips(a: string, b: string)
    ensures StrCompare(a, b) == -StrCompare(b, a)
  {
    if |a| > 0 && |b| > 0 && a[0] == b[0] {
      StrCompareFlips(a[1..], b[1..]);
    }
  }

  lemma {:induction false} StrCompareTransitive(a: string, b: string, c: string)
    requires StrCompare(a, b) <= 0 && StrCompare(b, c) <= 0
    ensures StrCompare(a, c) <= 0
  {
    if |a| > 0 && |b| > 0 && |c| > 0 && a[0] == b[0] && b[0] == c[0] {
      StrCompareTransitive(a[1..], b[1..], c[1..]);
    }
  }

  /** The string comparison meets what sorting relies on. */
  lemma StrCompareIsComparator()
    ensures SignConsistent(StrCompare)
    ensures Transitive(StrCompare)
  {
    forall a, b ensures StrCompare(a, b) < 0 <==> StrCompare(b, a) > 0 {
      StrCompareFlips(a, b);
    }
    forall a, b, c | StrCompare(a, b) <= 0 && StrCompare(b, c) <= 0
      ensures StrCompare(a, c) <= 0
    {
      StrCompareTransitive(a, b, c);
    }
  }
}

=== FILE: start.dfy ===
/** `Start` of the scheduler (webcrawler/scheduler/scheduler.go): the
    `running` flag is raised first, then the arguments and components are
    checked and built in order; a failing check returns at once. */
module SchedulerStart {
  import opened Common
  import opened Data
  import opened Schedulers
  import A = Arguments
  import CM = ChannelManagers
  import SS = StopSigns
  import P = Pools
  import RC = RequestCaches
  import H = SchedulerHelpers
  import IP = ItemPipelines

  const StartedMessage: string := "The scheduler has been started!\n"
  const ClientGeneratorMessage: string := "The HTTP client generator list is invalid!"
  const ProcessorListMessage: string := "The item processor list is invalid!"
  const FirstRequestMessage: string := "The first HTTP request is invalid!"

  function DownloaderPoolMessage(e: string): string {
    "Occur error when get page downloader pool: " + e + "\n"
  }

  function AnalyzerPoolMessage(e: string): string {
    "Occur error when get analyzer pool: " + e + "\n"
  }

  function ProcessorMessage(i: nat): string {
    "The " + NatToString(i) + "th item processor is invalid!"
  }

  /** Every processor of a non-nil list is non-nil. */
  predicate ProcessorsValid(ps: Option<seq<Option<IP.Processor>>>) {
    ps.Some? && forall i :: 0 <= i < |ps.value| ==> ps.value[i].Some?
  }

  /** `Start`. The pools are what `generatePageDownloaderPool` and
      `generateAnalyzerPool` return, and `hasClientGenerator` says whether
      the HTTP client generator is non-nil. The flag is set to 1 before any
      argument is checked; each failing check returns at once, leaving the
      components assigned so far in place. On success every component is
      fresh, the URL set is empty and the first request, at depth 0, is the
      only one in the cache. */
  function Start(s: Scheduler, channelArgs: A.ChannelArgs, poolBaseArgs: A.PoolBaseArgs, crawlDepth: UInt32,
                 hasClientGenerator: bool, dlpool: Result<P.Pool>, analyzerPool: Result<P.Pool>,
                 itemProcessors: Option<seq<Option<IP.Processor>>>, firstHttpReq: Option<HttpReq>)
    : (r: (Scheduler, Option<string>))
    ensures s.running == 1 ==> r.0 == s && r.1 == Some(StartedMessage)
    ensures s.running != 1 ==> Running(r.0)
    ensures r.1.None? <==>
              && s.running != 1
              && A.CheckChannelArgs(channelArgs).None? && A.CheckPoolBaseArgs(poolBaseArgs).None?
              && hasClientGenerator && dlpool.Ok? && analyzerPool.Ok?
              && ProcessorsValid(itemProcessors)
              && firstHttpReq.Some? && H.GetPrimaryDomain(firstHttpReq.value.host).Ok?
  {
    if s.running == 1 then (s, Some(StartedMessage))
    else
      var s1 := s.(running := 1);
      match A.CheckChannelArgs(channelArgs)
      case Some(e) => (s1, Some(e))
      case None =>
        var s2 := s1.(channelArgs := channelArgs);
        match A.CheckPoolBaseArgs(poolBaseArgs)
        case Some(e) => (s2, Some(e))
        case None =>
          var s3 := s2.(poolBaseArgs := poolBaseArgs, crawlDepth := crawlDepth,
                        chanman := Some(CM.NewChannelManager(channelArgs).value));
          if !hasClientGenerator then (s3, Some(ClientGeneratorMessage))
          else match dlpool
          case Err(e) => (s3, Some(DownloaderPoolMessage(e)))
          case Ok(dp) =>
            var s4 := s3.(dlpool := Some(dp));
            match analyzerPool
            case Err(e) => (s4, Some(AnalyzerPoolMessage(e)))
            case Ok(ap) =>
              var s5 := s4.(analyzerPool := Some(ap));
              match itemProcessors
              case None => (s5, Some(ProcessorListMessage))
              case Some(ps) =>
                var k := IP.FirstNil(ps);
                if k < |ps| then (s5, Some(ProcessorMessage(k)))
                else
                  var cache0 := RC.NewRequestCache();
                  var s6 := s5.(itemPipeline := Some(IP.NewItemPipeline(itemProcessors).value),
                                stopSign := Some(if s5.stopSign.None? then SS.NewStopSign() else SS.Reset(s5.stopSign.value)),
                                reqCache := Some(cache0),
                                urlMap := {});
                  match firstHttpReq
                  case None => (s6, Some(FirstRequestMessage))
                  case Some(fr) =>
                    match H.GetPrimaryDomain(fr.host)
                    case Err(e) => (s6, Some(e))
                    case Ok(pd) =>
                      var cache := RC.Put(cache0, Some(NewRequest(firstHttpReq, 0))).0;
                      assert cache.cache == [] + [NewRequest(firstHttpReq, 0)];
                      (s6.(primaryDomain := pd, reqCache := Some(cache)), None)
  }

  /** The argument checks of `Start` come first and in order: a bad channel
      argument is reported before a bad pool argument, and neither touches
      the components. */
  lemma StartChecksArgumentsFirst(s: Scheduler, channelArgs: A.ChannelArgs, poolBaseArgs: A.PoolBaseArgs,
                                  crawlDepth: UInt32, hasClientGenerator: bool, dlpool: Result<P.Pool>,
                                  analyzerPool: Result<P.Pool>, itemProcessors: Option<seq<Option<IP.Processor>>>,
                                  firstHttpReq: Option<HttpReq>)
    requires s.running != 1
    ensures var r := Start(s, channelArgs, poolBaseArgs, crawlDepth, hasClientGenerator, dlpool, analyzerPool,
                           itemProcessors, firstHttpReq);
            && (A.CheckChannelArgs(channelArgs).Some? ==>
                  r.1 == A.CheckChannelArgs(channelArgs) && r.0 == s.(running := 1))
            && (A.CheckChannelArgs(channelArgs).None? && A.CheckPoolBaseArgs(poolBaseArgs).Some? ==>
                  r.1 == A.CheckPoolBaseArgs(poolBaseArgs) && r.0 == s.(running := 1, channelArgs := channelArgs))
  {
  }

  /** After a successful `Start` every component is fresh, the session's
      primary domain is that of the first request's host, the URL set is
      empty and the first request, at depth 0, is the only one cached. */
  lemma StartSuccessState(s: Scheduler, channelArgs: A.ChannelArgs, poolBaseArgs: A.PoolBaseArgs,
                          crawlDepth: UInt32, hasClientGenerator: bool, dlpool: Result<P.Pool>,
                          analyzerPool: Result<P.Pool>, itemProcessors: Option<seq<Option<IP.Processor>>>,
                          firstHttpReq: Option<HttpReq>)
    ensures Start(s, channelArgs, poolBaseArgs, crawlDepth, hasClientGenerator, dlpool, analyzerPool,
                  itemProcessors, firstHttpReq).1.None? ==>
            var r := Start(s, channelArgs, poolBaseArgs, crawlDepth, hasClientGenerator, dlpool, analyzerPool,
                           itemProcessors, firstHttpReq).0;
            && r.channelArgs == channelArgs && r.poolBaseArgs == poolBaseArgs && r.crawlDepth == crawlDepth
            && r.primaryDomain == H.GetPrimaryDomain(firstHttpReq.value.host).value
            && r.chanman.Some? && r.chanman.value.status == CM.Initialized
            && CM.FreshChannels(r.chanman.value, channelArgs)
            && r.dlpool == Some(dlpool.value) && r.analyzerPool == Some(analyzerPool.value)
            && r.itemPipeline.Some? && IP.ProcessingNumber(r.itemPipeline.value) == 0
            && r.stopSign == Some(SS.NewStopSign())
            && r.reqCache == Some(RC.RequestCache([NewRequest(firstHttpReq, 0)], false))
            && r.urlMap == {}
  {
    var q := NewRequest(firstHttpReq, 0);
    assert [] + [q] == [q];
    assert RC.Put(RC.NewRequestCache(), Some(q)).0 == RC.RequestCache([q], false);
  }

  /** A `Start` that fails still leaves the scheduler running. */
  lemma FailedStartStillRunning(s: Scheduler, channelArgs: A.ChannelArgs, poolBaseArgs: A.PoolBaseArgs)
    requires s.running != 1 && A.CheckChannelArgs(channelArgs).Some?
    ensures var r := Start(s, channelArgs, poolBaseArgs, 0, true, Err(""), Err(""), None, None);
            r.1.Some? && Running(r.0)
  {
  }

  /** On a fresh scheduler, a `Start` that fails at its first check leaves
      no stop sign behind, and the following `Stop` panics. */
  lemma StopAfterFailedFirstStartPanics(channelArgs: A.ChannelArgs, poolBaseArgs: A.PoolBaseArgs)
    requires A.CheckChannelArgs(channelArgs).Some?
    ensures var r := Start(NewScheduler(), channelArgs, poolBaseArgs, 0, true, Err(""), Err(""), None, None);
            Stop(r.0).Err?
  {
  }

  /** After a successful `Stop` a second `Stop` is refused, and the next
      `Start` is not: whatever its arguments, it sets the flag back to 1. */
  lemma StopThenRestart(s: Scheduler)
    requires Stop(s).Ok? && Stop(s).value.1
    ensures Stop(s).value.0.running == 2
    ensures Stop(Stop(s).value.0) == Ok((Stop(s).value.0, false))
    ensures forall ca, pa, d, g, dp, ap, ps, fr ::
              Running(Start(Stop(s).value.0, ca, pa, d, g, dp, ap, ps, fr).0)
  {
  }
}

=== FILE: stopsign.dfy ===
/** The crawler's cooperative cancellation flag (webcrawler/middleware/stopsign.go):
    a `signed` bit plus, per component code, a count of how often that
    component acknowledged the stop while it was raised. */
module StopSigns {
  import opened Common
  import opened Sorting
  import Sequences

  /** `counts` is the Go map `dealCountMap`, kept as an association list with
      distinct codes; a code that was never dealt is absent (count 0). */
  datatype StopSign = StopSign(signed: bool, counts: seq<(string, UInt32)>)

  ghost predicate Valid(ss: StopSign) {
    forall i, j :: 0 <= i < j < |ss.counts| ==> ss.counts[i].0 != ss.counts[j].0
  }

  function NewStopSign(): (r: StopSign)
    ensures Valid(r) && !r.signed && r.counts == []
  {
    StopSign(false, [])
  }

  /** Raises the flag; reports whether it was down before. */
  function Sign(ss: StopSign): (r: (StopSign, bool))
    ensures r.1 <==> !ss.signed
    ensures r.0.signed
    ensures r.0.counts == ss.counts
  {
    if ss.signed then (ss, false) else (ss.(signed := true), true)
  }

  function Signed(ss: StopSign): bool {
    ss.signed
  }

  /** Lowers the flag and forgets every acknowledgement. */
  function Reset(ss: StopSign): (r: StopSign)
    ensures Valid(r) && !Signed(r)
    ensures forall code :: DealCount(r, code) == 0
    ensures DealTotal(r) == 0
  {
    StopSign(false, [])
  }

  /** The Go map lookup `dealCountMap[code]` (0 when absent). */
  function Lookup(counts: seq<(string, UInt32)>, code: string): UInt32 {
    if |counts| == 0 then 0
    else if counts[0].0 == code then counts[0].1
    else Lookup(counts[1..], code)
  }

  /** The lookup finds the entry of `code` when there is one. */
  lemma {:induction false} LookupFindsEntry(counts: seq<(string, UInt32)>, code: string)
    ensures code !in Codes(counts) ==> Lookup(counts, code) == 0
    ensures code in Codes(counts) ==> (code, Lookup(counts, code)) in counts
  {
    if |counts| > 0 {
      assert Codes(counts) == [counts[0].0] + Codes(counts[1..]);
      LookupFindsEntry(counts[1..], code);
    }
  }

  /** How often `code` acknowledged: the count of its entry, 0 when it has
      none. */
  function DealCount(ss: StopSign, code: string): (r: UInt32)
    ensures code !in Codes(ss.counts) ==> r == 0
    ensures code in Codes(ss.counts) ==> (code, r) in ss.counts
  {
    LookupFindsEntry(ss.counts, code);
    Lookup(ss.counts, code)
  }

  /** The map update of `Deal`: a present code is raised by one in uint32
      arithmetic, an absent one is entered with count 1. */
  function Bump(counts: seq<(string, UInt32)>, code: string): (r: seq<(string, UInt32)>)
    ensures Lookup(r, code) == Wrap32(Lookup(counts, code) + 1)
    ensures forall c :: c != code ==> Lookup(r, c) == Lookup(counts, c)
    ensures |r| == |counts| || (|r| == |counts| + 1 && r[|counts|] == (code, 1))
    ensures forall i :: 0 <= i < |counts| ==> r[i].0 == counts[i].0
    ensures |r| == |counts| + 1 ==> forall i :: 0 <= i < |counts| ==> counts[i].0 != code
  {
    if |counts| == 0 then [(code, 1)]
    else if counts[0].0 == code then [(code, Wrap32(counts[0].1 as int + 1))] + counts[1..]
    else [counts[0]] + Bump(counts[1..], code)
  }

  /** Records that the component `code` observed the raised flag; a no-op
      while the flag is down. */
  function Deal(ss: StopSign, code: string): (r: StopSign)
    ensures !ss.signed ==> r == ss
    ensures ss.signed ==> DealCount(r, code) == Wrap32(DealCount(ss, code) + 1)
    ensures forall c :: c != code ==> DealCount(r, c) == DealCount(ss, c)
    ensures r.signed == ss.signed
  {
    if !ss.signed then ss else ss.(counts := Bump(ss.counts, code))
  }

  /** Sum of every count, accumulated in uint32 arithmetic as the Go loop
      does: the exact sum reduced modulo 2^32. */
  function DealTotal(ss: StopSign): (r: UInt32)
    ensures r == Sum(ss.counts) % Two32
  {
    TotalIsSumMod(ss.counts);
    Total(ss.counts)
  }

  function Total(counts: seq<(string, UInt32)>): UInt32 {
    if |counts| == 0 then 0 else Wrap32(counts[0].1 as int + Total(counts[1..]))
  }

  /** The exact (unbounded) sum of the counts. */
  ghost function Sum(counts: seq<(string, UInt32)>): nat {
    if |counts| == 0 then 0 else counts[0].1 + Sum(counts[1..])
  }

  /** The wrapping accumulation is the exact sum reduced modulo 2^32. */
  lemma {:induction false} TotalIsSumMod(counts: seq<(string, UInt32)>)
    ensures Total(counts) == Sum(counts) % Two32
  {
    if |counts| > 0 {
      TotalIsSumMod(counts[1..]);
      ModAddRight(counts[0].1 as int, Sum(counts[1..]));
    }
  }

  /** Reducing the right operand first does not change a sum modulo 2^32. */
  lemma ModAddRight(a: nat, b: nat)
    ensures (a + b % Two32) % Two32 == (a + b) % Two32
  {
    var q := b / Two32;
    assert b == q * Two32 + b % Two32;
    assert a + b == (a + b % Two32) + q * Two32;
    ModShift32(a + b % Two32, q);
  }

  lemma ModShift32(z: int, q: int)
    ensures (z + q * Two32) % Two32 == z % Two32
  {
  }

  /** Bumping one entry raises the exact sum by one, less 2^32 when that
      entry wrapped around. */
  lemma {:induction false} SumBump(counts: seq<(string, UInt32)>, code: string)
    ensures Sum(Bump(counts, code)) == Sum(counts) + 1
         || Sum(Bump(counts, code)) + Two32 == Sum(counts) + 1
  {
    var r := Bump(counts, code);
    if |counts| == 0 {
    } else if counts[0].0 == code {
      assert r[1..] == counts[1..];
    } else {
      SumBump(counts[1..], code);
      assert r[1..] == Bump(counts[1..], code);
    }
  }

  /** Adding one before or after reducing modulo 2^32 agrees. */
  lemma ModSucc(a: nat, b: nat)
    requires b == a + 1 || b + Two32 == a + 1
    ensures b % Two32 == Wrap32(a % Two32 + 1)
  {
    var q := a / Two32;
    var r := a % Two32;
    assert a == q * Two32 + r;
    if b == a + 1 {
      if r + 1 < Two32 {
        assert b == q * Two32 + (r + 1);
      } else {
        assert b == (q + 1) * Two32;
      }
    } else {
      if r + 1 < Two32 {
        assert b == (q - 1) * Two32 + (r + 1);
      } else {
        assert b == q * Two32;
      }
    }
  }

  /** `Deal` keeps the codes distinct. */
  lemma DealPreservesValid(ss: StopSign, code: string)
    requires Valid(ss)
    ensures Valid(Deal(ss, code))
  {
  }

  /** While signed, one `Deal` raises the total by exactly one (mod 2^32);
      while unsigned it leaves the total alone. */
  lemma DealTotalAfterDeal(ss: StopSign, code: string)
    requires Valid(ss)
    ensures ss.signed ==> DealTotal(Deal(ss, code)) == Wrap32(DealTotal(ss) + 1)
    ensures !ss.signed ==> DealTotal(Deal(ss, code)) == DealTotal(ss)
  {
    if ss.signed {
      var r := Deal(ss, code);
      SumBump(ss.counts, code);
      ModSucc(Sum(ss.counts), Sum(r.counts));
    }
  }

  /** The codes of `counts`, in stored order. */
  function Codes(counts: seq<(string, UInt32)>): (r: seq<string>)
    ensures |r| == |counts|
  {
    seq(|counts|, i requires 0 <= i < |counts| => counts[i].0)
  }

  /** The order in which `%v` visits a map with string keys: ascending. */
  function SortedCodes(counts: seq<(string, UInt32)>): (r: seq<string>)
    ensures SortedBy(r, StrCompare)
    ensures multiset(r) == multiset(Codes(counts))
  {
    StrCompareIsComparator();
    SortBy(Codes(counts), StrCompare)
  }

  /** Renders `dealCountMap` the way `%v` prints a map: `map[k:v k:v]`,
      the entries sorted by key. */
  function FormatCounts(counts: seq<(string, UInt32)>): string {
    "map[" + Join(FormatEntries(SortedCodes(counts), counts), " ") + "]"
  }

  /** One `code:count` entry per code, in the order of `codes`. */
  function FormatEntries(codes: seq<string>, counts: seq<(string, UInt32)>): (r: seq<string>)
    ensures |r| == |codes|
  {
    seq(|codes|, i requires 0 <= i < |codes| => codes[i] + ":" + NatToString(Lookup(counts, codes[i])))
  }

  const SignedPrefix: string := "signed: true, dealCount: "

  function Summary(ss: StopSign): (r: string)
    ensures !ss.signed ==> r == "signed: false"
    ensures ss.signed ==> IsPrefix(SignedPrefix, r)
  {
    if ss.signed then SignedPrefix + FormatCounts(ss.counts) else "signed: false"
  }

  /** The summary depends on the map and not on the order the codes were
      first dealt in: the same codes with the same counts print the same. */
  lemma SummaryOrderIndependent(a: StopSign, b: StopSign)
    requires a.signed == b.signed
    requires multiset(Codes(a.counts)) == multiset(Codes(b.counts))
    requires forall c :: Lookup(a.counts, c) == Lookup(b.counts, c)
    ensures Summary(a) == Summary(b)
  {
    Sequences.SortedUnique(SortedCodes(a.counts), SortedCodes(b.counts));
    var codes := SortedCodes(a.counts);
    assert FormatEntries(codes, a.counts) == FormatEntries(codes, b.counts);
  }

  /** Two components acknowledging in the order scheduler, analyzer-1 are
      printed in key order. */
  lemma SummaryExample()
    ensures Summary(Deal(Deal(Sign(NewStopSign()).0, "scheduler"), "analyzer-1"))
            == SignedPrefix + "map[" + "analyzer-1:1" + " " + "scheduler:1" + "]"
  {
    var counts := [("scheduler", 1), ("analyzer-1", 1)];
    ExampleDeals();
    ExampleFormat(counts);
    SignedSummary(StopSign(true, counts));
  }

  /** A raised sign prints the prefix and then its counts. */
  lemma SignedSummary(ss: StopSign)
    requires ss.signed
    ensures Summary(ss) == SignedPrefix + FormatCounts(ss.counts)
  {
  }

  lemma ExampleFormat(counts: seq<(string, UInt32)>)
    requires counts == [("scheduler", 1), ("analyzer-1", 1)]
    ensures FormatCounts(counts) == "map[" + "analyzer-1:1" + " " + "scheduler:1" + "]"
  {
    ExampleSortedCodes(counts);
    ExampleEntries(counts);
    var entries := ["analyzer-1:1", "scheduler:1"];
    assert Join(entries, " ") == Join(entries[..1], " ") + " " + entries[1];
  }

  lemma ExampleEntries(counts: seq<(string, UInt32)>)
    requires counts == [("scheduler", 1), ("analyzer-1", 1)]
    ensures FormatEntries(["analyzer-1", "scheduler"], counts) == ["analyzer-1:1", "scheduler:1"]
  {
    var e := FormatEntries(["analyzer-1", "scheduler"], counts);
    assert Lookup(counts, "scheduler") == 1;
    assert Lookup(counts[1..], "analyzer-1") == 1;
    assert NatToString(1) == "1";
    assert e[0] == "analyzer-1" + ":" + "1" == "analyzer-1:1";
    assert e[1] == "scheduler" + ":" + "1" == "scheduler:1";
  }

  lemma ExampleDeals()
    ensures Deal(Deal(Sign(NewStopSign()).0, "scheduler"), "analyzer-1")
            == StopSign(true, [("scheduler", 1), ("analyzer-1", 1)])
  {
    var s1 := Deal(Sign(NewStopSign()).0, "scheduler");
    assert s1 == StopSign(true, [("scheduler", 1)]);
  }

  lemma ExampleSortedCodes(counts: seq<(string, UInt32)>)
    requires counts == [("scheduler", 1), ("analyzer-1", 1)]
    ensures SortedCodes(counts) == ["analyzer-1", "scheduler"]
  {
    var t := ["analyzer-1", "scheduler"];
    assert Codes(counts) == ["scheduler", "analyzer-1"];
    assert multiset(t) == multiset(Codes(counts));
    assert StrCompare("analyzer-1", "scheduler") == -1;
    Sequences.SortedUnique(SortedCodes(counts), t);
  }

  /** The state of `rwmutex` that the lock calls see: whether a writer holds
      it and how many readers do. */
  datatype RWLock = RWLock(writer: bool, readers: nat)

  /** The fatal error `sync.RWMutex` raises when `Unlock` finds no writer. */
  const UnlockFatal: string := "fatal error: sync: Unlock of unlocked RWMutex"

  /** `RLock`: `None` while a writer holds the lock (the call blocks). */
  function RLock(l: RWLock): (r: Option<RWLock>)
    ensures r.None? <==> l.writer
    ensures r.Some? ==> r.value.readers == l.readers + 1 && !r.value.writer
  {
    if l.writer then None else Some(l.(readers := l.readers + 1))
  }

  /** `RUnlock` after a matching `RLock` gives one read hold back. */
  function RUnlock(l: RWLock): (r: Result<RWLock>)
    ensures r.Ok? <==> l.readers > 0
    ensures r.Ok? ==> r.value == l.(readers := l.readers - 1)
  {
    if l.readers == 0 then Err("fatal error: sync: RUnlock of unlocked RWMutex")
    else Ok(l.(readers := l.readers - 1))
  }

  /** `Unlock` releases a write hold; without one the process dies. */
  function Unlock(l: RWLock): (r: Result<RWLock>)
    ensures r.Err? <==> !l.writer
    ensures r.Err? ==> r.error == UnlockFatal
  {
    if !l.writer then Err(UnlockFatal) else Ok(l.(writer := false))
  }

  /** A read of `v` bracketed by `RLock` and a deferred `Unlock`, as
      `DealCount` and `DealTotal` are written: it blocks behind a writer and
      otherwise always ends in the fatal error. */
  function ReadLockedAsWritten<T>(l: RWLock, v: T): (r: Option<Result<T>>)
    ensures r.None? <==> l.writer
    ensures r.Some? ==> r == Some(Err(UnlockFatal))
  {
    match RLock(l)
    case None => None
    case Some(held) =>
      match Unlock(held)
      case Err(e) => Some(Err(e))
      case Ok(_) => Some(Ok(v))
  }

  /** The same read with the deferred `RUnlock` it evidently meant. */
  function ReadLocked<T>(l: RWLock, v: T): (r: Option<Result<T>>)
    ensures r.None? <==> l.writer
    ensures r.Some? ==> r == Some(Ok(v))
  {
    match RLock(l)
    case None => None
    case Some(held) =>
      match RUnlock(held)
      case Err(e) => Some(Err(e))
      case Ok(_) => Some(Ok(v))
  }

  /** `DealCount` with its locking as written. */
  function DealCountAsWritten(ss: StopSign, code: string, l: RWLock): (r: Option<Result<UInt32>>)
    ensures !l.writer ==> r == Some(Err(UnlockFatal))
  {
    ReadLockedAsWritten(l, DealCount(ss, code))
  }

  /** `DealTotal` with its locking as written. */
  function DealTotalAsWritten(ss: StopSign, l: RWLock): (r: Option<Result<UInt32>>)
    ensures !l.writer ==> r == Some(Err(UnlockFatal))
  {
    ReadLockedAsWritten(l, DealTotal(ss))
  }

  /** With the read unlock the two queries return the modelled values. */
  function DealCountLocked(ss: StopSign, code: string, l: RWLock): (r: Option<Result<UInt32>>)
    ensures !l.writer ==> r == Some(Ok(DealCount(ss, code)))
  {
    ReadLocked(l, DealCount(ss, code))
  }

  function DealTotalLocked(ss: StopSign, l: RWLock): (r: Option<Result<UInt32>>)
    ensures !l.writer ==> r == Some(Ok(DealTotal(ss)))
  {
    ReadLocked(l, DealTotal(ss))
  }

  /** On an idle lock the written queries die where the intended ones
      answer: a fresh stop sign reports 0 acknowledgements. */
  lemma DealQueriesCrashAsWritten()
    ensures DealCountAsWritten(NewStopSign(), "scheduler", RWLock(false, 0)).value.Err?
    ensures DealTotalAsWritten(NewStopSign(), RWLock(false, 0)).value.Err?
    ensures DealCountLocked(NewStopSign(), "scheduler", RWLock(false, 0)) == Some(Ok(0))
    ensures DealTotalLocked(NewStopSign(), RWLock(false, 0)) == Some(Ok(0))
  {
  }

  /** The steps a caller can take on a stop sign. */
  datatype Op = SignOp | ResetOp | DealOp(code: string)

  function Apply(ss: StopSign, op: Op): StopSign {
    match op
    case SignOp => Sign(ss).0
    case ResetOp => Reset(ss)
    case DealOp(code) => Deal(ss, code)
  }

  /** The stop sign after running `ops` in order from `ss`. */
  function Run(ss: StopSign, ops: seq<Op>): StopSign
    decreases |ops|
  {
    if |ops| == 0 then ss else Apply(Run(ss, ops[..|ops| - 1]), ops[|ops| - 1])
  }

  /** Some `Sign` happened and no `Reset` came after it. */
  ghost predicate SignedSinceReset(ops: seq<Op>) {
    exists i :: 0 <= i < |ops| && ops[i] == SignOp && NoResetAfter(ops, i)
  }

  ghost predicate NoResetAfter(ops: seq<Op>, i: int) {
    forall j :: 0 <= j < |ops| && i < j ==> ops[j] != ResetOp
  }

  /** A fresh stop sign is raised after `ops` exactly when some `Sign` has
      happened since the last `Reset`. */
  lemma {:induction false} SignedIffSignSinceReset(ops: seq<Op>)
    ensures Signed(Run(NewStopSign(), ops)) <==> SignedSinceReset(ops)
  {
    if |ops| > 0 {
      var init := ops[..|ops| - 1];
      var last := ops[|ops| - 1];
      SignedIffSignSinceReset(init);
      match last
      case SignOp =>
        assert NoResetAfter(ops, |ops| - 1);
      case ResetOp =>
        forall i | 0 <= i < |ops| && ops[i] == SignOp
          ensures !NoResetAfter(ops, i)
        {
          assert ops[|ops| - 1] == ResetOp;
        }
      case DealOp(_) =>
        if SignedSinceReset(init) {
          var i :| 0 <= i < |init| && init[i] == SignOp && NoResetAfter(init, i);
          assert ops[i] == SignOp && NoResetAfter(ops, i);
        }
        if SignedSinceReset(ops) {
          var i :| 0 <= i < |ops| && ops[i] == SignOp && NoResetAfter(ops, i);
          assert i < |init| && init[i] == SignOp && NoResetAfter(init, i);
        }
    }
  }

  /** `Sign` succeeds exactly once per sign/reset cycle: it returns true
      after `ops` if and only if no `Sign` has happened since the last `Reset`. */
  lemma SignSucceedsOncePerCycle(ops: seq<Op>)
    ensures Sign(Run(NewStopSign(), ops)).1 <==> !SignedSinceReset(ops)
  {
    SignedIffSignSinceReset(ops);
  }
}

=== FILE: summary.dfy ===
/** The scheduler's summary (webcrawler/scheduler/summary.go): a snapshot of
    the scheduler's state as numbers and component summaries, its two
    renderings, and the equality test `Same` that the monitor uses to notice
    a change. */
module SchedSummaries {
  import opened Common
  import A = Arguments
  import CM = ChannelManagers
  import SS = StopSigns
  import P = Pools
  import RC = RequestCaches
  import IP = ItemPipelines
  import S = Schedulers

  datatype SchedSummary = SchedSummary(
    prefix: string,
    running: UInt32,
    channelArgs: A.ChannelArgs,
    poolBaseArgs: A.PoolBaseArgs,
    crawlDepth: UInt32,
    chanmanSummary: string,
    reqCacheSummary: string,
    dlPoolLen: UInt32,
    dlPoolCap: UInt32,
    analyzerPoolLen: UInt32,
    analyzerPoolCap: UInt32,
    itemPipelineSummary: string,
    urlCount: nat,
    urlDetail: string,
    stopSignSummary: string)

  /** The URL lines: two prefixes, the URL and a newline for each URL. */
  function UrlLines(prefix: string, urls: seq<string>): (r: string)
    ensures |urls| == 0 <==> r == ""
  {
    if |urls| == 0 then ""
    else
      var line := prefix + prefix + urls[0] + "\n";
      assert |line| > 0;
      line + UrlLines(prefix, urls[1..])
  }

  /** Length of the first line of `u`: the index of its first newline. */
  function LineEnd(u: string): (n: nat)
    ensures n <= |u|
    ensures forall k :: 0 <= k < n ==> u[k] != '\n'
    ensures n < |u| ==> u[n] == '\n'
  {
    if |u| == 0 || u[0] == '\n' then 0 else 1 + LineEnd(u[1..])
  }

  lemma {:induction false} LineEndAt(x: string, s: string)
    requires '\n' !in x
    ensures LineEnd(x + ("\n" + s)) == |x|
  {
    if |x| > 0 {
      assert (x + ("\n" + s))[1..] == x[1..] + ("\n" + s);
      assert x[0] in x;
      assert forall c :: c in x[1..] ==> c in x;
      LineEndAt(x[1..], s);
    }
  }

  /** A line of the URL list ends at its first newline. */
  lemma LineSplit(x: string, s: string, y: string, t: string)
    requires '\n' !in x && '\n' !in y
    requires x + ("\n" + s) == y + ("\n" + t)
    ensures x == y && s == t
  {
    var u := x + ("\n" + s);
    LineEndAt(x, s);
    LineEndAt(y, t);
    assert x == u[..|x|] && y == u[..|y|];
    assert s == u[|x| + 1..] && t == u[|y| + 1..];
  }

  /** When neither the prefix nor any URL contains a newline, the URL lines
      determine the URLs and their order. */
  lemma {:induction false} UrlLinesInjective(prefix: string, a: seq<string>, b: seq<string>)
    requires '\n' !in prefix
    requires forall i :: 0 <= i < |a| ==> '\n' !in a[i]
    requires forall i :: 0 <= i < |b| ==> '\n' !in b[i]
    requires UrlLines(prefix, a) == UrlLines(prefix, b)
    ensures a == b
  {
    if |a| > 0 && |b| > 0 {
      var pp := prefix + prefix;
      var x, y := pp + a[0], pp + b[0];
      var s, t := UrlLines(prefix, a[1..]), UrlLines(prefix, b[1..]);
      assert '\n' !in x by {
        forall k | 0 <= k < |x| ensures x[k] != '\n' {
          if k < |prefix| { assert x[k] == prefix[k]; }
          else if k < |pp| { assert x[k] == prefix[k - |prefix|]; }
          else { assert x[k] == a[0][k - |pp|]; }
        }
      }
      assert '\n' !in y by {
        forall k | 0 <= k < |y| ensures y[k] != '\n' {
          if k < |prefix| { assert y[k] == prefix[k]; }
          else if k < |pp| { assert y[k] == prefix[k - |prefix|]; }
          else { assert y[k] == b[0][k - |pp|]; }
        }
      }
      assert x + "\n" + s == x + ("\n" + s);
      assert y + "\n" + t == y + ("\n" + t);
      LineSplit(x, s, y, t);
      assert a[0] == x[|pp|..] && b[0] == y[|pp|..];
      UrlLinesInjective(prefix, a[1..], b[1..]);
      assert a == [a[0]] + a[1..] && b == [b[0]] + b[1..];
    }
  }

  /** The URL lines of two lists are the lines of the first followed by
      those of the second. */
  lemma {:induction false} UrlLinesAppend(prefix: string, a: seq<string>, b: seq<string>)
    ensures UrlLines(prefix, a + b) == UrlLines(prefix, a) + UrlLines(prefix, b)
  {
    if |a| > 0 {
      assert (a + b)[0] == a[0] && (a + b)[1..] == a[1..] + b;
      UrlLinesAppend(prefix, a[1..], b);
    } else {
      assert a + b == b;
    }
  }

  /** `urlDetail`: a newline, then one line per URL. */
  function UrlDetail(prefix: string, urls: seq<string>): (r: string)
    ensures |r| > 0 && r[0] == '\n'
    ensures |urls| == 0 <==> r == "\n"
  {
    if |urls| > 0 then "\n" + UrlLines(prefix, urls) else "\n"
  }

  /** Number of occurrences of `c` in `s`. */
  function CountChar(s: string, c: char): (n: nat)
    ensures n <= |s|
  {
    if |s| == 0 then 0 else (if s[0] == c then 1 else 0) + CountChar(s[1..], c)
  }

  lemma {:induction false} CountCharAppend(s: string, t: string, c: char)
    ensures CountChar(s + t, c) == CountChar(s, c) + CountChar(t, c)
  {
    if |s| > 0 {
      assert (s + t)[0] == s[0] && (s + t)[1..] == s[1..] + t;
      CountCharAppend(s[1..], t, c);
    } else {
      assert s + t == t;
    }
  }

  /** When neither the prefix nor any URL contains a newline, `urlDetail`
      holds exactly one line per URL after its leading newline. */
  lemma {:induction false} UrlLinesCount(prefix: string, urls: seq<string>)
    requires '\n' !in prefix && forall i :: 0 <= i < |urls| ==> '\n' !in urls[i]
    ensures CountChar(UrlLines(prefix, urls), '\n') == |urls|
  {
    if |urls| > 0 {
      var line := prefix + prefix + urls[0] + "\n";
      NoCharCount(prefix, '\n');
      NoCharCount(urls[0], '\n');
      CountCharAppend(prefix, prefix, '\n');
      CountCharAppend(prefix + prefix, urls[0], '\n');
      CountCharAppend(prefix + prefix + urls[0], "\n", '\n');
      CountCharAppend(line, UrlLines(prefix, urls[1..]), '\n');
      UrlLinesCount(prefix, urls[1..]);
    }
  }

  lemma {:induction false} NoCharCount(s: string, c: char)
    requires c !in s
    ensures CountChar(s, c) == 0
  {
    if |s| > 0 {
      assert s[0] != c;
      assert forall x :: x in s[1..] ==> x in s;
      NoCharCount(s[1..], c);
    }
  }

  lemma UrlDetailCount(prefix: string, urls: seq<string>)
    requires '\n' !in prefix && forall i :: 0 <= i < |urls| ==> '\n' !in urls[i]
    ensures CountChar(UrlDetail(prefix, urls), '\n') == |urls| + 1
  {
    UrlLinesCount(prefix, urls);
    if |urls| > 0 {
      CountCharAppend("\n", UrlLines(prefix, urls), '\n');
    }
  }

  /** `NewSchedSummary`. `urls` is the order in which the URL map is walked:
      each URL once. A nil scheduler has a nil summary; `Err` is the panic
      raised on a nil component, and `cacheCapacity` is the capacity of the
      cache's backing slice. */
  function NewSchedSummary(s: Option<S.Scheduler>, prefix: string, urls: seq<string>, cacheCapacity: nat)
    : (r: Result<Option<SchedSummary>>)
    requires s.Some? ==> Distinct(urls) && (set u | u in urls) == s.value.urlMap
    ensures s.None? ==> r == Ok(None)
    ensures s.Some? ==> (r.Ok? <==> var t := s.value;
                           t.chanman.Some? && t.reqCache.Some? && t.dlpool.Some? && t.analyzerPool.Some?
                           && t.itemPipeline.Some? && t.stopSign.Some?)
    ensures r.Ok? && r.value.Some? ==>
              var t := s.value; var ss := r.value.value;
              && ss.prefix == prefix && ss.running == t.running && ss.crawlDepth == t.crawlDepth
              && ss.channelArgs == t.channelArgs && ss.poolBaseArgs == t.poolBaseArgs
              && ss.urlCount == |t.urlMap|
              && ss.urlDetail == UrlDetail(prefix, urls)
              && ss.dlPoolLen == P.Used(t.dlpool.value) && ss.dlPoolCap == P.Total(t.dlpool.value)
              && ss.analyzerPoolLen == P.Used(t.analyzerPool.value) && ss.analyzerPoolCap == P.Total(t.analyzerPool.value)
              && ss.stopSignSummary == SS.Summary(t.stopSign.value)
              && ss.chanmanSummary == CM.Summary(t.chanman.value)
              && ss.reqCacheSummary == RC.Summary(t.reqCache.value, cacheCapacity)
              && ss.itemPipelineSummary == IP.Summary(t.itemPipeline.value)
  {
    match s
    case None => Ok(None)
    case Some(t) =>
      if t.chanman.None? || t.reqCache.None? || t.dlpool.None? || t.analyzerPool.None?
         || t.itemPipeline.None? || t.stopSign.None? then Err(NilPointerPanic)
      else
        Ok(Some(SchedSummary(prefix, t.running, t.channelArgs, t.poolBaseArgs, t.crawlDepth,
                             CM.Summary(t.chanman.value), RC.Summary(t.reqCache.value, cacheCapacity),
                             P.Used(t.dlpool.value), P.Total(t.dlpool.value),
                             P.Used(t.analyzerPool.value), P.Total(t.analyzerPool.value),
                             IP.Summary(t.itemPipeline.value), |t.urlMap|, UrlDetail(prefix, urls),
                             SS.Summary(t.stopSign.value))))
  }

  /** `getSummary`: the eleven lines of the template, each behind the
      prefix; `detail` chooses between the URL list and "<concealed>". The
      prefix is copied as literal text, which is what `Sprintf` does with a
      prefix free of '%'. */
  function GetSummary(ss: SchedSummary, detail: bool): (r: string)
    ensures IsPrefix(ss.prefix + "Running: " + BoolString(ss.running == 1) + " \n", r)
    ensures IsSuffix(ss.prefix + "Urls(" + NatToString(ss.urlCount) + "): "
                     + (if detail then ss.urlDetail else "<concealed>\n")
                     + (ss.prefix + "Stop sign: " + ss.stopSignSummary + "\n"), r)
    ensures IsSuffix(ss.prefix + "Stop sign: " + ss.stopSignSummary + "\n", r)
  {
    var p := ss.prefix;
    var head := p + "Running: " + BoolString(ss.running == 1) + " \n";
    var last := p + "Stop sign: " + ss.stopSignSummary + "\n";
    var urls := p + "Urls(" + NatToString(ss.urlCount) + "): " + (if detail then ss.urlDetail else "<concealed>\n");
    var middle :=
      p + "Channel args: " + A.ChannelArgsString(ss.channelArgs).1 + " \n"
      + p + "Pool base args: " + A.PoolBaseArgsString(ss.poolBaseArgs).1 + " \n"
      + p + "Crawl depth: " + NatToString(ss.crawlDepth) + " \n"
      + p + "Channels manager: " + ss.chanmanSummary + " \n"
      + p + "Request cache: " + ss.reqCacheSummary + "\n"
      + p + "Downloader pool: " + NatToString(ss.dlPoolLen) + "/" + NatToString(ss.dlPoolCap) + "\n"
      + p + "Analyzer pool: " + NatToString(ss.analyzerPoolLen) + "/" + NatToString(ss.analyzerPoolCap) + "\n"
      + p + "Item pipeline: " + ss.itemPipelineSummary + "\n";
    PrefixOfAppend(head, middle + (urls + last));
    SuffixOfAppend(head, middle, urls + last);
    SuffixOfAppend([], urls, last);
    assert [] + (urls + last) == urls + last;
    SuffixTransitive(last, urls + last, head + (middle + (urls + last)));
    head + (middle + (urls + last))
  }

  /** `String`: the summary with the URL list concealed. */
  function String(ss: SchedSummary): (r: string)
    ensures IsSuffix(ss.prefix + "Urls(" + NatToString(ss.urlCount) + "): " + "<concealed>\n"
                     + (ss.prefix + "Stop sign: " + ss.stopSignSummary + "\n"), r)
  {
    GetSummary(ss, false)
  }

  /** `Detail`: the summary with the URL list, one line per URL. */
  function Detail(ss: SchedSummary): (r: string)
    ensures IsSuffix(ss.prefix + "Urls(" + NatToString(ss.urlCount) + "): " + ss.urlDetail
                     + (ss.prefix + "Stop sign: " + ss.stopSignSummary + "\n"), r)
  {
    GetSummary(ss, true)
  }

  /** `String` conceals the URLs, so it does not depend on `urlDetail`. */
  lemma StringIgnoresUrlDetail(ss: SchedSummary, d: string)
    ensures String(ss.(urlDetail := d)) == String(ss)
  {
  }

  /** `Detail` prints exactly what `String` prints once the URL detail is
      replaced by the concealment marker. */
  lemma DetailConcealed(ss: SchedSummary)
    ensures Detail(ss.(urlDetail := "<concealed>\n")) == String(ss)
  {
  }

  /** `Same`: compares thirteen of the fields, the argument containers
      through their renderings; the prefix and the URL detail are ignored. */
  function Same(ss: SchedSummary, other: Option<SchedSummary>): (r: bool)
    ensures other.None? ==> !r
  {
    match other
    case None => false
    case Some(o) =>
      !(ss.running != o.running
        || ss.crawlDepth != o.crawlDepth
        || ss.dlPoolLen != o.dlPoolLen
        || ss.dlPoolCap != o.dlPoolCap
        || ss.analyzerPoolLen != o.analyzerPoolLen
        || ss.analyzerPoolCap != o.analyzerPoolCap
        || ss.urlCount != o.urlCount
        || ss.stopSignSummary != o.stopSignSummary
        || ss.reqCacheSummary != o.reqCacheSummary
        || A.PoolBaseArgsString(ss.poolBaseArgs).1 != A.PoolBaseArgsString(o.poolBaseArgs).1
        || A.ChannelArgsString(ss.channelArgs).1 != A.ChannelArgsString(o.channelArgs).1
        || ss.itemPipelineSummary != o.itemPipelineSummary
        || ss.chanmanSummary != o.chanmanSummary)
  }

  lemma SameReflexive(ss: SchedSummary)
    ensures Same(ss, Some(ss))
  {
  }

  lemma SameSymmetric(a: SchedSummary, b: SchedSummary)
    ensures Same(a, Some(b)) == Same(b, Some(a))
  {
  }

  /** Summaries that differ only in prefix and URL detail are the same. */
  lemma SameIgnoresPrefixAndDetail(ss: SchedSummary, prefix: string, urlDetail: string)
    ensures Same(ss, Some(ss.(prefix := prefix, urlDetail := urlDetail)))
  {
  }

  /** Any difference in a compared number makes the summaries differ. */
  lemma SameComparesNumbers(a: SchedSummary, b: SchedSummary)
    requires Same(a, Some(b))
    ensures a.running == b.running && a.crawlDepth == b.crawlDepth
    ensures a.dlPoolLen == b.dlPoolLen && a.dlPoolCap == b.dlPoolCap
    ensures a.analyzerPoolLen == b.analyzerPoolLen && a.analyzerPoolCap == b.analyzerPoolCap
    ensures a.urlCount == b.urlCount
    ensures a.stopSignSummary == b.stopSignSummary && a.reqCacheSummary == b.reqCacheSummary
    ensures a.itemPipelineSummary == b.itemPipelineSummary && a.chanmanSummary == b.chanmanSummary
  {
  }

  /** Comparing the renderings of the argument containers compares the
      arguments themselves, as long as their cached renderings are not stale. */
  lemma SameComparesArguments(a: SchedSummary, b: SchedSummary)
    requires Same(a, Some(b))
    requires A.Consistent(a.channelArgs) && A.Consistent(b.channelArgs)
    requires A.PoolConsistent(a.poolBaseArgs) && A.PoolConsistent(b.poolBaseArgs)
    ensures A.ChannelLens(a.channelArgs) == A.ChannelLens(b.channelArgs)
    ensures a.poolBaseArgs.pageDownloaderPoolSize == b.poolBaseArgs.pageDownloaderPoolSize
    ensures a.poolBaseArgs.analyzerPoolSize == b.poolBaseArgs.analyzerPoolSize
  {
    var x := a.channelArgs;
    var y := b.channelArgs;
    A.DescribeChannelArgsInjective(x.reqChanLen, x.respChanLen, x.itemChanLen, x.errorChanLen,
                                   y.reqChanLen, y.respChanLen, y.itemChanLen, y.errorChanLen);
    A.DescribePoolBaseArgsInjective(a.poolBaseArgs.pageDownloaderPoolSize, a.poolBaseArgs.analyzerPoolSize,
                                    b.poolBaseArgs.pageDownloaderPoolSize, b.poolBaseArgs.analyzerPoolSize);
  }

  /** Summaries that are the same and share a prefix print the same
      concise rendering. */
  lemma SameStringsAgree(a: SchedSummary, b: SchedSummary)
    requires Same(a, Some(b)) && a.prefix == b.prefix
    ensures String(a) == String(b)
  {
  }
}

=== FILE: util.dfy ===
/** `appendIfAbsent` of pkgtool/util.go: each string of `t`, in order, is
    appended to `s` unless the slice built so far already holds it. */
module PkgUtil {
  import opened Common

  /** The result after the strings of `t` have been considered in order. */
  function AppendIfAbsent(s: seq<string>, t: seq<string>): (r: seq<string>)
    ensures IsPrefix(s, r)
    ensures forall x :: x in r <==> x in s || x in t
    ensures |r| <= |s| + |t|
  {
    if |t| == 0 then s
    else
      var prev := AppendIfAbsent(s, t[..|t| - 1]);
      var x := t[|t| - 1];
      assert t == t[..|t| - 1] + [x];
      if x in prev then prev else prev + [x]
  }

  /** The reference: the strings of `t` that are neither in `s` nor earlier
      in `t`, in the order of `t`. */
  function FirstNew(s: seq<string>, t: seq<string>): seq<string> {
    if |t| == 0 then []
    else
      var x := t[|t| - 1];
      FirstNew(s, t[..|t| - 1]) + (if x !in s && x !in t[..|t| - 1] then [x] else [])
  }

  /** What is appended is exactly the first occurrence of each new string. */
  lemma {:induction false} AppendsFirstNew(s: seq<string>, t: seq<string>)
    ensures AppendIfAbsent(s, t) == s + FirstNew(s, t)
  {
    if |t| > 0 {
      AppendsFirstNew(s, t[..|t| - 1]);
    }
  }

  /** Nothing appended was already in `s`, and nothing is appended twice. */
  lemma {:induction false} FirstNewIsNewAndDistinct(s: seq<string>, t: seq<string>)
    ensures Distinct(FirstNew(s, t))
    ensures forall x :: x in FirstNew(s, t) <==> x !in s && x in t
  {
    if |t| > 0 {
      var u := t[..|t| - 1];
      var x := t[|t| - 1];
      FirstNewIsNewAndDistinct(s, u);
      assert t == u + [x];
      if x !in s && x !in u {
        var f := FirstNew(s, u);
        assert x !in f;
        assert FirstNew(s, t) == f + [x];
      }
    }
  }

  /** Distinct entries stay distinct. */
  lemma KeepsDistinct(s: seq<string>, t: seq<string>)
    requires Distinct(s)
    ensures Distinct(AppendIfAbsent(s, t))
  {
    AppendsFirstNew(s, t);
    FirstNewIsNewAndDistinct(s, t);
    var f := FirstNew(s, t);
    var r := s + f;
    forall i, j | 0 <= i < j < |r|
      ensures r[i] != r[j]
    {
      if j >= |s| && i < |s| {
        assert r[j] == f[j - |s|] && r[i] in s;
      } else if i >= |s| {
        assert r[i] == f[i - |s|] && r[j] == f[j - |s|];
      }
    }
  }

  /** Strings already present are never appended. */
  lemma {:induction false} AllPresent(s: seq<string>, t: seq<string>)
    requires forall x :: x in t ==> x in s
    ensures AppendIfAbsent(s, t) == s
  {
    if |t| > 0 {
      AllPresent(s, t[..|t| - 1]);
    }
  }

  /** Applying it again with the same strings changes nothing. */
  lemma Idempotent(s: seq<string>, t: seq<string>)
    ensures AppendIfAbsent(AppendIfAbsent(s, t), t) == AppendIfAbsent(s, t)
  {
    AllPresent(AppendIfAbsent(s, t), t);
  }

  /** The nested loops: for each string of `t`, a scan of the slice so far. */
  method AppendIfAbsentLoop(s: seq<string>, t: seq<string>) returns (r: seq<string>)
    ensures r == AppendIfAbsent(s, t)
  {
    r := s;
    var i := 0;
    while i < |t|
      invariant 0 <= i <= |t|
      invariant r == AppendIfAbsent(s, t[..i])
    {
      var t1 := t[i];
      var contains := Scan(r, t1);
      assert t[..i + 1][..i] == t[..i];
      if !contains {
        r := r + [t1];
      }
      i := i + 1;
    }
    assert t[..|t|] == t;
  }

  /** The inner loop: a scan of `r` for `x`, stopping at the first match. */
  method Scan(r: seq<string>, x: string) returns (contains: bool)
    ensures contains <==> x in r
  {
    contains := false;
    var j := 0;
    while j < |r|
      invariant 0 <= j <= |r|
      invariant contains ==> x in r
      invariant !contains ==> x !in r[..j]
    {
      if r[j] == x {
        contains := true;
        break;
      }
      assert r[..j + 1] == r[..j] + [r[j]];
      j := j + 1;
    }
    assert r[..|r|] == r;
  }
}
